=== FILE: README.md ===
# Flashcards: a Dafny model of the generation, storage, review and auth core

The repository holds one flashcard product written several times over. There are four back ends:

- a Spring service;
- an Express service, in `backend/` and in `backend_express/`;
- an Astro site with API routes;
- a Next.js site.

There are also React, Next.js and Angular clients. They all share the same flow:

1. A user pastes 1000 to 10000 characters of text.
2. A language model proposes question/answer cards.
3. The user accepts, edits or rejects each proposal.
4. The kept cards are saved under a *generation*, a record of one model run, owned by that user.

This project models, as pure Dafny functions over immutable datatypes:

- **Reading model replies into proposals.**
  - Spring uses a two-phase parser: strict JSON first, then the `---` / `FRONT:` / `BACK:` text format.
  - Node and Astro use JSON first, then the span from the first `[` to the last `]`.
  - The same files build the prompt, clean the title (trim, strip quotes, at most 40 characters) and report the duration as an ISO 8601 `PT<n>S` string. Java truncates the seconds; TypeScript rounds them up.
- **The generation and flashcard stores.**
  - Owner scoping applies throughout.
  - Spring replaces a generation's cards; Express appends them and recomputes the accepted counts.
  - Deletion cascades.
  - Single cards can be created, updated, deleted and patched.
  - Bulk inserts are all-or-nothing.
  - The HTTP routes map store outcomes to status codes.
- **The review state machines of the clients.**
  - The React hook's per-index statuses and edit list.
  - The Angular approve/edit list.
  - The per-proposal edit form.
  - The Next.js inline card editor.
  - The React client's `savingIds` bookkeeping and toasts.
  - The `ai-full → ai-edited` source transition.
- **The model-client helpers.**
  - A circuit breaker, a token-bucket rate limiter and a TTL response cache.
  - Request validation and mapping an HTTP status to an error code.
  - Error normalisation.
- **The authentication decisions.**
  - The Next.js route guard and the cookie/header token precedence.
  - `Bearer ` prefix stripping, as in section 2.1 of RFC 6750.
  - Extraction of `error_description` from Supabase error bodies.
  - Registration outcomes.

Some things become parameters of the functions that need them. Each is written as an *oracle*, a function parameter whose result the model takes as given:

- Replies from the model provider, the database and the identity provider.
- JSON decoding, an oracle from text to an optional value.
- SHA-256 hashing, an oracle.
- JWT verification, an oracle on the token.
- The clock, integers passed in.

Each request is one atomic step.

Modules, one per file:

| module | file |
|---|---|
| `Wrappers` | `wrappers.dfy` |
| `Text` | `text.dfy` |
| `Ordering` | `ordering.dfy` |
| `Sources` | `source.dfy` |
| `Durations` | `durations.dfy` |
| `SpringParser` | `spring_parser.dfy` |
| `SpringProviders` | `spring_providers.dfy` |
| `SpringStore` | `spring_store.dfy` |
| `NodeGeneration` | `node_generation.dfy` |
| `NodeStore` | `node_store.dfy` |
| `NodeRoutes` | `node_routes.dfy` |
| `ReviewHook` | `review_hook.dfy` |
| `AngularReview` | `angular_review.dfy` |
| `CardEdit` | `card_edit.dfy` |
| `CircuitBreakers` | `breaker.dfy` |
| `RateLimiter` | `rate_limiter.dfy` |
| `ResponseCache` | `response_cache.dfy` |
| `RouterClient` | `router_client.dfy` |
| `SupabaseAuth` | `supabase_auth.dfy` |
| `RouteGuards` | `route_guards.dfy` |

`Text` and `Ordering` hold the string and sequence helpers the rest share:

- Java `trim` / `split`;
- JavaScript `trim` / `parseInt`;
- `indexOf`;
- sorting listings by a key.

## Model

| member | source | states |
|---|---|---|
| Text.JavaSplit | spring-backend/src/main/java/com/tenxcards/flashcards/service/OpenAIService.java:101 | Java's `split("---")`: the text itself when the separator does not occur; otherwise the separator-free pieces whose join is the text, with only trailing empty pieces dropped |
| Text.ParseIntJsOfRendered | backend/src/routes/generations.ts:90-97 | `parseInt(…, 10)` reads back every integer's decimal rendering, whatever non-digit text follows it |
| Sources.Value | spring-backend/src/main/java/com/tenxcards/flashcards/entity/FlashcardSource.java:7-20 | every constant's wire value is one of `manual`, `ai-full`, `ai-edited` |
| Sources.FromValue | spring-backend/src/main/java/com/tenxcards/flashcards/entity/FlashcardSource.java:22-32 | succeeds exactly on the three wire values, case-sensitively, and then returns the constant whose value is the input; any other string or null is the `IllegalArgumentException` with its message |
| Sources.FromValueOfValue | spring-backend/src/main/java/com/tenxcards/flashcards/entity/FlashcardSource.java:17-28 | `fromValue(getValue(c)) == c` for every constant |
| Sources.ValueInjective | spring-backend/src/main/java/com/tenxcards/flashcards/entity/FlashcardSource.java:7-9 | two constants with the same wire value are the same constant |
| Sources.ToColumn | spring-backend/src/main/java/com/tenxcards/flashcards/entity/FlashcardSourceConverter.java:9-11 | null is stored as null and a constant as one of the three wire values |
| Sources.ToAttribute | spring-backend/src/main/java/com/tenxcards/flashcards/entity/FlashcardSourceConverter.java:13-16 | a null column reads as null; a column is accepted exactly when it is null or a wire value |
| Sources.ConverterRoundTrip | spring-backend/src/main/java/com/tenxcards/flashcards/entity/FlashcardSourceConverter.java:9-16 | reading back what was stored gives the attribute, null included |
| Sources.ConverterColumnRoundTrip | spring-backend/src/main/java/com/tenxcards/flashcards/entity/FlashcardSourceConverter.java:9-16 | storing what was read gives back every column the converter accepts |
| Sources.SourceBadgeVariant | frontend/src/hooks/useFlashcardOperations.ts:94-101 | `ai-full` is the secondary badge, `ai-edited` the outline badge, everything else (manual and unknown) the default one, each in both directions |
| Sources.SourceLabel | frontend/src/hooks/useFlashcardOperations.ts:103-110 | a wire value gets one of the three human labels, which differs from it; any other string is shown unchanged |
| Sources.SourceLabelDistinguishesSources | frontend/src/hooks/useFlashcardOperations.ts:103-110 | no two sources share a label |
| Durations.IsoSeconds | spring-backend/src/main/java/com/tenxcards/flashcards/controller/GenerationController.java:78 | the duration string has the `PT…S` designator form |
| Durations.IsoSecondsRoundTrip | backend/src/services/generationService.ts:211 | the seconds can be read back from every `PT<n>S` string, negative counts included |
| Durations.FloorSeconds | spring-backend/src/main/java/com/tenxcards/flashcards/controller/GenerationController.java:78 | `Duration.getSeconds` is the largest whole second not after the elapsed time |
| Durations.CeilSeconds | backend/src/services/generationService.ts:205 | `Math.ceil(ms / 1000)` is the smallest whole second not before the elapsed time |
| Durations.SpringDurationBounds | spring-backend/src/main/java/com/tenxcards/flashcards/controller/GenerationController.java:67-78 | the Spring string reads back as a second count `s` with `s·10⁹ ≤ nanos < (s+1)·10⁹` |
| Durations.NodeDurationBounds | backend/src/services/generationService.ts:202-212 | the Node string reads back as a second count `s` with `(s−1)·1000 < ms ≤ s·1000` |
| Durations.SpringDuration | spring-backend/src/main/java/com/tenxcards/flashcards/controller/GenerationController.java:78 | the reported duration reads back as the span's whole seconds, rounded down |
| Durations.NodeDuration | backend/src/services/generationService.ts:205-211 | the reported duration reads back as the span's milliseconds in seconds, rounded up |
| Durations.SpringAndNodeDurationsAgreeOnWholeSeconds | backend/src/services/generationService.ts:205 | the two back ends report the same duration exactly when the run lasted a whole number of seconds, and otherwise Node reports one second more |
| SpringParser.FromJson | spring-backend/src/main/java/com/tenxcards/flashcards/dto/FlashcardProposalDTO.java:5-7 | a decoded card keeps its string front and back; an absent source takes the `ai-full` default, an explicit null stays null and a string is kept |
| SpringParser.FindGroup | spring-backend/src/main/java/com/tenxcards/flashcards/service/OpenAIService.java:108-114 | the lazy `TAG:\s*(.+?)(?=STOP\|$)` capture: it fails exactly when every occurrence of the tag ends the text, and a capture is never empty |
| SpringParser.ParsePiece | spring-backend/src/main/java/com/tenxcards/flashcards/service/OpenAIService.java:103-121 | a segment that is blank after trimming gives no card; a card it gives has non-empty trimmed front and back and source `ai-full` |
| SpringParser.ParsePieces | spring-backend/src/main/java/com/tenxcards/flashcards/service/OpenAIService.java:103-122 | at most one card per segment, each a non-empty trimmed text card |
| SpringParser.ParseText | spring-backend/src/main/java/com/tenxcards/flashcards/service/OpenAIService.java:96-122 | the text phase yields only non-empty trimmed text cards |
| SpringParser.ParseFlashcards | spring-backend/src/main/java/com/tenxcards/flashcards/service/OpenAIService.java:88-126 | a decoded JSON list is returned verbatim and in order with no emptiness filter; a JSON `null` returns null; anything that does not decode goes to the text phase |
| SpringParser.TextFormatRoundTrip | spring-backend/src/main/java/com/tenxcards/flashcards/service/OpenAIService.java:88-126 | cards rendered in the prompt's `FRONT:`/`BACK:`/`---` format are parsed back exactly and in order |
| SpringParser.JavaSplitOfRendered | spring-backend/src/main/java/com/tenxcards/flashcards/service/OpenAIService.java:101 | splitting a rendered reply on `---` gives exactly the rendered cards |
| SpringParser.ParsePiecesOfRendered | spring-backend/src/main/java/com/tenxcards/flashcards/service/OpenAIService.java:103-122 | each rendered card's segment yields that card, and the empty reply yields none |
| SpringParser.ParseRenderedCard | spring-backend/src/main/java/com/tenxcards/flashcards/service/OpenAIService.java:104-120 | the two regexes recover a rendered card's front and back |
| SpringProviders.BuildPrompt | spring-backend/src/main/java/com/tenxcards/flashcards/service/OpenAIService.java:75-85 | the user prompt is the fixed instruction prefix followed by the text verbatim |
| SpringProviders.PromptKeepsText | spring-backend/src/main/java/com/tenxcards/flashcards/service/OpenAIService.java:75-85 | the text can be read back from the prompt |
| SpringProviders.BuildPromptInjective | spring-backend/src/main/java/com/tenxcards/flashcards/service/OpenRouterService.java:76-86 | different texts give different prompts |
| SpringProviders.CompletionRequest | spring-backend/src/main/java/com/tenxcards/flashcards/service/OpenRouterService.java:33-44 | the request carries the configured model, a system message with the system prompt and a user message holding the text, temperature 0.7 and 2000 max tokens |
| SpringProviders.OpenAIGenerate | spring-backend/src/main/java/com/tenxcards/flashcards/service/OpenAIService.java:46-73 | a provider exception is rethrown; null or empty choices give an empty list; otherwise the first choice's content is parsed |
| SpringProviders.OpenAIReadsTextFormatReply | spring-backend/src/main/java/com/tenxcards/flashcards/service/OpenAIService.java:62-64 | a reply whose first choice is a rendered card list yields those cards, whatever the other choices hold |
| SpringProviders.OpenRouterGenerate | spring-backend/src/main/java/com/tenxcards/flashcards/service/OpenRouterService.java:59-73 | only a 200 with a body and non-empty choices reaches the parser and every other reply gives an empty list; every exception comes out wrapped in a `RuntimeException` |
| SpringProviders.ProvidersAgreeOnContent | spring-backend/src/main/java/com/tenxcards/flashcards/service/OpenRouterService.java:88-114 | both providers turn the same reply content into the same proposals |
| SpringStore.ToDto | spring-backend/src/main/java/com/tenxcards/flashcards/controller/FlashcardController.java:118-133 | the DTO's `generation_id` is present exactly when the card has a generation, and its source string reads back as the card's source |
| SpringStore.SaveGeneration | spring-backend/src/main/java/com/tenxcards/flashcards/entity/Generation.java:19-56 | a new generation is inserted exactly when every NOT NULL column without a default has a value and the database does not fail; the row then gets the next id, the creation time, zero counters and the entity's values |
| SpringStore.GenerateWith | spring-backend/src/main/java/com/tenxcards/flashcards/controller/GenerationController.java:48-93 | no user is 401; the provider is called before any save, so a provider exception is a 500 that creates nothing, and so is a refused save; a null list fails after the save; on success the reply carries the new id, the name, the proposals, their count and a duration that reads back as the truncated seconds |
| SpringStore.GenerateFlashcardsAsWritten | spring-backend/src/main/java/com/tenxcards/flashcards/controller/GenerationController.java:69-73 | as written, the entity gets only a name and an owner, so a valid request from a known user is always a 500 and nothing is stored; an invalid body is 400 and no user is 401 |
| SpringStore.GenerateFlashcardsAsWrittenNeverSucceeds | spring-backend/src/main/java/com/tenxcards/flashcards/controller/GenerationController.java:69-73 | even when the provider returns cards and the database accepts valid inserts, the endpoint as written answers 500 with the store unchanged, while the corrected endpoint succeeds |
| SpringStore.GenerateFlashcards | spring-backend/src/main/java/com/tenxcards/flashcards/controller/GenerationController.java:48-93 | a body failing `@NotBlank` or the 1000..10000 `@Size` is 400; no user is 401; a provider exception or a failed save is 500 with nothing stored; otherwise one row is saved holding the text's length and hash, the duration and the model, with counters 0; it succeeds exactly when the provider returns a list and the save succeeds; `generatedCount` is the number of proposals and the duration reads back as the truncated seconds; the store invariant is kept |
| SpringStore.GeneratedGenerationIsEmpty | spring-backend/src/main/java/com/tenxcards/flashcards/controller/GenerationController.java:69-73 | a generation just created is found by its owner and holds no cards |
| SpringStore.GenerationIdsOf | spring-backend/src/main/java/com/tenxcards/flashcards/controller/GenerationController.java:106 | the listing holds each of the caller's generations exactly once, and nothing else, newest first |
| SpringStore.GetGenerations | spring-backend/src/main/java/com/tenxcards/flashcards/controller/GenerationController.java:95-118 | no user is 401; otherwise every generation the caller owns is listed once, each with its own summary, newest first |
| SpringStore.CardIdsOf | spring-backend/src/main/java/com/tenxcards/flashcards/controller/GenerationController.java:140 | the generation's cards, each once and nothing else, ordered by display order |
| SpringStore.GetGeneration | spring-backend/src/main/java/com/tenxcards/flashcards/controller/GenerationController.java:120-154 | no user is 401; a generation not owned by the caller is 404; otherwise the summary and exactly the generation's cards, each once, ordered by display order |
| SpringStore.FirstInvalid | spring-backend/src/main/java/com/tenxcards/flashcards/controller/GenerationController.java:183-199 | the index of the first item whose source `fromValue` rejects, and the length when every source is accepted |
| SpringStore.WithoutCardsOf | spring-backend/src/main/java/com/tenxcards/flashcards/controller/GenerationController.java:179 | `deleteByGeneration` removes exactly the generation's cards and keeps every other card unchanged |
| SpringStore.ReplaceContents | spring-backend/src/main/java/com/tenxcards/flashcards/controller/GenerationController.java:178-199 | after a replace, the generation's cards are exactly the newly numbered ones, and every other card is kept |
| SpringStore.UpdateGenerationAsWritten | spring-backend/src/main/java/com/tenxcards/flashcards/controller/GenerationController.java:156-207 | as written, the update deletes the old cards and saves items up to the first one that cannot be saved; when that item's source is unknown, the deletion and the earlier saves are committed under a 500; when its front or back is null or over 1000 characters, the refused insert marks the transaction rollback-only, so nothing is kept and the reply is the framework's 500 |
| SpringStore.UpdateGenerationAsWrittenRollsBackLongSide | spring-backend/src/main/java/com/tenxcards/flashcards/controller/GenerationController.java:189-196 | as written, a 1001-character front rolls the whole update back, old cards included |
| SpringStore.UpdateGenerationAsWrittenCommitsPartially | spring-backend/src/main/java/com/tenxcards/flashcards/controller/GenerationController.java:192-206 | a request whose second source is `AI-FULL` is answered 500, yet the old card is gone and the first item is saved |
| SpringStore.UpdateGeneration | spring-backend/src/main/java/com/tenxcards/flashcards/controller/GenerationController.java:156-207 | 401 without a user and 404 for a foreign generation, with nothing changed; the update succeeds exactly when every item has a known source and a non-null front and back of at most 1000 characters, and then the generation's cards are exactly the items; a 500 changes nothing; the invariant is kept |
| SpringStore.UpdatedGenerationReadsBack | spring-backend/src/main/java/com/tenxcards/flashcards/controller/GenerationController.java:183-199 | after a successful update, reading the generation lists exactly the submitted cards, in order, with display orders 1..N |
| SpringStore.UpdateGenerationAgreesOnSuccess | spring-backend/src/main/java/com/tenxcards/flashcards/controller/GenerationController.java:156-207 | the corrected update and the update as written agree on every request that succeeds |
| SpringStore.DeleteGeneration | spring-backend/src/main/java/com/tenxcards/flashcards/controller/GenerationController.java:209-242 | 401 or 404 with nothing changed; otherwise exactly the generation and its cards are removed and everything else is kept |
| SpringStore.CreateFlashcard | spring-backend/src/main/java/com/tenxcards/flashcards/controller/FlashcardController.java:31-63 | a body failing `CreateFlashcardCommand`'s constraints (blank or over-long front or back, blank source or one other than `manual`, `ai-full`, `ai-edited`, no display order) is 400 with nothing saved, and every other body succeeds; front, back, source and display order are copied from the command; the card belongs to the caller; the generation is attached exactly when the caller owns it, and otherwise the card is saved without one |
| SpringStore.CreateAcceptsExactlyKnownSources | spring-backend/src/main/java/com/tenxcards/flashcards/dto/CreateFlashcardCommand.java:17-19 | with valid text and a display order, a create succeeds exactly for the source names `fromValue` knows |
| SpringStore.UpdateFlashcard | spring-backend/src/main/java/com/tenxcards/flashcards/controller/FlashcardController.java:65-93 | a body failing `UpdateFlashcardCommand`'s constraints is 400 before any lookup, with nothing changed; a card the caller does not own is 404 with nothing changed; otherwise only front, back and source change, the source is never `ai-full`, and owner, generation, display order and every other card are kept |
| SpringStore.UpdateToAiFullIsRefused | spring-backend/src/main/java/com/tenxcards/flashcards/dto/UpdateFlashcardCommand.java:17-19 | an update that declares a card `ai-full` is 400 and changes nothing, whatever the card |
| SpringStore.DeleteFlashcard | spring-backend/src/main/java/com/tenxcards/flashcards/controller/FlashcardController.java:95-116 | a card the caller does not own is 404 with nothing changed; otherwise exactly that card is removed |
| NodeGeneration.ToProposal | backend/src/services/generationService.ts:173-177 | a missing front or back becomes `''`, and the source is always `ai-full` |
| NodeGeneration.MapItems | backend/src/services/generationService.ts:173-177 | every array element becomes one proposal in order and none is dropped; a `null` element makes the mapping throw |
| NodeGeneration.ArraySpan | backend/src/services/generationService.ts:185 | the greedy `\[[\s\S]*\]` match runs from the first `[` to the last `]` after it, and fails exactly when no `]` follows a `[` |
| NodeGeneration.ParseProposals | backend/src/services/generationService.ts:165-200 | an array that decodes is taken whole; otherwise the bracket span is decoded; no span and an undecodable span are the two distinct errors; every proposal is `ai-full` |
| NodeGeneration.ReadArray | backend/src/services/generationService.ts:167-180 | the whole reply gives proposals exactly when it parses to an array without `null` elements, one proposal per element in order |
| NodeGeneration.WrappedArrayIsFound | backend/src/services/generationService.ts:181-193 | an array surrounded by prose with no brackets is still found and read |
| NodeGeneration.ArrayOfCardsIsReadVerbatim | backend/src/services/generationService.ts:169-177 | a reply that is an array of complete cards yields exactly those cards, in order |
| NodeGeneration.StripQuotes | backend/src/services/generationService.ts:242 | removes at most one leading and one trailing `'` or `"`, which need not match, and nothing else |
| NodeGeneration.CleanTitle | backend/src/services/generationService.ts:239-249 | trim, strip quotes, and cut anything over 40 characters to 37 plus `...`; the result is at most 40 characters |
| NodeGeneration.CleanTitleKeepsCleanTitle | backend/src/services/generationService.ts:239-249 | a title that is short, trimmed and unquoted passes through unchanged |
| NodeGeneration.GenerationTitle | backend/src/services/generationService.ts:220-255 | a failed title request gives `Generated Flashcards`, otherwise the cleaned reply |
| NodeGeneration.ValidateCommandAsWritten | src/pages/api/generations/index.ts:10-15 | the zod schema checks the length of the raw text and trims only afterwards |
| NodeGeneration.ValidateCommandAsWrittenAcceptsShortText | src/pages/api/generations/index.ts:10-15 | 999 letters plus a space pass the 1000-character minimum, and the trimmed text sent on has 999 characters |
| NodeGeneration.ValidateCommand | backend/src/routes/generations.ts:10-15 | the corrected schema accepts exactly a string whose trimmed length is within 1000..10000, returns the trimmed text, and gives the required, too-short or too-long message otherwise |
| NodeGeneration.ValidateCommandAgreesOnTrimmedText | backend/src/routes/generations.ts:10-15 | on text that is already trimmed, the corrected schema and the schema as written agree |
| NodeStore.ProposalsFromReply | backend/src/services/generationService.ts:141-218 | a failed model call fails with its message; otherwise the proposals are the parsed reply, `generated_count` is their number and the duration is the rounded-up seconds |
| NodeStore.LogError | backend/src/services/generationService.ts:70-81 | appends one error-log row with the user, model `gpt-4o-mini`, the text's hash and length, code `GENERATION_ERROR` and the message; nothing else changes |
| NodeStore.GenerateFlashcards | backend/src/services/generationService.ts:24-88 | it succeeds exactly when the reply parses and the insert succeeds, and then inserts one generation row with both accepted counts 0; any failure logs the error and surfaces as the single message `An error occurred while generating flashcards` |
| NodeStore.GetGeneration | backend/src/services/generationService.ts:117-137 | found exactly when the caller owns the generation, and then the generation with exactly its cards; otherwise `Generation not found` |
| NodeStore.CreatedGenerationReadsBack | backend/src/services/generationService.ts:38-66 | the generation just created can be read by its creator, with the reported counts, and not by anyone else |
| NodeStore.GenerationIdsOf | backend/src/services/generationService.ts:90-115 | each of the caller's generations exactly once and nothing else, newest first |
| NodeStore.GetGenerations | backend/src/services/generationService.ts:90-115 | the caller's generations, each with its own summary, newest first |
| NodeStore.GenerationsListed | backend/src/services/generationService.ts:90-115 | every generation the caller owns appears in the listing |
| NodeStore.CountsCoverAiSources | backend/src/services/generationService.ts:313-314 | when every card is `ai-full` or `ai-edited`, the two accepted counts add up to the number of cards |
| NodeStore.InsertedRows | backend/src/services/generationService.ts:293-305 | one new row per card under fresh ids, in request order, with the caller as owner, this generation and display order `index+1` |
| NodeStore.UpdateGeneration | backend/src/services/generationService.ts:288-331 | a foreign or missing generation is `Generation not found` with nothing written; otherwise the cards are appended without deleting any, and the accepted counts become the numbers of `ai-full` and `ai-edited` cards in the request |
| NodeStore.UpdateAppends | backend/src/services/generationService.ts:293-323 | after an update, every earlier card is still there and unchanged, and the generation's other fields are kept |
| NodeStore.DeleteGeneration | backend/src/services/generationService.ts:261-286 | a foreign or missing generation is not found with nothing changed; otherwise the generation and exactly the cards of it are removed, and nothing else changes |
| NodeStore.DeletedGenerationIsGone | backend/src/services/generationService.ts:261-286 | after a delete, the generation can no longer be read, and every other generation is as readable as before |
| NodeStore.GetFlashcard | backend/src/services/flashcardService.ts:23-36 | found exactly when the card is the caller's, and otherwise `Flashcard not found` |
| NodeStore.GetFlashcards | backend_express/src/services/flashcardService.ts:10-21 | exactly the caller's cards |
| NodeStore.CreateFlashcard | backend_express/src/services/flashcardService.ts:38-65 | a database error is reported with its message and nothing changes; otherwise one card with the command's fields and the caller as owner; `generation_id` is null when absent; `display_order` is kept only by the Express variant |
| NodeStore.CreatedCardIsTheCallers | backend/src/services/flashcardService.ts:38-64 | the new card can be read by its creator and by no one else |
| NodeStore.Apply | backend/src/services/flashcardService.ts:66-71 | only non-empty front and back overwrite; source is written only by the Express variant; owner, generation and display order are kept |
| NodeStore.UpdateFlashcard | backend/src/services/flashcardService.ts:66-99 | a card the caller does not own is `Flashcard not found or access denied` with nothing written; otherwise exactly that card is rewritten by the partial update |
| NodeStore.UpdateSourceByVariant | backend_express/src/services/flashcardService.ts:67-73 | the `backend/` update never changes the source; the `backend_express/` update writes a given source and otherwise keeps the old one |
| NodeStore.DeleteFlashcard | backend/src/services/flashcardService.ts:101-124 | a card the caller does not own is refused with nothing changed; otherwise exactly that card is removed |
| NodeStore.PatchFlashcard | backend/src/services/flashcardService.ts:126-158 | a missing card is not found; the patch is allowed exactly when the card's generation exists and is owned by the caller, and otherwise is `Unauthorized` with nothing changed; only front and back change |
| NodeStore.PatchTrustsTheGeneration | backend/src/services/flashcardService.ts:126-147 | the card's owner is refused and the generation's owner is allowed, when the two differ |
| NodeStore.CreateBulk | backend/src/services/flashcardService.ts:160-174 | appends one row per card under fresh ids, each stamped with the caller, and keeps every existing row |
| NodeStore.BulkCardsAreTheCallers | backend/src/services/flashcardService.ts:160-165 | every card a bulk insert adds belongs to the caller |
| NodeRoutes.ParseId | backend/src/routes/generations.ts:90-97 | an id is rejected with 400 only when `parseInt` gives NaN, and otherwise is the parsed number |
| NodeRoutes.ServiceError | backend/src/routes/generations.ts:107-118 | `Generation not found` maps to 404 and every other message to 500 with that message |
| NodeRoutes.GetById | backend/src/routes/generations.ts:87-120 | a bad id is 400; otherwise 200 with the generation exactly when the caller owns it, and 404 otherwise |
| NodeRoutes.DeleteById | backend/src/routes/generations.ts:123-154 | a bad id is 400 with nothing changed; otherwise 200 exactly when the caller owns the generation, which is then deleted; otherwise 404 with nothing changed |
| NodeRoutes.TrailingTextIsIgnored | backend/src/routes/generations.ts:90 | `12abc` addresses generation 12: text after the number does not change the reply |
| NodeRoutes.ItemIssue | backend/src/routes/generations.ts:170-178 | an item passes exactly when it is an object with non-empty string front and back and a source of `ai-full` or `ai-edited` |
| NodeRoutes.CheckItems | backend/src/routes/generations.ts:170-185 | the items pass exactly when each one does, and then give one card per item in order; otherwise the message is that of some failing item, and no earlier item fails |
| NodeRoutes.ValidateUpdate | backend/src/routes/generations.ts:170-185 | only an object with a `flashcards` array can pass, and then exactly as its items do; a missing key is `Required` |
| NodeRoutes.PutById | backend/src/routes/generations.ts:157-212 | a bad id or a bad body is 400 before the store is touched; otherwise the service update, mapped to 200, 404 or 500 |
| NodeRoutes.PutCountsEveryCard | backend/src/routes/generations.ts:170-198 | after a valid PUT, the two accepted counts add up to the number of cards sent |
| NodeRoutes.PostGeneration | backend/src/routes/generations.ts:21-63 | the route validates with the schema as written, which bounds the raw text; a body it refuses is 400 with the first message, and the service is not called; otherwise the service gets the trimmed text, and the reply is 201 with its result or 500 with its message |
| NodeRoutes.PostGenerationAcceptsShortText | backend/src/routes/generations.ts:10-63 | 999 letters and a space are not refused: the service is called with a 999-character text, below the minimum |
| NodeRoutes.Projected | backend/src/routes/bulk.ts:34-39 | each card is rebuilt from front, back, source (default `ai-full`) and generation id only; the display order is dropped |
| NodeRoutes.AsSent | src/pages/api/flashcards/bulk.ts:37-40 | the Astro route passes every field on as sent and only overwrites the owner |
| NodeRoutes.BulkExpress | backend/src/routes/bulk.ts:13-58 | a non-array is 400; the first element that is `null` or lacks a front or back rejects the whole batch before the service, with 500 and the `TypeError` message for `null` and 400 otherwise; an insert failure is 500; otherwise 201 and the projected cards are inserted |
| NodeRoutes.BulkAstro | src/pages/api/flashcards/bulk.ts:8-68 | no user is 401 before the body is read; a non-JSON body is 500; a non-array is 400; the first element that is `null` or lacks a front or back decides: `null` is 500 with the generic message, a missing side 400; an insert error is 500; only a 201 changes the store, and then by inserting every element stamped with the caller |
| NodeRoutes.OneBadElementRejectsAll | src/pages/api/flashcards/bulk.ts:27-34 | one element without a back, anywhere in the batch, makes both routes fail with nothing inserted; after good elements the failure is the 400 |
| NodeRoutes.NullElementIsServerError | backend/src/routes/bulk.ts:25-56 | a `null` element after good ones is a 500 on both routes, with the `TypeError` message on Express and `Internal server error` on Astro, and nothing is inserted |
| NodeRoutes.BulkRoutesDiffer | backend/src/routes/bulk.ts:34-39 | with no source and a display order given, Express stores `ai-full` and drops the order, while Astro keeps the order |
| NodeRoutes.AstroPost | src/pages/api/generations/index.ts:168-276 | 401 without a user; 400 for a non-JSON body and for a body the schema as written refuses (bounds on the raw text); an unreadable reply logs the error with model `deepseek-reasoner` and is 500; an insert error is 500 `Database error`; 201 exactly when all of these pass, and then the generation row is inserted |
| NodeRoutes.GenerateEndpointsAgree | src/pages/api/generations/index.ts:57-154 | on every body the shared schema as written accepts, with a readable reply and a successful insert, the Astro and Express endpoints give the same reply and store the same row but for the model name |
| NodeRoutes.GenerateEndpointsRejectAlike | src/pages/api/generations/index.ts:10-15 | a body the shared schema as written refuses gets the same 400 from both endpoints, and neither changes the store |
| NodeRoutes.AstroList | src/pages/api/generations/index.ts:278-322 | 401 exactly without a user; a query error is 500; otherwise 200 with the caller's generations only, newest first |
| ReviewHook.ValidateText | src/components/flashcard-generation/hooks/useFlashcardGeneration.ts:35-51 | valid exactly when 1000 ≤ length ≤ 10000, with no error then, and the distinct too-short or too-long message otherwise |
| ReviewHook.SetText | src/components/flashcard-generation/hooks/useFlashcardGeneration.ts:54-58 | typing stores the text and its validity and leaves the review state alone |
| ReviewHook.HandleGenerate | src/components/flashcard-generation/hooks/useFlashcardGeneration.ts:60-101 | nothing happens unless the text is valid; a result makes every index pending, clears the edits and stores the id, name and stats; a failure only sets the error |
| ReviewHook.FindEdit | src/components/flashcard-generation/hooks/useFlashcardGeneration.ts:113-116 | the position of the first edit entry for the index, or none when there is no such entry |
| ReviewHook.Upsert | src/components/flashcard-generation/hooks/useFlashcardGeneration.ts:112-133 | an existing entry for the index is replaced in place and otherwise one is appended; at most one entry per index is kept |
| ReviewHook.Without | src/components/flashcard-generation/hooks/useFlashcardGeneration.ts:144-153 | removes exactly the entries of the index |
| ReviewHook.HandleAccept | src/components/flashcard-generation/hooks/useFlashcardGeneration.ts:104-110 | the index's status becomes accepted; every other index keeps its status (present or absent), and the rest of the hook, edits included, is unchanged |
| ReviewHook.HandleReject | src/components/flashcard-generation/hooks/useFlashcardGeneration.ts:136-142 | the index's status becomes rejected; every other index keeps its status, and the rest of the hook is unchanged |
| ReviewHook.HandleEdit | src/components/flashcard-generation/hooks/useFlashcardGeneration.ts:112-133 | the index is marked edited and its edit reads back as the given text; every other index keeps its status and its edit; at most one entry per index stays true; nothing else changes |
| ReviewHook.HandleReset | src/components/flashcard-generation/hooks/useFlashcardGeneration.ts:144-153 | the index goes back to pending and has no edit any more; every other index keeps its status and its edit; at most one entry per index stays true; nothing else changes |
| ReviewHook.HandlersTouchOneIndex | src/components/flashcard-generation/hooks/useFlashcardGeneration.ts:104-153 | accept, reject, edit and reset leave every other index's status and edit, the proposals and the generation id unchanged |
| ReviewHook.UpsertKeepsOthers | src/components/flashcard-generation/hooks/useFlashcardGeneration.ts:112-133 | recording an edit does not change any other index's edit |
| ReviewHook.WithoutKeepsOthers | src/components/flashcard-generation/hooks/useFlashcardGeneration.ts:144-153 | removing an index's edit does not change any other index's edit |
| ReviewHook.Click | src/components/flashcard-generation/FlashcardProposalsList.tsx:33-42 | a proposal without a status is shown as pending; accept, edit and reject are offered only on a pending proposal and reset only on a decided one (the buttons of `ProposalActionButtons`), and an action moves that proposal to the matching status |
| ReviewHook.StatusOf | src/components/flashcard-generation/FlashcardProposalsList.tsx:38 | the hook's status for a proposal, absent when it holds none; the list passes an absent status down as pending, which `ReviewHook.Offered` reproduces |
| ReviewHook.Offered | src/components/flashcard-generation/ProposalActionButtons.tsx:16-17 | accept, edit and reject only for a pending proposal (an absent status counts as pending), reset only for a decided one |
| ReviewHook.GenerateStartsInStep | src/components/flashcard-generation/hooks/useFlashcardGeneration.ts:82-95 | after a generation, statuses and edits are in step: each about a listed proposal, at most one edit per index, and an edit exactly for the edited indices |
| ReviewHook.ClickKeepsInStep | src/components/flashcard-generation/hooks/useFlashcardGeneration.ts:104-153 | every offered action keeps statuses and edits in step |
| ReviewHook.CommandFor | src/components/flashcard-generation/hooks/useFlashcardGeneration.ts:165-182 | an edited index is saved with the edited text as `ai-edited`, any other with the original text as `ai-full`, under the generation id |
| ReviewHook.KeptIndices | src/components/flashcard-generation/hooks/useFlashcardGeneration.ts:158-163 | exactly the listed indices whose status is accepted or edited, in increasing order |
| ReviewHook.HandleSaveAccepted | src/components/flashcard-generation/hooks/useFlashcardGeneration.ts:156-210 | with nothing kept, no request is sent; otherwise one command per kept index, in order; success clears everything but the name and text, and failure leaves the state intact and returns false |
| ReviewHook.HandleSaveAll | src/components/flashcard-generation/hooks/useFlashcardGeneration.ts:213-263 | every proposal is sent, in order, under the same edited/unedited rule, with the same clearing on success |
| ReviewHook.SavedSourcesFollowStatuses | src/components/flashcard-generation/hooks/useFlashcardGeneration.ts:165-182 | in step, a saved card is `ai-edited` exactly when its proposal was edited, and `ai-full` exactly when it was accepted |
| ReviewHook.ValidateFields | src/components/flashcard-generation/FlashcardProposalItem.tsx:46-64 | the front error is set exactly above 200 characters and the back error exactly above 500, independently |
| ReviewHook.SaveEdit | src/components/flashcard-generation/FlashcardProposalItem.tsx:66-71 | a valid edit is passed on and leaves edit mode; an invalid one stays in edit mode with its errors; no error is shown exactly when the edit is valid |
| ReviewHook.CancelEdit | src/components/flashcard-generation/FlashcardProposalItem.tsx:38-44 | restores the proposal's front and back, clears both errors and leaves edit mode |
| ReviewHook.SavedEditWithinLimits | src/components/flashcard-generation/FlashcardProposalItem.tsx:46-71 | a saved edit is within the limits and marks its proposal edited |
| AngularReview.FormValidIsLengthBounds | 10x-cards-angular/src/app/features/generate/generate.component.ts:54-56 | the form is valid exactly for 1000..10000 characters; `required` adds nothing |
| AngularReview.FormValid | 10x-cards-angular/src/app/features/generate/generate.component.ts:55 | the generate form's validators: required, at least 1000 and at most 10000 characters |
| AngularReview.UnderReview | 10x-cards-angular/src/app/features/generate/generate.component.ts:96-104 | every generated proposal starts approved and unedited, in order |
| AngularReview.Submit | 10x-cards-angular/src/app/features/generate/generate.component.ts:83-116 | an invalid form sends nothing; a result moves to review; an error only sets the message, with a fallback |
| AngularReview.ApprovedCount | 10x-cards-angular/src/app/features/generate/generate.component.ts:67-69 | at most the list length; equal to it exactly when all are approved, and 0 exactly when none is |
| AngularReview.Merge | 10x-cards-angular/src/app/features/generate/generate.component.ts:147-151 | each field given in the updates wins, and each field not given is kept |
| AngularReview.UpdateProposal | 10x-cards-angular/src/app/features/generate/generate.component.ts:147-151 | only the proposal at the index is merged; the length and every other proposal are unchanged |
| AngularReview.Bulk | 10x-cards-angular/src/app/features/generate/generate.component.ts:153-158 | every proposal is approved for approve and unapproved for reject, with texts and edit flags kept |
| AngularReview.BulkCount | 10x-cards-angular/src/app/features/generate/generate.component.ts:153-158 | after a bulk action, all or none are approved |
| AngularReview.CardOf | 10x-cards-angular/src/app/features/generate/generate.component.ts:124-128 | the saved card keeps the texts and is `ai-edited` exactly when the proposal was edited |
| AngularReview.PayloadCountsApproved | 10x-cards-angular/src/app/features/generate/generate.component.ts:118-131 | one card is saved per approved proposal, so `approvedCount` is the payload size |
| AngularReview.Payload | 10x-cards-angular/src/app/features/generate/generate.component.ts:125-131 | the saved cards are those of the approved proposals, in list order, so there are never more cards than proposals |
| AngularReview.PayloadFromApproved | 10x-cards-angular/src/app/features/generate/generate.component.ts:122-128 | every saved card is the card of an approved proposal |
| AngularReview.PayloadOfConcat | 10x-cards-angular/src/app/features/generate/generate.component.ts:122-128 | the filter keeps list order: each part of the list contributes its own cards in place |
| AngularReview.Save | 10x-cards-angular/src/app/features/generate/generate.component.ts:118-131 | nothing is sent without a generation id; otherwise `approvedCount` cards go to that generation |
| AngularReview.SavedCardsApproved | 10x-cards-angular/src/app/features/generate/generate.component.ts:118-131 | every card `handleSave` sends comes from an approved proposal |
| AngularReview.FreshReviewSavesAll | 10x-cards-angular/src/app/features/generate/generate.component.ts:96-131 | saved straight after a generation, every proposal goes out unedited, as `ai-full`, in order |
| CardEdit.EditedSource | fullstack_nextjs/src/components/generation/FlashcardCard.tsx:36 | an edit never sends `ai-full`: it becomes `ai-edited`, and any other source is sent unchanged |
| CardEdit.EditedSourceOnWireValues | fullstack_nextjs/src/components/generation/FlashcardCard.tsx:36 | on the three wire values the transition is generated → edited with the rest fixed, and editing twice equals editing once |
| CardEdit.Submit | fullstack_nextjs/src/components/generation/FlashcardCard.tsx:30-41 | a front or back that is blank after trimming sends nothing; otherwise the untrimmed texts are sent, and the form closes only when the callback succeeds |
| CardEdit.Cancel | fullstack_nextjs/src/components/generation/FlashcardCard.tsx:43-46 | the form goes back to the card's texts and leaves edit mode |
| CardEdit.SubmittedEditIsMarked | fullstack_nextjs/src/components/generation/FlashcardCard.tsx:30-41 | a sent edit keeps the typed texts exactly and is never marked `ai-full` |
| CardEdit.Track | frontend/src/hooks/useFlashcardOperations.ts:16-41 | the id is saving while the request runs and not afterwards, whatever the outcome; `onSuccess` runs exactly after a success; a failure shows its message or the fallback and is rethrown |
| CardEdit.HandleEdit | frontend/src/hooks/useFlashcardOperations.ts:16-41 | the card is saving during the update and not after it; `onSuccess` runs exactly after a success; a failure shows the error's message, or `Failed to update flashcard` for a thrown non-Error, and is rethrown |
| CardEdit.HandleAdd | frontend/src/hooks/useFlashcardOperations.ts:74-92 | a creation leaves `savingIds` alone; `onSuccess` runs exactly after a success; a failure shows the error's message, or `Failed to create flashcard`, and is rethrown |
| CardEdit.HandleDelete | frontend/src/hooks/useFlashcardOperations.ts:43-72 | a declined confirmation sends nothing; otherwise the card is saving during the delete and not after it; `onSuccess` runs exactly after a success; a failure shows the error's message, or `Failed to delete flashcard` for a thrown non-Error, and is rethrown |
| CardEdit.TrackRestoresSaving | frontend/src/hooks/useFlashcardOperations.ts:18-40 | a request for an id not already saving leaves `savingIds` as it found it, and other ids are unaffected (an id that was already saving is removed, as `Track` states) |
| CardEdit.SequentialRequestsLeaveIdle | frontend/src/hooks/useFlashcardOperations.ts:34-40 | any run of completed requests from idle ends idle |
| CircuitBreakers.NewBreaker | src/lib/openrouter/circuit-breaker.ts:8-20 | starts closed with no failures, using the given threshold and timeout |
| CircuitBreakers.DefaultBreaker | src/lib/openrouter/circuit-breaker.ts:14-17 | the defaults are 5 failures and 60000 ms |
| CircuitBreakers.OnSuccess | src/lib/openrouter/circuit-breaker.ts:41-44 | a success closes the breaker and zeroes the count |
| CircuitBreakers.OnFailure | src/lib/openrouter/circuit-breaker.ts:46-53 | a failure increments the count, records the time and opens once the count reaches the threshold |
| CircuitBreakers.Execute | src/lib/openrouter/circuit-breaker.ts:22-39 | an open breaker rejects without running until the timeout has elapsed; otherwise the operation runs and its result or error is passed through, followed by the success or failure transition |
| CircuitBreakers.ShouldReset | src/lib/openrouter/circuit-breaker.ts:55-57 | an open breaker may be retried once the reset timeout has elapsed since the last failure, the boundary included |
| CircuitBreakers.NewBreakerConsistent | src/lib/openrouter/circuit-breaker.ts:8-20 | a new breaker with a positive threshold satisfies the invariant |
| CircuitBreakers.ExecuteKeepsConsistent | src/lib/openrouter/circuit-breaker.ts:22-57 | every call keeps the invariant: the failure count is not negative, and a closed breaker is below the threshold |
| CircuitBreakers.HalfOpenFailureReopens | src/lib/openrouter/circuit-breaker.ts:23-25 | a failed trial after the timeout reopens at once, because the count was not reset |
| CircuitBreakers.ConsecutiveFailuresOpen | src/lib/openrouter/circuit-breaker.ts:46-53 | enough consecutive failures open a closed breaker |
| CircuitBreakers.OpenStaysOpenOnFailures | src/lib/openrouter/circuit-breaker.ts:22-53 | an open breaker stays open through any run of failures |
| RateLimiter.NewBucket | backend/src/lib/openrouter/rate-limiter.ts:8-18 | the bucket starts full at the given time |
| RateLimiter.Refill | backend/src/lib/openrouter/rate-limiter.ts:32-41 | adds `floor(elapsed / interval) × rate`, capped at the maximum; the refill time moves only when something is added |
| RateLimiter.RefillBounds | backend/src/lib/openrouter/rate-limiter.ts:32-41 | a refill keeps tokens within `[0, max]`, never loses tokens, and adds at least one after a full interval |
| RateLimiter.WaitTime | backend/src/lib/openrouter/rate-limiter.ts:43-47 | `ceil(1 / rate) × interval` is one interval for every positive integer rate |
| RateLimiter.Acquire | backend/src/lib/openrouter/rate-limiter.ts:20-30 | after the refill, a token is taken when one is left, and otherwise the caller must wait the wait time |
| RateLimiter.AcquireKeepsValid | backend/src/lib/openrouter/rate-limiter.ts:20-30 | tokens stay within `[0, max]` |
| RateLimiter.WaitSuffices | backend/src/lib/openrouter/rate-limiter.ts:23-27 | retrying after the wait is granted |
| ResponseCache.NewCache | backend/src/lib/openrouter/cache.ts:7-10 | empty, with the time-to-live converted from seconds to milliseconds |
| ResponseCache.Key | backend/src/lib/openrouter/cache.ts:40-44 | the key is the messages' JSON, `\|`, then the options' JSON |
| ResponseCache.KeyDeterminesRequest | backend/src/lib/openrouter/cache.ts:40-44 | when the messages' JSON has no `\|`, equal keys mean equal requests |
| ResponseCache.Get | backend/src/lib/openrouter/cache.ts:12-26 | a missing key is a miss; an entry strictly older than the time-to-live is deleted and missed; otherwise the stored response, with the map unchanged |
| ResponseCache.Set | backend/src/lib/openrouter/cache.ts:28-34 | overwrites the key's entry, stamped with the time, and keeps every other entry |
| ResponseCache.Clear | backend/src/lib/openrouter/cache.ts:36-38 | empties the map and keeps the time-to-live |
| ResponseCache.SetThenGet | backend/src/lib/openrouter/cache.ts:12-34 | a stored response is served up to and including the time-to-live, and missed after it |
| ResponseCache.OtherKeysUnaffected | backend/src/lib/openrouter/cache.ts:12-34 | setting or expiring one key does not change what any other key returns |
| ResponseCache.ClearedCacheMisses | backend/src/lib/openrouter/cache.ts:36-38 | after `clear`, every key misses |
| RouterClient.CodeValue | backend/src/lib/openrouter/errors.ts:1-9 | every error code has a non-empty string value |
| RouterClient.CodeValueInjective | backend/src/lib/openrouter/errors.ts:1-9 | distinct codes have distinct string values |
| RouterClient.Handle | backend/src/lib/openrouter/errors.ts:22-41 | an `OpenRouterError` is kept; any other `Error` keeps its message, with code `INVALID_RESPONSE` and the original as details; a non-Error becomes `An unknown error occurred` |
| RouterClient.HandleIdempotent | backend/src/lib/openrouter/errors.ts:22-41 | normalising a normalised error changes nothing |
| RouterClient.ValidateMessages | backend/src/lib/openrouter/client.ts:22-31 | accepted exactly when the list is present and non-empty and every role and content is truthy; the error is `INVALID_REQUEST`, and the empty-list message is distinct |
| RouterClient.BodyModelAsWritten | backend/src/lib/openrouter/client.ts:34-38 | the trailing spread puts the caller's `model` key in the body whenever it is present, and the default applies only when the key is absent |
| RouterClient.BodyModelAsWrittenDropsDefault | backend/src/lib/openrouter/client.ts:34-38 | a present empty or undefined model reaches the body in place of the default |
| RouterClient.FallbackModel | backend/src/lib/openrouter/client.ts:35 | `options.model \|\| defaultModel` on its own always gives a model |
| RouterClient.BodyModelAgreesWhenNamed | backend/src/lib/openrouter/client.ts:34-38 | the body's model equals the `\|\|` choice whenever the key is absent or the model is a non-empty string |
| RouterClient.ValidateResponse | backend/src/lib/openrouter/client.ts:94-109 | accepted exactly when the first choice has non-empty content, which is returned unchanged; otherwise `INVALID_RESPONSE` |
| RouterClient.ReplyContentPassesThrough | backend/src/lib/openrouter/client.ts:104-108 | a reply's first content is returned as it is, with the model |
| RouterClient.ClassifyStatus | backend/src/lib/openrouter/client.ts:53-72 | 400 is `INVALID_REQUEST` with the upstream message or `Invalid request parameters`; 429, 401 and 402 map to their codes and messages; any other status is `INVALID_RESPONSE` |
| RouterClient.ClassifyStatusIsExact | backend/src/lib/openrouter/client.ts:53-72 | each code comes from exactly its status, in both directions |
| RouterClient.Chat | backend/src/lib/openrouter/client.ts:19-76 | invalid messages fail before any request; otherwise the body is sent; a reply is validated; an HTTP failure is classified; any other error propagates unchanged |
| RouterClient.ChatErrorsSurviveHandle | backend/src/lib/openrouter/client.ts:49-52 | normalising leaves every `OpenRouterError` that `chat` raises unchanged |
| SupabaseAuth.ExtractErrorMessage | spring-backend/src/main/java/com/tenxcards/flashcards/service/SupabaseAuthService.java:176-192 | when the first `"error_description":"` is followed by a non-empty run closed by a quote, that run is the result, whatever precedes the marker; otherwise the exception message; any other result is a non-empty, quote-free run that follows the first marker |
| SupabaseAuth.ExtractsDescription | spring-backend/src/main/java/com/tenxcards/flashcards/service/SupabaseAuthService.java:180-186 | a quote-free, non-empty description after the first occurrence of the marker is extracted exactly, with any text (quotes included) before it |
| SupabaseAuth.ReadsSupabaseErrorBody | spring-backend/src/main/java/com/tenxcards/flashcards/service/SupabaseAuthService.java:180-186 | Supabase's `{"error":"invalid_grant","error_description":"Invalid login credentials"}` gives `Invalid login credentials` |
| SupabaseAuth.Login | spring-backend/src/main/java/com/tenxcards/flashcards/service/SupabaseAuthService.java:57-108 | succeeds exactly when the response has a user with an id and an email, returning them with the token; an error status reports the extracted description and any other exception its message |
| SupabaseAuth.Register | spring-backend/src/main/java/com/tenxcards/flashcards/service/SupabaseAuthService.java:110-163 | a success has a user; confirmation is required exactly when `confirmed_at` is null, and the message follows it; errors are prefixed as for login |
| SupabaseAuth.RegisterClassifiesUsers | spring-backend/src/main/java/com/tenxcards/flashcards/service/SupabaseAuthService.java:137-156 | an empty identity list is `already registered`, and otherwise confirmation follows `confirmed_at` |
| SupabaseAuth.Recover | spring-backend/src/main/java/com/tenxcards/flashcards/service/SupabaseAuthService.java:165-169 | a fixed message whatever the e-mail |
| SupabaseAuth.Logout | spring-backend/src/main/java/com/tenxcards/flashcards/service/SupabaseAuthService.java:171-174 | a fixed message |
| RouteGuards.Guard | fullstack_nextjs/src/middleware.ts:7-48 | paths the matcher leaves out (`/api…`, `/_next/static…`, `/_next/image…`, `/favicon.ico`) pass untouched; on the others, a protected path without a token goes to login; a token that fails verification goes to login and clears the cookie; a verified token on a login or register page goes to the dashboard; everything else passes |
| RouteGuards.GuardedPagesAreMatched | fullstack_nextjs/src/middleware.ts:37-48 | the matcher selects every protected page and both login pages |
| RouteGuards.ApiPathsPassThrough | fullstack_nextjs/src/middleware.ts:37-48 | an `/api` path passes whatever cookie it carries: a bad token is neither cleared nor redirected there |
| RouteGuards.GuardProtects | fullstack_nextjs/src/middleware.ts:12-24 | a protected page is shown only with a verified token, and the dashboard redirect needs one too |
| RouteGuards.GeneratedIsProtected | fullstack_nextjs/src/middleware.ts:5-12 | the prefix test also protects `/generated` |
| RouteGuards.IsProtected | fullstack_nextjs/src/middleware.ts:5-12 | a path is protected when it starts, as plain text, with one of the three routes |
| RouteGuards.IsAuthPage | fullstack_nextjs/src/middleware.ts:22 | the login and registration pages, by prefix |
| RouteGuards.Matched | fullstack_nextjs/src/middleware.ts:37-48 | the matcher selects a path starting with a slash not followed by `api`, `_next/static`, `_next/image` or `favicon`, any character, `ico` |
| RouteGuards.RequestToken | fullstack_nextjs/src/lib-server/auth.ts:11-20 | the cookie wins when present; otherwise the header after exactly `Bearer ` |
| RouteGuards.ExtractUserId | fullstack_nextjs/src/lib-server/auth.ts:9-32 | no token is undefined; otherwise the verified token's user id, and undefined when verification fails, with no fallback to the header |
| RouteGuards.CookieTakesPrecedence | fullstack_nextjs/src/lib-server/auth.ts:11-21 | with a cookie, the header is ignored |
| RouteGuards.HeaderTokenAfterPrefix | fullstack_nextjs/src/lib-server/auth.ts:16-19 | the header token is what follows `Bearer `; a header without that prefix is ignored |
| RouteGuards.StripBearer | backend_express/src/middleware/auth.ts:27 | removes a leading `Bearer ` when present, and otherwise keeps the whole header |
| RouteGuards.StripBearerRoundTrip | backend_express/src/middleware/auth.ts:27 | the prefixed token comes back unchanged |
| RouteGuards.Authenticate | backend_express/src/middleware/auth.ts:16-54 | no header is `No token provided`; an empty token is `Invalid token format`; it authenticates exactly when the token verifies, taking the id and e-mail from the claims with the name defaulting to `''`; otherwise `Invalid token` |
| RouteGuards.BarePrefixIsBadFormat | backend_express/src/middleware/auth.ts:27-34 | the token is empty exactly when the header is `Bearer ` itself |
| RouteGuards.ServersDisagreeOnBareToken | backend_express/src/middleware/auth.ts:27 | a header holding a bare token is accepted by Express when it verifies, but ignored by Next.js |

## Left out

- Network, SDK and database calls are oracles or boolean parameters: the OpenAI SDK, `RestTemplate`, axios, `fetch`, Supabase and JPA queries. Logging, timeouts and headers are not modelled.
- JSON decoding is an oracle from text to an optional value. Jackson's failure on unknown properties is not modelled, and neither is serialisation.
- SHA-256 hashing is an oracle. So is JWT signing and verification, with the claims it yields.
- Wall-clock time and the generation-name date format are integer and string parameters.
- Store rows keep only the columns the operations read or write. Creation times are parameters, and the database assigns ids in increasing order.
- Only the failures each operation names are parameters. Examples are Astro's insert and list errors, Express's bulk insert error, and the error of `createFlashcard`. The Express service's own failures are not modelled: `Failed to save flashcards`, `Failed to update generation stats`, `Error deleting associated flashcards`, `Error deleting generation`, and the list and read query errors.
- A failure to insert the error-log row is swallowed in the source, and is not modelled.
- Foreign-key checks on card inserts are the database's job, and are not modelled.
- The bulk validators test truthiness. The model sees a field as given or not given, so an element with a non-string front is treated like one with a string.
- Ties between equal creation times or display orders are broken by ascending id. The database leaves that order unspecified.
- `getFlashcards` returns a set, because the source gives no order.
- Java exception messages that come from the JVM (a null pointer dereference) are an opaque string.
- Concurrency is not modelled. The breaker, limiter and cache are shared by concurrent requests, and `savingIds` is updated asynchronously; each call is one atomic step.
- Lengths are counted in Dafny characters, not UTF-16 code units.
- The rate limiter's configuration comes from its caller. Chat options other than `model` are copied into the request body unexamined, and are not modelled.
- `GET /api/generations` of the Express router only passes the service's listing through. `NodeStore.GetGenerations` models that listing.
- ReviewHook.HandleSaveAccepted: requires every status index to name a listed proposal. The hook keeps statuses only for listed proposals, so this invariant holds whenever the hook sets them.
- Spring's "user not found" case is the `None` user, with the same 401. Spring's formatted generation names are a parameter.
- The mock generator in `src/pages/api/generations.ts` is not part of this model, and neither is the unused mock generator of the services.
- The temperature 0.7 is a constant that is passed through and never computed on.
- RateLimiter: rates, intervals and token counts are integers. The source uses JavaScript numbers, so a fractional rate such as 0.5 (which waits two intervals) is not modelled.
- RouterClient.Chat: the `usage` field of the reply is not modelled. `ChatResponse` keeps only the content and the model.
- SpringStore.GenerateFlashcards, SpringStore.GetGenerations, SpringStore.GetGeneration, SpringStore.UpdateGeneration, SpringStore.DeleteGeneration, SpringStore.CreateFlashcard, SpringStore.UpdateFlashcard, SpringStore.DeleteFlashcard: the caller is taken as an already resolved user id. The two controllers cast the principal to unrelated classes: `User` in `FlashcardController` and `UserPrincipal` in `GenerationController`. Whatever principal the security filter installs, one family throws a `ClassCastException`, which its `catch` turns into a 500. That failure is not modelled.
- RouterClient.Chat: the body's model follows the code as written. A present but empty or `undefined` model replaces the default (see `RouterClient.BodyModelAsWrittenDropsDefault`). The `||` default therefore applies only when the key is absent.
- The HTTP plumbing of the single-card routes, the Next.js API routes, `AuthController` and the `AuthService` wrappers is not modelled.
- Presentational components, toasts, navigation and `localStorage` are not modelled.
- SpringStore.UpdateGeneration, SpringStore.UpdateGenerationAsWritten: an item's front, back and source are read with a `(String)` cast; a JSON number or object there throws a `ClassCastException`, which is not modelled (the item model holds strings or nothing).
- Bean Validation is modelled for the generate and flashcard commands, with a 400 whose body (Spring's default error document) is not modelled. The auth commands' constraints and zod's e-mail checks are not modelled.

## Findings

| source | as written | input that shows it | evidently intended | confidence | as-written member | corrected member |
|---|---|---|---|---|---|---|
| src/pages/api/generations/index.ts:10-15 | the 1000..10000 length bounds are checked on the raw text and `.transform(trim)` runs afterwards; `backend/src/routes/generations.ts:10-15` has the same schema | 999 letters followed by one space: it passes the minimum, and the 999-character trimmed text is hashed, stored and sent to the model | the bounds apply to the trimmed text, as the comment "Trim whitespace before validation" says | not executed | NodeGeneration.ValidateCommandAsWrittenAcceptsShortText | NodeGeneration.ValidateCommand |
| spring-backend/src/main/java/com/tenxcards/flashcards/controller/GenerationController.java:156-207 | the old cards are deleted and items saved one by one; `fromValue` on an unknown source throws mid-loop, and the exception is caught inside the `@Transactional` method, which returns a 500 normally, so the deletion and the partial save are committed | a generation with one card, updated with items whose sources are `ai-full` then `AI-FULL` | an update replaces all cards or changes nothing | not executed | SpringStore.UpdateGenerationAsWrittenCommitsPartially | SpringStore.UpdateGeneration |
| spring-backend/src/main/java/com/tenxcards/flashcards/controller/GenerationController.java:69-73 | the new `Generation` gets only a name and an owner before `generationRepository.save`, but `source_text_length`, `generation_duration`, `model` and `source_text_hash` are declared `nullable = false` with no default (`Generation.java:44-55`), so the insert is refused and the `catch` answers 500 | any valid request from a known user whose provider call returns proposals | the columns are filled from the text, the elapsed time and the model before the save, as the Node service does | not executed; assumes the table carries the NOT NULL constraints the entity declares | SpringStore.GenerateFlashcardsAsWrittenNeverSucceeds | SpringStore.GenerateFlashcards |

The route models `NodeRoutes.PostGeneration` and `NodeRoutes.AstroPost` validate with the schema as written, as both routes do. `NodeRoutes.PostGenerationAcceptsShortText` shows the short text reaching the service. `NodeGeneration.ValidateCommand` is the corrected schema. `NodeGeneration.ValidateCommandAgreesOnTrimmedText` shows the two schemas agree on text that is already trimmed. A rejected front or back is different: the repository's exception marks the transaction rollback-only, so `SpringStore.UpdateGenerationAsWrittenRollsBackLongSide` shows nothing kept and the framework's 500. `SpringStore.UpdateGenerationAgreesOnSuccess` shows the two Spring updates agree on every request that succeeds. `SpringStore.GenerateFlashcards` fills the four columns; `SpringStore.GenerateFlashcardsAsWritten` leaves them unset.

=== FILE: angular_review.dfy ===
/** The generation screen of the Angular client (`GenerateComponent`):
    the text form, the approve/edit list of proposals, and the save
    payload. The HTTP calls are replies passed in as parameters. */
module AngularReview {
  import opened Wrappers
  import Text
  import NodeGeneration

  /** A proposal under review. */
  datatype Proposal = Proposal(front: string, back: string, approved: bool, edited: bool)

  /** A card of the save payload. */
  datatype Card = Card(front: string, back: string, source: string)

  datatype Step = Input | Review

  datatype Screen = Screen(step: Step, proposals: seq<Proposal>, generationId: Option<int>,
                           errorMessage: string, successMessage: string)

  const InitialScreen: Screen := Screen(Input, [], None, "", "")

  /** The form's validators: required, at least 1000 and at most 10000
      characters. */
  predicate FormValid(text: string) {
    text != "" && NodeGeneration.MinTextLength <= |text| <= NodeGeneration.MaxTextLength
  }

  /** The required validator adds nothing to the length bounds. */
  lemma FormValidIsLengthBounds(text: string)
    ensures FormValid(text) <==> 1000 <= |text| <= 10000
  {
  }

  // ---------------------------------------------------------------------
  // Generation

  /** What the generate call gives: the proposals' texts, the generation
      id and the generated count; or an error with its message. */
  datatype GenerateReply =
    | Generated(proposals: seq<NodeGeneration.Proposal>, generationId: int, generatedCount: int)
    | GenerateFailed(message: Option<string>)

  const GenerateFailedMessage: string := "Failed to generate flashcards. Please try again."

  /** Every generated proposal starts approved and unedited. */
  function UnderReview(proposals: seq<NodeGeneration.Proposal>): (r: seq<Proposal>)
    ensures |r| == |proposals|
    ensures forall i :: 0 <= i < |r| ==>
      r[i] == Proposal(proposals[i].front, proposals[i].back, true, false)
  {
    seq(|proposals|, i requires 0 <= i < |proposals| => Proposal(proposals[i].front, proposals[i].back, true, false))
  }

  function GeneratedMessage(count: int): string {
    "Generated " + Text.IntToDecimal(count) + " flashcards! Please review them."
  }

  /** `onSubmit`: an invalid form sends nothing; a result moves to the
      review step with every proposal approved; an error only sets the
      message. The second component is the text sent, if any. */
  function Submit(s: Screen, text: string, reply: GenerateReply): (r: (Screen, Option<string>))
    ensures !FormValid(text) ==> r == (s, None)
    ensures FormValid(text) ==> r.1 == Some(text)
    ensures FormValid(text) && reply.Generated? ==>
      r.0 == Screen(Review, UnderReview(reply.proposals), Some(reply.generationId), "", GeneratedMessage(reply.generatedCount))
    ensures FormValid(text) && reply.GenerateFailed? ==>
      r.0 == s.(errorMessage := (if reply.message.Some? && reply.message.value != "" then reply.message.value
                                 else GenerateFailedMessage), successMessage := "")
  {
    if !FormValid(text) then (s, None)
    else
      match reply
      case Generated(proposals, id, count) =>
        (Screen(Review, UnderReview(proposals), Some(id), "", GeneratedMessage(count)), Some(text))
      case GenerateFailed(message) =>
        (s.(errorMessage := if message.Some? && message.value != "" then message.value else GenerateFailedMessage,
            successMessage := ""), Some(text))
  }

  // ---------------------------------------------------------------------
  // The list

  /** `approvedCount`. */
  function ApprovedCount(ps: seq<Proposal>): (n: nat)
    ensures n <= |ps|
    ensures n == |ps| <==> forall i :: 0 <= i < |ps| ==> ps[i].approved
    ensures n == 0 <==> forall i :: 0 <= i < |ps| ==> !ps[i].approved
  {
    if |ps| == 0 then 0
    else (if ps[0].approved then 1 else 0) + ApprovedCount(ps[1..])
  }

  /** The fields a `Partial<FlashcardProposal>` may carry. */
  datatype Updates = Updates(front: Option<string>, back: Option<string>,
                             approved: Option<bool>, edited: Option<bool>)

  /** The spread `{ ...proposal, ...updates }`: a given field wins. */
  function Merge(p: Proposal, u: Updates): (r: Proposal)
    ensures r.front == (if u.front.Some? then u.front.value else p.front)
    ensures r.back == (if u.back.Some? then u.back.value else p.back)
    ensures r.approved == (if u.approved.Some? then u.approved.value else p.approved)
    ensures r.edited == (if u.edited.Some? then u.edited.value else p.edited)
  {
    Proposal(u.front.GetOr(p.front), u.back.GetOr(p.back), u.approved.GetOr(p.approved), u.edited.GetOr(p.edited))
  }

  /** `handleProposalUpdate`: the updates are merged into the proposal at
      `index`; an index outside the list changes nothing. */
  function UpdateProposal(ps: seq<Proposal>, index: int, u: Updates): (r: seq<Proposal>)
    ensures |r| == |ps|
    ensures forall i :: 0 <= i < |ps| && i != index ==> r[i] == ps[i]
    ensures 0 <= index < |ps| ==> r[index] == Merge(ps[index], u)
  {
    seq(|ps|, i requires 0 <= i < |ps| => if i == index then Merge(ps[i], u) else ps[i])
  }

  datatype BulkAction = Approve | RejectAll

  /** `handleBulkAction`: every proposal approved, or every one not;
      texts and edit flags are kept. */
  function Bulk(ps: seq<Proposal>, action: BulkAction): (r: seq<Proposal>)
    ensures |r| == |ps|
    ensures forall i :: 0 <= i < |ps| ==> r[i] == ps[i].(approved := action == Approve)
  {
    seq(|ps|, i requires 0 <= i < |ps| => ps[i].(approved := action == Approve))
  }

  /** After a bulk action the count is all or nothing. */
  lemma BulkCount(ps: seq<Proposal>, action: BulkAction)
    ensures ApprovedCount(Bulk(ps, action)) == (if action == Approve then |ps| else 0)
  {
  }

  // ---------------------------------------------------------------------
  // Saving

  /** The card saved for an approved proposal. */
  function CardOf(p: Proposal): (c: Card)
    ensures c.front == p.front && c.back == p.back
    ensures c.source == "ai-edited" <==> p.edited
    ensures c.source == "ai-full" <==> !p.edited
  {
    Card(p.front, p.back, if p.edited then "ai-edited" else "ai-full")
  }

  /** The approved proposals' cards, in list order. */
  function Payload(ps: seq<Proposal>): (cards: seq<Card>)
    ensures |cards| <= |ps|
  {
    if |ps| == 0 then []
    else (if ps[0].approved then [CardOf(ps[0])] else []) + Payload(ps[1..])
  }

  /** The payload follows the list: it distributes over concatenation, so
      each part of the list contributes its approved cards in place. */
  lemma {:induction false} PayloadOfConcat(a: seq<Proposal>, b: seq<Proposal>)
    ensures Payload(a + b) == Payload(a) + Payload(b)
  {
    if |a| == 0 {
      assert a + b == b;
    } else {
      var ab := a + b;
      assert ab[0] == a[0];
      assert ab[1..] == a[1..] + b;
      PayloadOfConcat(a[1..], b);
      var head := if a[0].approved then [CardOf(a[0])] else [];
      assert Payload(ab) == head + Payload(a[1..] + b);
      assert Payload(a) == head + Payload(a[1..]);
    }
  }

  /** The payload holds one card per approved proposal: `approvedCount`
      is the number of cards saved. */
  lemma {:induction false} PayloadCountsApproved(ps: seq<Proposal>)
    ensures |Payload(ps)| == ApprovedCount(ps)
  {
    if |ps| > 0 {
      PayloadCountsApproved(ps[1..]);
    }
  }

  /** Every card of the payload is the card of an approved proposal. */
  lemma {:induction false} PayloadFromApproved(ps: seq<Proposal>, k: nat)
    requires k < |Payload(ps)|
    ensures exists i :: 0 <= i < |ps| && ps[i].approved && Payload(ps)[k] == CardOf(ps[i])
  {
    if ps[0].approved {
      if k == 0 {
        assert Payload(ps)[0] == CardOf(ps[0]);
      } else {
        PayloadFromApproved(ps[1..], k - 1);
        var i :| 0 <= i < |ps[1..]| && ps[1..][i].approved && Payload(ps[1..])[k - 1] == CardOf(ps[1..][i]);
        assert ps[i + 1] == ps[1..][i];
      }
    } else {
      PayloadFromApproved(ps[1..], k);
      var i :| 0 <= i < |ps[1..]| && ps[1..][i].approved && Payload(ps[1..])[k] == CardOf(ps[1..][i]);
      assert ps[i + 1] == ps[1..][i];
    }
  }

  /** `handleSave`: nothing is sent without a generation id (null or 0);
      otherwise one card per approved proposal goes to that generation. */
  function Save(s: Screen): (r: Option<(int, seq<Card>)>)
    ensures r.None? <==> s.generationId.None? || s.generationId.value == 0
    ensures r.Some? ==> r.value.0 == s.generationId.value && |r.value.1| == ApprovedCount(s.proposals)
  {
    if s.generationId.None? || s.generationId.value == 0 then None
    else
      PayloadCountsApproved(s.proposals);
      Some((s.generationId.value, Payload(s.proposals)))
  }

  /** Every card `handleSave` sends is the card of an approved proposal. */
  lemma SavedCardsApproved(s: Screen, k: nat)
    requires Save(s).Some? && k < |Save(s).value.1|
    ensures exists i :: 0 <= i < |s.proposals| && s.proposals[i].approved && Save(s).value.1[k] == CardOf(s.proposals[i])
  {
    PayloadFromApproved(s.proposals, k);
  }

  /** Straight after a generation every proposal is saved, unedited and in
      order. */
  lemma {:induction false} FreshReviewSavesAll(proposals: seq<NodeGeneration.Proposal>)
    ensures Payload(UnderReview(proposals)) ==
      seq(|proposals|, i requires 0 <= i < |proposals| => Card(proposals[i].front, proposals[i].back, "ai-full"))
  {
    if |proposals| > 0 {
      FreshReviewSavesAll(proposals[1..]);
      assert UnderReview(proposals)[1..] == UnderReview(proposals[1..]);
    }
  }
}

=== FILE: breaker.dfy ===
/** The `CircuitBreaker` in front of the chat-completion client: CLOSED
    lets calls through, OPEN rejects them until `resetTimeout` ms have
    passed since the last failure, after which the breaker is HALF_OPEN
    and lets every call through (there is no single-probe gate) until a
    success closes it or a failure reopens it. The clock is a parameter: `now` is read before the call and
    `finishedAt` when a failed call is recorded. The operation itself is
    an oracle outcome that is consulted only when the breaker lets the
    call through. */
module CircuitBreakers {
  import opened Wrappers

  datatype CircuitState = Closed | Open | HalfOpen

  datatype Breaker = Breaker(
    state: CircuitState,
    failureCount: nat,
    lastFailureTime: int,
    failureThreshold: int,
    resetTimeout: int)

  const DefaultThreshold: int := 5
  const DefaultResetTimeoutMs: int := 60000
  const OpenMessage: string := "Circuit breaker is OPEN"

  /** The constructor: CLOSED, no failures, last failure at time 0. */
  function NewBreaker(failureThreshold: int, resetTimeoutMs: int): (b: Breaker)
    ensures b.state == Closed && b.failureCount == 0 && b.lastFailureTime == 0
    ensures b.failureThreshold == failureThreshold && b.resetTimeout == resetTimeoutMs
  {
    Breaker(Closed, 0, 0, failureThreshold, resetTimeoutMs)
  }

  function DefaultBreaker(): (b: Breaker)
    ensures b.state == Closed && b.failureCount == 0
    ensures b.failureThreshold == 5 && b.resetTimeout == 60000
  {
    NewBreaker(DefaultThreshold, DefaultResetTimeoutMs)
  }

  /** `shouldReset`: the reset timeout has elapsed since the last failure. */
  predicate ShouldReset(b: Breaker, now: int) {
    now - b.lastFailureTime >= b.resetTimeout
  }

  /** Whether `execute` runs the operation at time `now`. */
  predicate Admits(b: Breaker, now: int) {
    b.state != Open || ShouldReset(b, now)
  }

  /** What a call to `execute` gives its caller: the breaker's own
      rejection, or the operation's outcome passed through. */
  datatype Call<T, E> = Rejected(message: string) | Ran(outcome: Result<T, E>)

  /** `onSuccess`. */
  function OnSuccess(b: Breaker): (r: Breaker)
    ensures r.state == Closed && r.failureCount == 0
    ensures r.lastFailureTime == b.lastFailureTime
    ensures r.failureThreshold == b.failureThreshold && r.resetTimeout == b.resetTimeout
  {
    b.(failureCount := 0, state := Closed)
  }

  /** `onFailure`: count the failure, stamp it, and open at the threshold. */
  function OnFailure(b: Breaker, finishedAt: int): (r: Breaker)
    ensures r.failureCount == b.failureCount + 1 && r.lastFailureTime == finishedAt
    ensures r.state == (if b.failureCount + 1 >= b.failureThreshold then Open else b.state)
    ensures r.failureThreshold == b.failureThreshold && r.resetTimeout == b.resetTimeout
  {
    var counted := b.(failureCount := b.failureCount + 1, lastFailureTime := finishedAt);
    if counted.failureCount >= counted.failureThreshold then counted.(state := Open) else counted
  }

  /** `execute`: an OPEN breaker whose timeout has not elapsed rejects
      without running the operation; otherwise an OPEN breaker moves to
      HALF_OPEN, the operation runs, and its outcome is recorded and
      passed through unchanged. */
  function Execute<T, E>(b: Breaker, now: int, attempt: Result<T, E>, finishedAt: int): (r: (Breaker, Call<T, E>))
    ensures !Admits(b, now) ==> r == (b, Rejected(OpenMessage))
    ensures Admits(b, now) ==> r.1 == Ran(attempt)
    ensures Admits(b, now) && attempt.Ok? ==> r.0.state == Closed && r.0.failureCount == 0
    ensures Admits(b, now) && attempt.Err? ==>
      r.0.failureCount == b.failureCount + 1 && r.0.lastFailureTime == finishedAt &&
      r.0.state == (if b.failureCount + 1 >= b.failureThreshold then Open
                    else if b.state == Open then HalfOpen else b.state)
    ensures r.0.failureThreshold == b.failureThreshold && r.0.resetTimeout == b.resetTimeout
  {
    if b.state == Open && !ShouldReset(b, now) then (b, Rejected(OpenMessage))
    else
      var probing := if b.state == Open then b.(state := HalfOpen) else b;
      match attempt
      case Ok(_) => (OnSuccess(probing), Ran(attempt))
      case Err(_) => (OnFailure(probing, finishedAt), Ran(attempt))
  }

  /** The breaker's invariant: it is CLOSED exactly while the failure
      count is below the threshold. */
  predicate Consistent(b: Breaker) {
    b.failureThreshold >= 1 && (b.state == Closed <==> b.failureCount < b.failureThreshold)
  }

  lemma NewBreakerConsistent(failureThreshold: int, resetTimeoutMs: int)
    requires failureThreshold >= 1
    ensures Consistent(NewBreaker(failureThreshold, resetTimeoutMs))
  {
  }

  /** Every call keeps the invariant. */
  lemma ExecuteKeepsConsistent<T, E>(b: Breaker, now: int, attempt: Result<T, E>, finishedAt: int)
    requires Consistent(b)
    ensures Consistent(Execute(b, now, attempt, finishedAt).0)
  {
  }

  /** A failed probe re-opens the breaker at once: moving to HALF_OPEN
      does not reset the failure count, which is already at the
      threshold. */
  lemma HalfOpenFailureReopens<T, E>(b: Breaker, now: int, e: E, finishedAt: int)
    requires Consistent(b) && b.state == Open && ShouldReset(b, now)
    ensures Execute<T, E>(b, now, Err(e), finishedAt).0.state == Open
    ensures Execute<T, E>(b, now, Err(e), finishedAt).1 == Ran(Err(e))
  {
  }

  /** A run of calls, each with its clock readings and outcome. */
  datatype Attempt<T, E> = Attempt(now: int, outcome: Result<T, E>, finishedAt: int)

  function RunAll<T, E>(b: Breaker, calls: seq<Attempt<T, E>>): (r: Breaker)
    ensures r.failureThreshold == b.failureThreshold && r.resetTimeout == b.resetTimeout
    decreases |calls|
  {
    if |calls| == 0 then b
    else RunAll(Execute(b, calls[0].now, calls[0].outcome, calls[0].finishedAt).0, calls[1..])
  }

  /** `threshold` failures in a row, starting from a CLOSED breaker, open
      it: each failing call is let through while CLOSED and adds one to
      the count. */
  lemma {:induction false} ConsecutiveFailuresOpen<T, E>(b: Breaker, calls: seq<Attempt<T, E>>)
    requires Consistent(b) && b.state == Closed
    requires b.failureCount + |calls| >= b.failureThreshold
    requires forall i :: 0 <= i < |calls| ==> calls[i].outcome.Err?
    ensures RunAll(b, calls).state == Open
    decreases |calls|
  {
    var next := Execute(b, calls[0].now, calls[0].outcome, calls[0].finishedAt).0;
    ExecuteKeepsConsistent(b, calls[0].now, calls[0].outcome, calls[0].finishedAt);
    if next.state == Closed {
      ConsecutiveFailuresOpen(next, calls[1..]);
    } else {
      OpenStaysOpenOnFailures(next, calls[1..]);
    }
  }

  /** Once open, further failures leave the breaker open, whether they
      are rejected or let through as probes. */
  lemma {:induction false} OpenStaysOpenOnFailures<T, E>(b: Breaker, calls: seq<Attempt<T, E>>)
    requires Consistent(b) && b.state == Open
    requires forall i :: 0 <= i < |calls| ==> calls[i].outcome.Err?
    ensures RunAll(b, calls).state == Open
    decreases |calls|
  {
    if |calls| > 0 {
      var next := Execute(b, calls[0].now, calls[0].outcome, calls[0].finishedAt).0;
      ExecuteKeepsConsistent(b, calls[0].now, calls[0].outcome, calls[0].finishedAt);
      OpenStaysOpenOnFailures(next, calls[1..]);
    }
  }
}

=== FILE: card_edit.dfy ===
/** Editing saved cards: the inline form of the Next.js client's
    `FlashcardCard`, and the `savingIds` bookkeeping and toasts of the
    React client's `useFlashcardOperations` hook. The request's outcome
    is a parameter; each request is one atomic step. */
module CardEdit {
  import opened Wrappers
  import opened Text
  import Sources

  /** A saved card as the client shows it; `source` is the wire value. */
  datatype Card = Card(id: int, front: string, back: string, source: string)

  datatype Form = Form(isEditing: bool, front: string, back: string)

  datatype UpdateCommand = UpdateCommand(front: string, back: string, source: string)

  /** The source an edit sends: a card generated verbatim becomes edited,
      any other source is sent as it is. */
  function EditedSource(source: string): (r: string)
    ensures r != "ai-full"
    ensures source != "ai-full" ==> r == source
    ensures source == "ai-full" ==> r == Sources.Value(Sources.AiEdited)
  {
    if source == "ai-full" then "ai-edited" else source
  }

  /** On the three wire values, an edit keeps manual and edited cards and
      moves generated ones to edited; editing twice is editing once. */
  lemma EditedSourceOnWireValues(s: Sources.FlashcardSource)
    ensures EditedSource(Sources.Value(s)) ==
      Sources.Value(if s == Sources.AiFull then Sources.AiEdited else s)
    ensures EditedSource(EditedSource(Sources.Value(s))) == EditedSource(Sources.Value(s))
  {
  }

  /** What submitting the form gives: the new form, the update sent (if
      any), and whether the edit callback threw. */
  datatype Submitted = Submitted(form: Form, sent: Option<(int, UpdateCommand)>, threw: bool)

  /** `handleEditSubmit`: a front or back that is blank once trimmed sends
      nothing; otherwise the untrimmed texts are sent, and the form closes
      only when the callback succeeds. */
  function Submit(card: Card, form: Form, succeeds: bool): (r: Submitted)
    ensures JsTrim(form.front) == "" || JsTrim(form.back) == "" ==> r == Submitted(form, None, false)
    ensures r.sent.Some? <==> JsTrim(form.front) != "" && JsTrim(form.back) != ""
    ensures r.sent.Some? ==>
      r.sent.value == (card.id, UpdateCommand(form.front, form.back, EditedSource(card.source)))
    ensures r.sent.Some? ==> r.threw == !succeeds && r.form == form.(isEditing := form.isEditing && !succeeds)
  {
    if JsTrim(form.front) == "" || JsTrim(form.back) == "" then Submitted(form, None, false)
    else
      var command := UpdateCommand(form.front, form.back, EditedSource(card.source));
      if succeeds then Submitted(form.(isEditing := false), Some((card.id, command)), false)
      else Submitted(form, Some((card.id, command)), true)
  }

  /** `handleEditCancel`: the card's current texts, edit mode left. */
  function Cancel(card: Card, form: Form): (r: Form)
    ensures r == Form(false, card.front, card.back)
  {
    Form(false, card.front, card.back)
  }

  /** A sent edit never leaves a card marked as generated verbatim, and
      keeps the texts exactly as typed, surrounding blanks included. */
  lemma SubmittedEditIsMarked(card: Card, form: Form, succeeds: bool)
    requires JsTrim(form.front) != "" && JsTrim(form.back) != ""
    ensures var command := Submit(card, form, succeeds).sent.value.1;
      command.source != "ai-full" && command.front == form.front && command.back == form.back &&
      (card.source != "ai-full" ==> command.source == card.source)
  {
  }

  // ---------------------------------------------------------------------
  // `savingIds`

  /** What a request threw: an `Error` with its message, or anything
      else. */
  datatype Thrown = ErrorValue(message: string) | OtherValue

  datatype Outcome = Succeeded | Threw(thrown: Thrown)

  /** What one edit, delete or creation does: the ids saving while the
      request is in flight and after it, whether `onSuccess` ran, the
      error toast shown (the success toast is not modelled) and the value
      rethrown. */
  datatype Request = Request(
    inFlight: set<int>, after: set<int>, calledOnSuccess: bool,
    toast: Option<string>, rethrown: Option<Thrown>)

  const EditFailed: string := "Failed to update flashcard"
  const DeleteFailed: string := "Failed to delete flashcard"

  function ToastFor(thrown: Thrown, fallback: string): string {
    match thrown
    case ErrorValue(message) => message
    case OtherValue => fallback
  }

  /** One tracked request: the id is added before the call and removed in
      the `finally`, whatever the outcome; `onSuccess` runs only after a
      success; an error is shown and rethrown. */
  function Track(saving: set<int>, id: int, outcome: Outcome, fallback: string): (r: Request)
    ensures id in r.inFlight && r.inFlight - {id} == saving - {id}
    ensures id !in r.after && r.after == saving - {id}
    ensures r.calledOnSuccess <==> outcome.Succeeded?
    ensures r.rethrown.Some? <==> outcome.Threw?
    ensures outcome.Threw? ==> r.rethrown == Some(outcome.thrown) && r.toast == Some(ToastFor(outcome.thrown, fallback))
  {
    var during := saving + {id};
    match outcome
    case Succeeded => Request(during, during - {id}, true, None, None)
    case Threw(thrown) => Request(during, during - {id}, false, Some(ToastFor(thrown, fallback)), Some(thrown))
  }

  /** `handleEdit`: the card is saving while the update runs and not
      after it; a failure shows the error's message, or the update
      fallback for a thrown value that is not an `Error`, and is
      rethrown. */
  function HandleEdit(saving: set<int>, id: int, outcome: Outcome): (r: Request)
    ensures id in r.inFlight && r.after == saving - {id}
    ensures r.calledOnSuccess <==> outcome.Succeeded?
    ensures outcome.Succeeded? ==> r.toast.None? && r.rethrown.None?
    ensures outcome.Threw? && outcome.thrown.OtherValue? ==> r.toast == Some(EditFailed)
    ensures outcome.Threw? && outcome.thrown.ErrorValue? ==> r.toast == Some(outcome.thrown.message)
    ensures outcome.Threw? ==> r.rethrown == Some(outcome.thrown)
  {
    Track(saving, id, outcome, EditFailed)
  }

  const CreateFailed: string := "Failed to create flashcard"

  /** `handleAdd`: the creation is not tracked in `savingIds`; `onSuccess`
      runs after a success, and a failure shows the error's message, or
      the creation fallback, and is rethrown. */
  function HandleAdd(saving: set<int>, outcome: Outcome): (r: Request)
    ensures r.inFlight == saving && r.after == saving
    ensures r.calledOnSuccess <==> outcome.Succeeded?
    ensures outcome.Succeeded? ==> r.toast.None? && r.rethrown.None?
    ensures outcome.Threw? && outcome.thrown.OtherValue? ==> r.toast == Some(CreateFailed)
    ensures outcome.Threw? && outcome.thrown.ErrorValue? ==> r.toast == Some(outcome.thrown.message)
    ensures outcome.Threw? ==> r.rethrown == Some(outcome.thrown)
  {
    match outcome
    case Succeeded => Request(saving, saving, true, None, None)
    case Threw(thrown) => Request(saving, saving, false, Some(ToastFor(thrown, CreateFailed)), Some(thrown))
  }

  /** `handleDelete`: a declined confirmation sends nothing and changes
      nothing; otherwise the deletion is tracked like an edit. */
  function HandleDelete(saving: set<int>, id: int, confirmed: bool, outcome: Outcome): (r: Option<Request>)
    ensures r.None? <==> !confirmed
    ensures r.Some? ==> id in r.value.inFlight && r.value.after == saving - {id}
    ensures r.Some? ==> (r.value.calledOnSuccess <==> outcome.Succeeded?)
    ensures r.Some? && outcome.Succeeded? ==> r.value.toast.None? && r.value.rethrown.None?
    ensures r.Some? && outcome.Threw? && outcome.thrown.OtherValue? ==> r.value.toast == Some(DeleteFailed)
    ensures r.Some? && outcome.Threw? && outcome.thrown.ErrorValue? ==> r.value.toast == Some(outcome.thrown.message)
    ensures r.Some? && outcome.Threw? ==> r.value.rethrown == Some(outcome.thrown)
  {
    if confirmed then Some(Track(saving, id, outcome, DeleteFailed)) else None
  }

  /** A request for a card not already saving leaves `savingIds` as it
      found it, and shows the id as saving while it runs; ids of other
      cards are unaffected. */
  lemma TrackRestoresSaving(saving: set<int>, id: int, outcome: Outcome, fallback: string, other: int)
    requires id !in saving && other != id
    ensures Track(saving, id, outcome, fallback).after == saving
    ensures (other in Track(saving, id, outcome, fallback).inFlight <==> other in saving)
  {
  }

  /** A run of completed requests, one after another, from an idle hook
      leaves no id saving. */
  function RunRequests(saving: set<int>, requests: seq<(int, Outcome)>): (after: set<int>)
    decreases |requests|
  {
    if |requests| == 0 then saving
    else RunRequests(Track(saving, requests[0].0, requests[0].1, EditFailed).after, requests[1..])
  }

  lemma {:induction false} SequentialRequestsLeaveIdle(requests: seq<(int, Outcome)>)
    ensures RunRequests({}, requests) == {}
  {
    if |requests| > 0 {
      assert Track({}, requests[0].0, requests[0].1, EditFailed).after == {};
      SequentialRequestsLeaveIdle(requests[1..]);
    }
  }
}

=== FILE: durations.dfy ===
/** How long a generation took, as both back ends report it: an ISO-8601
    duration in whole seconds, `PT<n>S`. The Spring controller rounds the
    measured time down (`Duration.getSeconds`), the Node services round the
    measured milliseconds up (`Math.ceil(ms / 1000)`). Clocks are not
    modelled: the measured span is a parameter. */
module Durations {
  import opened Wrappers
  import opened Text

  /** `"PT" + seconds + "S"`. */
  function IsoSeconds(seconds: int): (d: string)
    ensures |d| >= 4 && d[..2] == "PT" && d[|d| - 1] == 'S'
  {
    "PT" + IntToDecimal(seconds) + "S"
  }

  /** Reads an optionally signed run of decimal digits. */
  function ParseSignedDecimal(body: string): Option<int> {
    if |body| == 0 then None
    else if body[0] == '-' then
      if |body| > 1 && AllDigits(body[1..]) then Some(-(DecimalValue(body[1..]) as int)) else None
    else if AllDigits(body) then Some(DecimalValue(body))
    else None
  }

  lemma SignedDecimalRoundTrip(n: int)
    ensures ParseSignedDecimal(IntToDecimal(n)) == Some(n)
  {
    var body := IntToDecimal(n);
    if n < 0 {
      assert body[1..] == NatToDecimal(-n);
      DecimalRoundTrip(-n);
    } else {
      assert IsDigit(body[0]);
      DecimalRoundTrip(n);
    }
  }

  /** Reads a whole-second duration: `PT`, an optional `-`, digits, `S`. */
  function ParseIsoSeconds(d: string): Option<int> {
    if |d| < 4 || d[..2] != "PT" || d[|d| - 1] != 'S' then None
    else ParseSignedDecimal(d[2..|d| - 1])
  }

  /** Every reported duration reads back as the seconds it was made from. */
  lemma IsoSecondsRoundTrip(seconds: int)
    ensures ParseIsoSeconds(IsoSeconds(seconds)) == Some(seconds)
  {
    var body := IntToDecimal(seconds);
    var d := IsoSeconds(seconds);
    assert d[2..|d| - 1] == body;
    SignedDecimalRoundTrip(seconds);
  }

  const NanosPerSecond: int := 1_000_000_000
  const MillisPerSecond: int := 1000

  /** `Duration.getSeconds()` of a span of `nanos` nanoseconds: the largest
      whole number of seconds not above it. */
  function FloorSeconds(nanos: int): (s: int)
    ensures s * NanosPerSecond <= nanos < (s + 1) * NanosPerSecond
  {
    nanos / NanosPerSecond
  }

  /** `Math.ceil(ms / 1000)`: the smallest whole number of seconds not below
      the span. A span in (-1000, 0] gives `-0`, which prints as `0`. */
  function CeilSeconds(ms: int): (s: int)
    ensures (s - 1) * MillisPerSecond < ms <= s * MillisPerSecond
  {
    -((-ms) / MillisPerSecond)
  }

  /** The Spring controller's `"PT" + duration.getSeconds() + "S"`. */
  function SpringDuration(nanos: int): (d: string)
    ensures ParseIsoSeconds(d) == Some(FloorSeconds(nanos))
  {
    IsoSecondsRoundTrip(FloorSeconds(nanos));
    IsoSeconds(FloorSeconds(nanos))
  }

  /** The Node services' `` `PT${Math.ceil(durationMs / 1000)}S` ``. */
  function NodeDuration(ms: int): (d: string)
    ensures ParseIsoSeconds(d) == Some(CeilSeconds(ms))
  {
    IsoSecondsRoundTrip(CeilSeconds(ms));
    IsoSeconds(CeilSeconds(ms))
  }

  /** The Spring report never overstates the span, and falls short of it by
      less than a second. */
  lemma SpringDurationBounds(nanos: int)
    ensures ParseIsoSeconds(SpringDuration(nanos)).Some?
    ensures var s := ParseIsoSeconds(SpringDuration(nanos)).value;
      s * NanosPerSecond <= nanos < s * NanosPerSecond + NanosPerSecond
  {
    IsoSecondsRoundTrip(FloorSeconds(nanos));
  }

  /** The Node report never understates the span, and exceeds it by less
      than a second. */
  lemma NodeDurationBounds(ms: int)
    ensures ParseIsoSeconds(NodeDuration(ms)).Some?
    ensures var s := ParseIsoSeconds(NodeDuration(ms)).value;
      s * MillisPerSecond - MillisPerSecond < ms <= s * MillisPerSecond
  {
    IsoSecondsRoundTrip(CeilSeconds(ms));
  }

  /** For the same span the two reports agree exactly on whole seconds and
      differ by one second otherwise. */
  lemma SpringAndNodeDurationsAgreeOnWholeSeconds(ms: int)
    ensures ms % MillisPerSecond == 0 ==> CeilSeconds(ms) == FloorSeconds(ms * 1_000_000)
    ensures ms % MillisPerSecond != 0 ==> CeilSeconds(ms) == FloorSeconds(ms * 1_000_000) + 1
  {
  }
}

=== FILE: node_generation.dfy ===
/** The generation helpers shared, line for line, by the Express service
    (`backend/src/services/generationService.ts`) and the Astro endpoint
    (`src/pages/api/generations/index.ts`): reading proposals out of the
    model's reply, cleaning up the title reply, and validating the
    generate command. `JSON.parse` is a parameter: the model only sees
    what it produced. */
module NodeGeneration {
  import opened Wrappers
  import opened Text

  // ---------------------------------------------------------------------
  // Proposals from the reply

  /** An element of a parsed JSON array as the `map` callback sees it:
      `null` (reading `.front` of it throws), or any other value with its
      `front` and `back` properties; `None` stands for a missing or falsy
      property. */
  datatype JsItem = NullItem | Item(front: Option<string>, back: Option<string>)

  /** What `JSON.parse` produced: an array, or any other value. */
  datatype JsValue = JsArray(items: seq<JsItem>) | JsOther

  /** A proposal as the services return it. */
  datatype Proposal = Proposal(front: string, back: string, source: string)

  const AiFull: string := "ai-full"
  const AiEdited: string := "ai-edited"
  const NoArrayError: string := "No JSON array found in API response"
  const BadArrayError: string := "Failed to parse JSON from API response"

  /** `{ front: card.front || '', back: card.back || '', source: 'ai-full' }`. */
  function ToProposal(front: Option<string>, back: Option<string>): (p: Proposal)
    ensures p.source == AiFull
    ensures p.front == (if front.Some? then front.value else "")
    ensures p.back == (if back.Some? then back.value else "")
  {
    Proposal(front.GetOr(""), back.GetOr(""), AiFull)
  }

  /** `items.map(...)`: fails on the first `null` element. */
  function MapItems(items: seq<JsItem>): (r: Option<seq<Proposal>>)
    ensures r.None? <==> exists i :: 0 <= i < |items| && items[i].NullItem?
    ensures r.Some? ==> |r.value| == |items|
    ensures r.Some? ==> forall i :: 0 <= i < |items| ==>
      r.value[i] == ToProposal(items[i].front, items[i].back)
  {
    if |items| == 0 then Some([])
    else if items[0].NullItem? then None
    else
      match MapItems(items[1..])
      case None => None
      case Some(rest) => Some([ToProposal(items[0].front, items[0].back)] + rest)
  }

  /** The array the first attempt reads from the whole reply, when the
      reply parses to an array without `null` elements. */
  function ReadArray(parse: string -> Option<JsValue>, text: string): (r: Option<seq<Proposal>>)
    ensures r.Some? <==> (parse(text).Some? && parse(text).value.JsArray? &&
      forall i :: 0 <= i < |parse(text).value.items| ==> !parse(text).value.items[i].NullItem?)
    ensures r.Some? ==> |r.value| == |parse(text).value.items|
    ensures r.Some? ==> forall i :: 0 <= i < |r.value| ==>
      r.value[i] == ToProposal(parse(text).value.items[i].front, parse(text).value.items[i].back)
  {
    match parse(text)
    case Some(JsArray(items)) => MapItems(items)
    case _ => None
  }

  /** Bounds of the greedy match of `/\[[\s\S]*\]/`: from the first `[`
      to the last `]`, when that `]` comes after the `[`. */
  function ArraySpan(s: string): (r: Option<(nat, nat)>)
    ensures r.Some? ==> r.value.0 < r.value.1 < |s| && s[r.value.0] == '[' && s[r.value.1] == ']'
    ensures r.Some? ==> forall k :: 0 <= k < r.value.0 ==> s[k] != '['
    ensures r.Some? ==> forall k :: r.value.1 < k < |s| ==> s[k] != ']'
    ensures r.None? <==> forall i, j :: 0 <= i < j < |s| && s[i] == '[' ==> s[j] != ']'
  {
    match (FirstIndexOf(s, '['), LastIndexOf(s, ']'))
    case (Some(i), Some(j)) => if i < j then Some((i, j)) else None
    case _ => None
  }

  /** `generateFlashcardsFromText`'s parsing: the whole reply as a JSON
      array, else the bracketed part of it, else an error. */
  function ParseProposals(parse: string -> Option<JsValue>, text: string): (r: Result<seq<Proposal>, string>)
    ensures r.Ok? ==> forall i :: 0 <= i < |r.value| ==> r.value[i].source == AiFull
    ensures ReadArray(parse, text).Some? ==> r == Ok(ReadArray(parse, text).value)
    ensures ReadArray(parse, text).None? && ArraySpan(text).None? ==> r == Err(NoArrayError)
    ensures ReadArray(parse, text).None? && ArraySpan(text).Some? ==>
      var span := text[ArraySpan(text).value.0..ArraySpan(text).value.1 + 1];
      (r.Ok? <==> ReadArray(parse, span).Some?) &&
      (r.Ok? ==> r.value == ReadArray(parse, span).value) &&
      (r.Err? ==> r.error == BadArrayError)
  {
    match ReadArray(parse, text)
    case Some(ps) => Ok(ps)
    case None =>
      match ArraySpan(text)
      case None => Err(NoArrayError)
      case Some((i, j)) =>
        match ReadArray(parse, text[i..j + 1])
        case Some(ps) => Ok(ps)
        case None => Err(BadArrayError)
  }

  /** A reply that wraps a JSON array in prose without brackets (as in
      "Here are your cards: [...] Enjoy!") yields the cards of that array,
      in order, with their texts unchanged. */
  lemma WrappedArrayIsFound(parse: string -> Option<JsValue>, before: string, body: string, after: string)
    requires forall k :: 0 <= k < |before| ==> before[k] != '['
    requires forall k :: 0 <= k < |after| ==> after[k] != ']'
    requires |body| >= 2 && body[0] == '[' && body[|body| - 1] == ']'
    requires ReadArray(parse, before + body + after).None?
    requires ReadArray(parse, body).Some?
    ensures ParseProposals(parse, before + body + after) == Ok(ReadArray(parse, body).value)
  {
    var text := before + body + after;
    var i := |before|;
    var j := |before| + |body| - 1;
    assert text[i] == '[' && text[j] == ']';
    assert forall k :: 0 <= k < i ==> text[k] == before[k];
    assert forall k :: j < k < |text| ==> text[k] == after[k - j - 1];
    assert ArraySpan(text) == Some((i, j));
    assert text[i..j + 1] == body;
  }

  /** Every element that is an object with two string sides comes back
      as a proposal with exactly those sides. */
  lemma ArrayOfCardsIsReadVerbatim(parse: string -> Option<JsValue>, text: string, cards: seq<(string, string)>)
    requires parse(text) == Some(JsArray(seq(|cards|, i requires 0 <= i < |cards| => Item(Some(cards[i].0), Some(cards[i].1)))))
    ensures ParseProposals(parse, text).Ok?
    ensures |ParseProposals(parse, text).value| == |cards|
    ensures forall i :: 0 <= i < |cards| ==>
      ParseProposals(parse, text).value[i] == Proposal(cards[i].0, cards[i].1, AiFull)
  {
    var items := parse(text).value.items;
    assert forall i :: 0 <= i < |items| ==> !items[i].NullItem?;
  }

  // ---------------------------------------------------------------------
  // The title reply

  const FallbackTitle: string := "Generated Flashcards"
  const MaxTitleLength: nat := 40

  predicate IsQuote(c: char) {
    c == '"' || c == '\''
  }

  /** `title.replace(/^["']|["']$/g, '')`: one quote char off each end, the
      end one only when it is not the quote already taken off the front. */
  function StripQuotes(t: string): (r: string)
    ensures |t| > 0 && IsQuote(t[0]) ==> |r| + 1 <= |t| && r == t[1..1 + |r|]
    ensures !(|t| > 0 && IsQuote(t[0])) ==> |r| <= |t| && r == t[..|r|]
    ensures |t| - 2 <= |r| <= |t|
    ensures (|t| == 0 || !IsQuote(t[0])) && (|t| == 0 || !IsQuote(t[|t| - 1])) ==> r == t
    ensures |t| >= 2 && IsQuote(t[0]) && IsQuote(t[|t| - 1]) ==> |r| == |t| - 2
  {
    var start := if |t| > 0 && IsQuote(t[0]) then 1 else 0;
    var end := if |t| > start && IsQuote(t[|t| - 1]) then |t| - 1 else |t|;
    t[start..end]
  }

  /** The title kept from a reply: trimmed, quotes removed, and cut to 37
      chars plus `...` when longer than 40. */
  function CleanTitle(reply: string): (title: string)
    ensures |title| <= MaxTitleLength
    ensures |StripQuotes(JsTrim(reply))| <= MaxTitleLength ==> title == StripQuotes(JsTrim(reply))
    ensures |StripQuotes(JsTrim(reply))| > MaxTitleLength ==>
      |title| == MaxTitleLength && title == StripQuotes(JsTrim(reply))[..37] + "..."
  {
    var t := StripQuotes(JsTrim(reply));
    if |t| > MaxTitleLength then t[..37] + "..." else t
  }

  /** A title that is already clean comes back unchanged. */
  lemma CleanTitleKeepsCleanTitle(t: string)
    requires |t| <= MaxTitleLength
    requires |t| == 0 || (!IsJsWhitespace(t[0]) && !IsJsWhitespace(t[|t| - 1]))
    requires |t| == 0 || (!IsQuote(t[0]) && !IsQuote(t[|t| - 1]))
    ensures CleanTitle(t) == t
  {
    TrimKeepsCleanString(t, IsJsWhitespace);
  }

  /** `generateTitleForText`: the cleaned reply, or the fallback title when
      the model call throws (`None`). */
  function GenerationTitle(reply: Option<string>): (title: string)
    ensures |title| <= MaxTitleLength
    ensures reply.None? ==> title == FallbackTitle
    ensures reply.Some? ==> title == CleanTitle(reply.value)
  {
    match reply
    case None => FallbackTitle
    case Some(r) => CleanTitle(r)
  }

  // ---------------------------------------------------------------------
  // The generate command

  /** The `text` property of a request body. */
  datatype TextField = Missing | NotString(received: string) | Str(value: string)

  /** A request body: an object, or another JSON value (`received` is the
      type zod names in its message). */
  datatype CommandBody = NotAnObject(received: string) | Body(text: TextField)

  const MinTextLength: nat := 1000
  const MaxTextLength: nat := 10000
  const TooShortMessage: string := "Text must be at least 1000 characters long"
  const TooLongMessage: string := "Text cannot exceed 10000 characters"

  /** zod's default messages for a wrong or missing value. */
  function TypeIssue(expected: string, received: string): string {
    "Expected " + expected + ", received " + received
  }

  const RequiredMessage: string := "Required"

  /** The command schema as written: `min` and `max` check the text as
      sent and only then does the `transform` trim it, although the comment
      on that line says the trim comes before validation. The result is
      the trimmed text or the first issue's message. */
  function ValidateCommandAsWritten(body: CommandBody): (r: Result<string, string>)
    ensures r.Ok? <==> (body.Body? && body.text.Str? &&
      MinTextLength <= |body.text.value| <= MaxTextLength)
    ensures r.Ok? ==> r.value == JsTrim(body.text.value)
  {
    match body
    case NotAnObject(t) => Err(TypeIssue("object", t))
    case Body(Missing) => Err(RequiredMessage)
    case Body(NotString(t)) => Err(TypeIssue("string", t))
    case Body(Str(s)) =>
      if |s| < MinTextLength then Err(TooShortMessage)
      else if |s| > MaxTextLength then Err(TooLongMessage)
      else Ok(JsTrim(s))
  }

  /** A text of 999 letters and one space passes the schema and reaches
      the model as 999 chars, under the 1000-char minimum. */
  lemma ValidateCommandAsWrittenAcceptsShortText()
    ensures var s := seq(999, _ => 'a') + " ";
      ValidateCommandAsWritten(Body(Str(s))).Ok? &&
      |ValidateCommandAsWritten(Body(Str(s))).value| < MinTextLength
  {
    var s := seq(999, _ => 'a') + " ";
    var a := seq(999, _ => 'a');
    assert s == "" + a + " ";
    TrimSurrounded("", a, " ", IsJsWhitespace);
  }

  /** The schema with the trim before the checks, as the comment intends:
      accepted text is trimmed and within the bounds. */
  function ValidateCommand(body: CommandBody): (r: Result<string, string>)
    ensures r.Ok? <==> (body.Body? && body.text.Str? &&
      MinTextLength <= |JsTrim(body.text.value)| <= MaxTextLength)
    ensures r.Ok? ==> r.value == JsTrim(body.text.value)
    ensures r.Ok? ==> MinTextLength <= |r.value| <= MaxTextLength && JsTrim(r.value) == r.value
    ensures body.Body? && body.text.Str? && |JsTrim(body.text.value)| < MinTextLength ==> r == Err(TooShortMessage)
    ensures body.Body? && body.text.Str? && |JsTrim(body.text.value)| > MaxTextLength ==> r == Err(TooLongMessage)
    ensures body.Body? && body.text.Missing? ==> r == Err(RequiredMessage)
  {
    match body
    case NotAnObject(t) => Err(TypeIssue("object", t))
    case Body(Missing) => Err(RequiredMessage)
    case Body(NotString(t)) => Err(TypeIssue("string", t))
    case Body(Str(s)) =>
      var trimmed := JsTrim(s);
      TrimIdempotent(s, IsJsWhitespace);
      if |trimmed| < MinTextLength then Err(TooShortMessage)
      else if |trimmed| > MaxTextLength then Err(TooLongMessage)
      else Ok(trimmed)
  }

  /** Both schemas agree on texts without surrounding white space. */
  lemma ValidateCommandAgreesOnTrimmedText(s: string)
    requires JsTrim(s) == s
    ensures ValidateCommand(Body(Str(s))) == ValidateCommandAsWritten(Body(Str(s)))
  {
  }
}

=== FILE: node_routes.dfy ===
/** The HTTP layer over the Node data layer: the Express routes of
    `backend/` for generations (`routes/generations.ts`) and bulk card
    creation (`routes/bulk.ts`), and the Astro endpoints
    `src/pages/api/generations/index.ts` and `src/pages/api/flashcards/bulk.ts`.
    Request bodies arrive as the JSON values the handlers inspect; the
    model call, JSON parsing, hashing, the clock and database failures
    are parameters. */
module NodeRoutes {
  import opened Wrappers
  import opened Text
  import opened NodeGeneration
  import opened NodeStore

  /** A response: 200 or 201 with data, or an error status with the
      `error` text. */
  datatype Reply<T> = Ok200(data: T) | Created201(data: T) | Failure(status: int, error: string)

  // ---------------------------------------------------------------------
  // Ids and service errors

  const BadIdError: string := "Parameter 'id' must be a valid number"

  /** `parseInt(id, 10)`, refused only when it is `NaN`. */
  function ParseId(param: string): (r: Result<int, Reply<()>>)
    ensures r.Ok? <==> ParseIntJs(param).Some?
    ensures r.Ok? ==> r.value == ParseIntJs(param).value
    ensures r.Err? ==> r.error == Failure(400, BadIdError)
  {
    match ParseIntJs(param)
    case Some(n) => Ok(n)
    case None => Err(Failure(400, BadIdError))
  }

  /** The `catch` of the id routes: the service's not-found error is a
      404, any other error a 500 with its message. */
  function ServiceError<T>(message: string): (r: Reply<T>)
    ensures r.Failure?
    ensures r.status == 404 <==> message == GenerationNotFound
    ensures r.status == 500 <==> message != GenerationNotFound
    ensures r.error == message
  {
    if message == GenerationNotFound then Failure(404, GenerationNotFound) else Failure(500, message)
  }

  /** `GET /api/generations/:id`. */
  function GetById(db: Db, param: string, user: UserId): (r: Reply<GenerationDetail>)
    ensures ParseIntJs(param).None? ==> r == Failure(400, BadIdError)
    ensures ParseIntJs(param).Some? ==> (r.Ok200? <==> OwnsGeneration(db, user, ParseIntJs(param).value))
    ensures ParseIntJs(param).Some? && r.Ok200? ==> r.data == GetGeneration(db, ParseIntJs(param).value, user).value
    ensures ParseIntJs(param).Some? && !r.Ok200? ==> r == Failure(404, GenerationNotFound)
  {
    match ParseId(param)
    case Err(_) => Failure(400, BadIdError)
    case Ok(id) =>
      match GetGeneration(db, id, user)
      case Ok(detail) => Ok200(detail)
      case Err(message) => ServiceError(message)
  }

  /** `DELETE /api/generations/:id`. */
  function DeleteById(db: Db, param: string, user: UserId): (r: (Db, Reply<()>))
    ensures ParseIntJs(param).None? ==> r == (db, Failure(400, BadIdError))
    ensures ParseIntJs(param).Some? ==> r.0 == DeleteGeneration(db, ParseIntJs(param).value, user).0
    ensures ParseIntJs(param).Some? ==> (r.1 == Ok200(()) <==> OwnsGeneration(db, user, ParseIntJs(param).value))
    ensures ParseIntJs(param).Some? && r.1 != Ok200(()) ==> r == (db, Failure(404, GenerationNotFound))
  {
    match ParseId(param)
    case Err(_) => (db, Failure(400, BadIdError))
    case Ok(id) =>
      var (db', result) := DeleteGeneration(db, id, user);
      match result
      case Ok(_) => (db', Ok200(()))
      case Err(message) => (db', ServiceError(message))
  }

  /** An id followed by anything that is not a digit is read as the id:
      `12abc` names generation 12. */
  lemma TrailingTextIsIgnored(db: Db, n: int, rest: string, user: UserId)
    requires rest == [] || !IsDigit(rest[0])
    ensures GetById(db, IntToDecimal(n) + rest, user) == GetById(db, IntToDecimal(n), user)
    ensures GetById(db, IntToDecimal(n) + rest, user).Ok200? <==> OwnsGeneration(db, user, n)
  {
    ParseIntJsOfRendered(n, rest);
    ParseIntJsOfRendered(n, []);
    assert IntToDecimal(n) + [] == IntToDecimal(n);
  }

  // ---------------------------------------------------------------------
  // PUT /api/generations/:id

  /** A card of the update body: a non-object, or an object with its three
      properties. */
  datatype UpdateItem = ItemNotObject(received: string) | ItemObject(front: TextField, back: TextField, source: TextField)

  /** The `flashcards` property. */
  datatype ListField = ListMissing | NotAList(received: string) | List(items: seq<UpdateItem>)

  datatype UpdateBody = UpdateNotObject(received: string) | UpdateObject(flashcards: ListField)

  const FrontEmpty: string := "Front side cannot be empty"
  const BackEmpty: string := "Back side cannot be empty"
  const SourceOptions: string := "'ai-full' | 'ai-edited'"

  /** The first issue of a string field with `min(1, message)`. */
  function TextIssue(field: TextField, emptyMessage: string): (r: Option<string>)
    ensures r.None? <==> field.Str? && field.value != ""
  {
    match field
    case Missing => Some(RequiredMessage)
    case NotString(t) => Some(TypeIssue("string", t))
    case Str(s) => if s == "" then Some(emptyMessage) else None
  }

  /** The issue of `z.enum(['ai-full', 'ai-edited'])`. */
  function SourceIssue(field: TextField): (r: Option<string>)
    ensures r.None? <==> field.Str? && field.value in {AiFull, AiEdited}
  {
    match field
    case Missing => Some(RequiredMessage)
    case NotString(t) => Some(TypeIssue(SourceOptions, t))
    case Str(s) =>
      if s == AiFull || s == AiEdited then None
      else Some("Invalid enum value. Expected " + SourceOptions + ", received '" + s + "'")
  }

  /** The first issue of a card: front, then back, then source. */
  function ItemIssue(item: UpdateItem): (r: Option<string>)
    ensures r.None? <==> (item.ItemObject? && item.front.Str? && item.front.value != "" &&
      item.back.Str? && item.back.value != "" && item.source.Str? && item.source.value in {AiFull, AiEdited})
  {
    match item
    case ItemNotObject(t) => Some(TypeIssue("object", t))
    case ItemObject(front, back, source) =>
      if TextIssue(front, FrontEmpty).Some? then TextIssue(front, FrontEmpty)
      else if TextIssue(back, BackEmpty).Some? then TextIssue(back, BackEmpty)
      else SourceIssue(source)
  }

  /** The cards of a list whose every card has no issue, or the first
      issue in list order. */
  function CheckItems(items: seq<UpdateItem>): (r: Result<seq<NewCard>, string>)
    ensures r.Ok? <==> forall k :: 0 <= k < |items| ==> ItemIssue(items[k]).None?
    ensures r.Ok? ==> |r.value| == |items|
    ensures r.Ok? ==> forall k :: 0 <= k < |items| ==>
      r.value[k] == NewCard(items[k].front.value, items[k].back.value, items[k].source.value)
    ensures r.Err? ==> exists k :: (0 <= k < |items| && ItemIssue(items[k]) == Some(r.error) &&
      forall j :: 0 <= j < k ==> ItemIssue(items[j]).None?)
  {
    if |items| == 0 then Ok([])
    else
      match ItemIssue(items[0])
      case Some(issue) => Err(issue)
      case None =>
        match CheckItems(items[1..])
        case Err(issue) =>
          var k :| 0 <= k < |items[1..]| && ItemIssue(items[1..][k]) == Some(issue) &&
            forall j :: 0 <= j < k ==> ItemIssue(items[1..][j]).None?;
          assert ItemIssue(items[k + 1]) == Some(issue);
          assert forall j :: 1 <= j < k + 1 ==> items[j] == items[1..][j - 1];
          Err(issue)
        case Ok(rest) =>
          Ok([NewCard(items[0].front.value, items[0].back.value, items[0].source.value)] + rest)
  }

  /** `updateSchema.safeParse(req.body)`. */
  function ValidateUpdate(body: UpdateBody): (r: Result<seq<NewCard>, string>)
    ensures r.Ok? ==> body.UpdateObject? && body.flashcards.List? && r == CheckItems(body.flashcards.items)
    ensures r.Ok? ==> forall k :: 0 <= k < |r.value| ==>
      r.value[k].front != "" && r.value[k].back != "" && r.value[k].source in {AiFull, AiEdited}
    ensures body.UpdateObject? && body.flashcards.List? ==> r == CheckItems(body.flashcards.items)
    ensures body.UpdateObject? && body.flashcards.ListMissing? ==> r == Err(RequiredMessage)
  {
    match body
    case UpdateNotObject(t) => Err(TypeIssue("object", t))
    case UpdateObject(ListMissing) => Err(RequiredMessage)
    case UpdateObject(NotAList(t)) => Err(TypeIssue("array", t))
    case UpdateObject(List(items)) =>
      var r := CheckItems(items);
      assert r.Ok? ==> forall k :: 0 <= k < |items| ==> ItemIssue(items[k]).None?;
      r
  }

  /** `PUT /api/generations/:id`: the id, then the body, are checked
      before the store is touched; the service's errors are mapped as in
      the other id routes. */
  function PutById(db: Db, param: string, user: UserId, body: UpdateBody): (r: (Db, Reply<map<int, Card>>))
    ensures ParseIntJs(param).None? ==> r == (db, Failure(400, BadIdError))
    ensures ParseIntJs(param).Some? && ValidateUpdate(body).Err? ==> r == (db, Failure(400, ValidateUpdate(body).error))
    ensures ParseIntJs(param).Some? && ValidateUpdate(body).Ok? ==>
      r.0 == UpdateGeneration(db, ParseIntJs(param).value, user, ValidateUpdate(body).value).0 &&
      (r.1.Ok200? <==> OwnsGeneration(db, user, ParseIntJs(param).value)) &&
      (!r.1.Ok200? ==> r == (db, Failure(404, GenerationNotFound)))
  {
    match ParseId(param)
    case Err(_) => (db, Failure(400, BadIdError))
    case Ok(id) =>
      match ValidateUpdate(body)
      case Err(issue) => (db, Failure(400, issue))
      case Ok(cards) =>
        var (db', result) := UpdateGeneration(db, id, user, cards);
        match result
        case Ok(inserted) => (db', Ok200(inserted))
        case Err(message) => (db', ServiceError(message))
  }

  /** After a successful `PUT`, the generation's two accepted counts add
      up to the number of cards sent. */
  lemma PutCountsEveryCard(db: Db, param: string, user: UserId, body: UpdateBody)
    requires ParseIntJs(param).Some? && ValidateUpdate(body).Ok?
    requires OwnsGeneration(db, user, ParseIntJs(param).value)
    ensures var g := PutById(db, param, user, body).0.generations[ParseIntJs(param).value];
      g.acceptedUneditedCount + g.acceptedEditedCount == |ValidateUpdate(body).value|
  {
    CountsCoverAiSources(ValidateUpdate(body).value);
  }

  // ---------------------------------------------------------------------
  // POST /api/generations (Express)

  /** `POST /api/generations`: a body the schema refuses is a 400 with the
      first issue and the service is not called; otherwise the trimmed
      text is generated from, giving 201 or the service's 500. The schema
      is the one the route declares, which bounds the text before it is
      trimmed. */
  function PostGeneration(
    db: Db, user: UserId, body: CommandBody, hash: string -> string,
    reply: Result<string, string>, parse: string -> Option<JsValue>, durationMs: int,
    titleReply: Option<string>, createdAt: int, insertFails: bool): (r: (Db, Reply<GenerationResult>))
    ensures ValidateCommandAsWritten(body).Err? ==> r == (db, Failure(400, ValidateCommandAsWritten(body).error))
    ensures ValidateCommandAsWritten(body).Ok? ==> (
      var (db', result) := GenerateFlashcards(db, user, ValidateCommandAsWritten(body).value, hash, reply, parse, durationMs,
                                              titleReply, createdAt, insertFails);
      r.0 == db' && r.1 == (if result.Ok? then Created201(result.value) else Failure(500, GenerateError)))
  {
    match ValidateCommandAsWritten(body)
    case Err(issue) => (db, Failure(400, issue))
    case Ok(text) =>
      var (db', result) := GenerateFlashcards(db, user, text, hash, reply, parse, durationMs, titleReply, createdAt, insertFails);
      match result
      case Ok(generated) => (db', Created201(generated))
      case Err(message) => (db', Failure(500, message))
  }

  /** A text of 999 letters and a space is not refused by the route: the
      service is called with the 999 letters, below the minimum length. */
  lemma PostGenerationAcceptsShortText(
    db: Db, user: UserId, hash: string -> string,
    reply: Result<string, string>, parse: string -> Option<JsValue>, durationMs: int,
    titleReply: Option<string>, createdAt: int, insertFails: bool)
    ensures var body := Body(Str(seq(999, _ => 'a') + " "));
      var r := PostGeneration(db, user, body, hash, reply, parse, durationMs, titleReply, createdAt, insertFails);
      r.1 != Failure(400, TooShortMessage) &&
      r.0 == GenerateFlashcards(db, user, seq(999, _ => 'a'), hash, reply, parse, durationMs,
                                titleReply, createdAt, insertFails).0
  {
    ValidateCommandAsWrittenAcceptsShortText();
    var s := seq(999, _ => 'a') + " ";
    var a := seq(999, _ => 'a');
    assert s == "" + a + " ";
    TrimSurrounded("", a, " ", IsJsWhitespace);
  }

  // ---------------------------------------------------------------------
  // Bulk creation

  /** An element of a bulk body as the handlers read it; `None` is a
      missing or falsy property. A non-object element reads as one with
      every property missing. */
  datatype BulkItem = BulkItem(
    front: Option<string>, back: Option<string>, source: Option<string>,
    generationId: Option<int>, displayOrder: Option<int>)

  /** A request body: an array, whose `null` elements are `None`, or any
      other JSON value. */
  datatype BulkBody = NotAnArray | Elements(items: seq<Option<BulkItem>>)

  const NotArrayError: string := "Request body must be an array of flashcards"
  const MissingSideError: string := "Each flashcard must include a 'front' and a 'back'"
  const BulkInsertError: string := "Error creating flashcards"
  const UnauthorizedMessage: string := "Unauthorized"
  const InternalError: string := "Internal server error"
  /** The message of the `TypeError` that reading `front` of `null`
      raises in Node's V8 engine. */
  const NullElementMessage: string := "Cannot read properties of null (reading 'front')"

  /** Whether an element passes the validation loop: an object with a
      front and a back. */
  predicate HasSides(e: Option<BulkItem>) {
    e.Some? && Given(e.value.front) && Given(e.value.back)
  }

  /** Whether every element has a front and a back. */
  predicate AllHaveSides(items: seq<Option<BulkItem>>) {
    forall k :: 0 <= k < |items| ==> HasSides(items[k])
  }

  /** The index where the validation loop stops: the first element that
      is `null` or lacks a side, or the number of elements. */
  function FirstRejected(items: seq<Option<BulkItem>>): (k: nat)
    ensures k <= |items|
    ensures forall i :: 0 <= i < k ==> HasSides(items[i])
    ensures k < |items| ==> !HasSides(items[k])
    ensures k == |items| <==> AllHaveSides(items)
  {
    if |items| == 0 then 0
    else if !HasSides(items[0]) then 0
    else 1 + FirstRejected(items[1..])
  }

  /** The Express route's projection: front, back, source defaulting to
      `ai-full`, and generation id; everything else is dropped. */
  function Projected(item: BulkItem): (c: CreateCommand)
    requires Given(item.front) && Given(item.back)
    ensures c.front == item.front.value && c.back == item.back.value && c.generationId == item.generationId
    ensures c.source == (if Given(item.source) then item.source.value else AiFull)
    ensures c.displayOrder.None?
  {
    CreateCommand(item.front.value, item.back.value, if Given(item.source) then item.source.value else AiFull,
                  item.generationId, None)
  }

  /** The Astro endpoint inserts the elements themselves: a missing source
      takes the column's default. */
  function AsSent(item: BulkItem, sourceDefault: string): (c: CreateCommand)
    requires Given(item.front) && Given(item.back)
    ensures c == CreateCommand(item.front.value, item.back.value, item.source.GetOr(sourceDefault),
                               item.generationId, item.displayOrder)
  {
    CreateCommand(item.front.value, item.back.value, item.source.GetOr(sourceDefault), item.generationId, item.displayOrder)
  }

  /** `POST /api/flashcards/bulk` (Express): all or nothing. The
      validation loop stops at the first rejected element: a `null` one
      throws, and the `catch` answers 500 with the error's message; one
      without a side is a 400. */
  function BulkExpress(db: Db, user: UserId, body: BulkBody, insertFails: bool): (r: (Db, Reply<()>))
    ensures body.NotAnArray? ==> r == (db, Failure(400, NotArrayError))
    ensures body.Elements? && !AllHaveSides(body.items) ==>
      r == (db, if body.items[FirstRejected(body.items)].None? then Failure(500, NullElementMessage)
                else Failure(400, MissingSideError))
    ensures body.Elements? && AllHaveSides(body.items) && insertFails ==> r == (db, Failure(500, BulkInsertError))
    ensures body.Elements? && AllHaveSides(body.items) && !insertFails ==>
      r.1 == Created201(()) &&
      r.0 == CreateBulk(db, seq(|body.items|, k requires 0 <= k < |body.items| && AllHaveSides(body.items) =>
                                  Projected(body.items[k].value)), user)
  {
    match body
    case NotAnArray => (db, Failure(400, NotArrayError))
    case Elements(items) =>
      var k := FirstRejected(items);
      if k < |items| then
        (db, if items[k].None? then Failure(500, NullElementMessage) else Failure(400, MissingSideError))
      else if insertFails then (db, Failure(500, BulkInsertError))
      else (CreateBulk(db, seq(|items|, k requires 0 <= k < |items| && AllHaveSides(items) => Projected(items[k].value)), user),
            Created201(()))
  }

  /** `POST /api/flashcards/bulk` (Astro): no user is a 401 before the body
      is read, a body that is not JSON a 500, and then the same checks as
      the Express route, a `null` element being a 500 with the generic
      message; the elements go in as sent, owned by the caller. */
  function BulkAstro(db: Db, user: Option<UserId>, body: Option<BulkBody>, sourceDefault: string, insertFails: bool): (r: (Db, Reply<()>))
    ensures user.None? ==> r == (db, Failure(401, UnauthorizedMessage))
    ensures user.Some? && body.None? ==> r == (db, Failure(500, InternalError))
    ensures user.Some? && body == Some(NotAnArray) ==> r == (db, Failure(400, NotArrayError))
    ensures user.Some? && body.Some? && body.value.Elements? && !AllHaveSides(body.value.items) ==>
      r == (db, if body.value.items[FirstRejected(body.value.items)].None? then Failure(500, InternalError)
                else Failure(400, MissingSideError))
    ensures r.1.Created201? ==> user.Some? && body.Some? && body.value.Elements? && AllHaveSides(body.value.items) && !insertFails
    ensures r.1.Created201? ==> r.0 == CreateBulk(db, seq(|body.value.items|, k requires 0 <= k < |body.value.items| &&
      AllHaveSides(body.value.items) => AsSent(body.value.items[k].value, sourceDefault)), user.value)
    ensures !r.1.Created201? ==> r.0 == db
  {
    if user.None? then (db, Failure(401, UnauthorizedMessage))
    else match body
      case None => (db, Failure(500, InternalError))
      case Some(NotAnArray) => (db, Failure(400, NotArrayError))
      case Some(Elements(items)) =>
        var k := FirstRejected(items);
        if k < |items| then
          (db, if items[k].None? then Failure(500, InternalError) else Failure(400, MissingSideError))
        else if insertFails then (db, Failure(500, BulkInsertError))
        else (CreateBulk(db, seq(|items|, k requires 0 <= k < |items| && AllHaveSides(items) => AsSent(items[k].value, sourceDefault)), user.value),
              Created201(()))
  }

  /** One element without a back rejects the whole batch: nothing is
      inserted, however many elements surround it, and when the elements
      before it are good the reply is the 400. */
  lemma {:induction false} OneBadElementRejectsAll(
    db: Db, user: UserId, before: seq<Option<BulkItem>>, bad: BulkItem, after: seq<Option<BulkItem>>, sourceDefault: string)
    requires !Given(bad.back)
    ensures var r := BulkExpress(db, user, Elements(before + [Some(bad)] + after), false);
      r.0 == db && r.1.Failure?
    ensures var r := BulkAstro(db, Some(user), Some(Elements(before + [Some(bad)] + after)), sourceDefault, false);
      r.0 == db && r.1.Failure?
    ensures AllHaveSides(before) ==>
      BulkExpress(db, user, Elements(before + [Some(bad)] + after), false) == (db, Failure(400, MissingSideError)) &&
      BulkAstro(db, Some(user), Some(Elements(before + [Some(bad)] + after)), sourceDefault, false) == (db, Failure(400, MissingSideError))
  {
    var items := before + [Some(bad)] + after;
    assert items[|before|] == Some(bad);
    assert !HasSides(items[|before|]);
    if AllHaveSides(before) {
      assert forall i :: 0 <= i < |before| ==> items[i] == before[i];
      assert FirstRejected(items) == |before|;
    }
  }

  /** A `null` element after good ones makes both routes fail with 500
      and insert nothing: Express reports the `TypeError`'s message, Astro
      its generic message. */
  lemma {:induction false} NullElementIsServerError(
    db: Db, user: UserId, before: seq<Option<BulkItem>>, after: seq<Option<BulkItem>>, sourceDefault: string)
    requires AllHaveSides(before)
    ensures BulkExpress(db, user, Elements(before + [None] + after), false) == (db, Failure(500, NullElementMessage))
    ensures BulkAstro(db, Some(user), Some(Elements(before + [None] + after)), sourceDefault, false) == (db, Failure(500, InternalError))
  {
    var items := before + [None] + after;
    assert items[|before|].None?;
    assert forall i :: 0 <= i < |before| ==> items[i] == before[i];
    assert FirstRejected(items) == |before|;
  }

  /** The routes differ on what they keep: the Express route drops a
      display order and fills in a missing source, the Astro endpoint
      keeps both as sent. */
  lemma BulkRoutesDiffer(item: BulkItem, sourceDefault: string)
    requires Given(item.front) && Given(item.back) && !Given(item.source) && item.displayOrder.Some?
    ensures Projected(item).source == AiFull && Projected(item).displayOrder.None?
    ensures AsSent(item, sourceDefault).displayOrder == item.displayOrder
  {
  }

  // ---------------------------------------------------------------------
  // The Astro generations endpoint

  const AstroModel: string := "deepseek-reasoner"
  const InvalidJson: string := "Invalid JSON format"
  /** The endpoint's generic failure message, in Polish ("an error
      occurred while generating flashcards"). */
  const AstroGenerateError: string := "Wystąpił błąd podczas generowania fiszek"

  /** `POST /api/generations` (Astro): 401 without a user, 400 for a body
      that is not JSON or that the schema refuses; then the trimmed text
      is generated from. A failed insert answers `Database error` without
      an error log; a failed model call or parse is logged and answered
      with the generic message. */
  function AstroPost(
    db: Db, user: Option<UserId>, body: Option<CommandBody>, hash: string -> string,
    reply: Result<string, string>, parse: string -> Option<JsValue>, durationMs: int,
    titleReply: Option<string>, createdAt: int, insertFails: bool): (r: (Db, Reply<GenerationResult>))
    ensures user.None? ==> r == (db, Failure(401, UnauthorizedMessage))
    ensures user.Some? && body.None? ==> r == (db, Failure(400, InvalidJson))
    ensures user.Some? && body.Some? && ValidateCommandAsWritten(body.value).Err? ==>
      r == (db, Failure(400, ValidateCommandAsWritten(body.value).error))
    ensures r.1.Created201? <==> (user.Some? && body.Some? && ValidateCommandAsWritten(body.value).Ok? &&
      ProposalsFromReply(reply, parse, durationMs).Ok? && !insertFails)
    ensures r.1.Created201? ==> (
      var text := ValidateCommandAsWritten(body.value).value;
      var (ps, stats) := ProposalsFromReply(reply, parse, durationMs).value;
      var name := GenerationTitle(titleReply);
      r.1.data == GenerationResult(db.nextGeneration, name, ps, stats) &&
      r.0 == db.(generations := db.generations[db.nextGeneration := Generation(user.value, AstroModel, hash(text), |text|,
                   stats.generatedCount, stats.generationDuration, 0, 0, name, createdAt)],
                 nextGeneration := db.nextGeneration + 1))
    ensures user.Some? && body.Some? && ValidateCommandAsWritten(body.value).Ok? && ProposalsFromReply(reply, parse, durationMs).Ok? && insertFails ==>
      r == (db, Failure(500, DatabaseError))
    ensures user.Some? && body.Some? && ValidateCommandAsWritten(body.value).Ok? && ProposalsFromReply(reply, parse, durationMs).Err? ==> (
      var text := ValidateCommandAsWritten(body.value).value;
      r.1 == Failure(500, AstroGenerateError) &&
      r.0 == db.(errorLogs := db.errorLogs + [ErrorLog(user.value, AstroModel, hash(text), |text|, GenerationErrorCode,
                                                       ProposalsFromReply(reply, parse, durationMs).error)]))
  {
    if user.None? then (db, Failure(401, UnauthorizedMessage))
    else if body.None? then (db, Failure(400, InvalidJson))
    else match ValidateCommandAsWritten(body.value)
      case Err(issue) => (db, Failure(400, issue))
      case Ok(text) =>
        match ProposalsFromReply(reply, parse, durationMs)
        case Err(message) =>
          (db.(errorLogs := db.errorLogs + [ErrorLog(user.value, AstroModel, hash(text), |text|, GenerationErrorCode, message)]),
           Failure(500, AstroGenerateError))
        case Ok((ps, stats)) =>
          var name := GenerationTitle(titleReply);
          if insertFails then (db, Failure(500, DatabaseError))
          else
            var id := db.nextGeneration;
            (db.(generations := db.generations[id := Generation(user.value, AstroModel, hash(text), |text|,
                   stats.generatedCount, stats.generationDuration, 0, 0, name, createdAt)],
                 nextGeneration := id + 1),
             Created201(GenerationResult(id, name, ps, stats)))
  }

  /** The two generate endpoints share the schema as written, so they
      accept the same bodies; on an accepted body and a readable reply they
      answer alike and store the same row but for the model name: the
      Express service is handed the trimmed text too, so the lengths
      agree. */
  lemma GenerateEndpointsAgree(
    db: Db, user: UserId, body: CommandBody, hash: string -> string,
    reply: Result<string, string>, parse: string -> Option<JsValue>, durationMs: int,
    titleReply: Option<string>, createdAt: int)
    requires ValidateCommandAsWritten(body).Ok? && ProposalsFromReply(reply, parse, durationMs).Ok?
    ensures var express := PostGeneration(db, user, body, hash, reply, parse, durationMs, titleReply, createdAt, false);
      var astro := AstroPost(db, Some(user), Some(body), hash, reply, parse, durationMs, titleReply, createdAt, false);
      var id := db.nextGeneration;
      express.1 == astro.1 &&
      express.0.generations[id] == astro.0.generations[id].(model := DefaultModel)
  {
  }

  /** A body the shared schema refuses gets the same 400 from both
      endpoints, and neither touches the store. */
  lemma GenerateEndpointsRejectAlike(
    db: Db, user: UserId, body: CommandBody, hash: string -> string,
    reply: Result<string, string>, parse: string -> Option<JsValue>, durationMs: int,
    titleReply: Option<string>, createdAt: int, insertFails: bool)
    requires ValidateCommandAsWritten(body).Err?
    ensures var express := PostGeneration(db, user, body, hash, reply, parse, durationMs, titleReply, createdAt, insertFails);
      var astro := AstroPost(db, Some(user), Some(body), hash, reply, parse, durationMs, titleReply, createdAt, insertFails);
      express == astro && express == (db, Failure(400, ValidateCommandAsWritten(body).error))
  {
  }

  const ListError: string := "Failed to load generations"

  /** A line of the Astro listing. */
  datatype ListedGeneration = ListedGeneration(id: int, createdAt: int, generatedCount: nat, name: string)

  /** `GET /api/generations` (Astro): the caller's generations, newest
      first, or a 500 when the query fails. */
  function AstroList(db: Db, user: Option<UserId>, listFails: bool): (r: Reply<seq<ListedGeneration>>)
    ensures user.None? <==> r == Failure(401, UnauthorizedMessage)
    ensures user.Some? ==> (r.Ok200? <==> !listFails)
    ensures user.Some? && listFails ==> r == Failure(500, ListError)
    ensures r.Ok200? ==> |r.data| == |GenerationIdsOf(db, user.value)|
    ensures r.Ok200? ==> forall k :: 0 <= k < |r.data| ==>
      OwnsGeneration(db, user.value, r.data[k].id) && r.data[k].id == GenerationIdsOf(db, user.value)[k]
    ensures r.Ok200? ==> forall i, j :: 0 <= i < j < |r.data| ==> r.data[i].createdAt >= r.data[j].createdAt
  {
    if user.None? then Failure(401, UnauthorizedMessage)
    else if listFails then Failure(500, ListError)
    else
      var ids := GenerationIdsOf(db, user.value);
      Ok200(seq(|ids|, k requires 0 <= k < |ids| =>
        var g := db.generations[ids[k]]; ListedGeneration(ids[k], g.createdAt, g.generatedCount, g.name)))
  }
}

=== FILE: node_store.dfy ===
/** The Node back ends' data layer: the `generations`, `flashcards` and
    `generation_error_logs` tables of the Supabase database, and the two
    services over them, `GenerationService` and `FlashcardService`, of the
    Express back end (`backend/`), with the variant `FlashcardService` of
    `backend_express/`. The service client bypasses row-level security, so
    every owner check is the one the code spells out. Database calls
    succeed unless a parameter says otherwise; the model call, JSON
    parsing, hashing and the clock are parameters. */
module NodeStore {
  import opened Wrappers
  import opened Ordering
  import NodeGeneration
  import Durations

  /** Supabase user ids are strings. */
  type UserId = string

  /** A `generations` row. */
  datatype Generation = Generation(
    owner: UserId, model: string, sourceTextHash: string, sourceTextLength: nat,
    generatedCount: nat, generationDuration: string,
    acceptedUneditedCount: nat, acceptedEditedCount: nat,
    name: string, createdAt: int)

  /** A `flashcards` row; `generation` and `displayOrder` are nullable. */
  datatype Card = Card(
    front: string, back: string, source: string, owner: UserId,
    generation: Option<int>, displayOrder: Option<int>)

  /** A `generation_error_logs` row. */
  datatype ErrorLog = ErrorLog(
    owner: UserId, model: string, sourceTextHash: string, sourceTextLength: nat,
    errorCode: string, errorMessage: string)

  /** The tables and their identity sequences. */
  datatype Db = Db(
    generations: map<int, Generation>, cards: map<int, Card>, errorLogs: seq<ErrorLog>,
    nextGeneration: nat, nextCard: nat)

  /** Ids are taken from the sequences, and a card's generation id is
      one the sequence has issued (the foreign key admits no other). */
  predicate Valid(db: Db) {
    (forall g :: g in db.generations ==> 0 <= g < db.nextGeneration) &&
    (forall c :: c in db.cards ==> 0 <= c < db.nextCard) &&
    (forall c :: c in db.cards && db.cards[c].generation.Some? ==> db.cards[c].generation.value < db.nextGeneration)
  }

  predicate OwnsGeneration(db: Db, user: UserId, id: int) {
    id in db.generations && db.generations[id].owner == user
  }

  predicate OwnsCard(db: Db, user: UserId, id: int) {
    id in db.cards && db.cards[id].owner == user
  }

  /** The ids of the cards whose `generation_id` is `g`, whoever owns
      them. */
  function CardsOf(db: Db, g: int): set<int> {
    set c | c in db.cards && db.cards[c].generation == Some(g)
  }

  // ---------------------------------------------------------------------
  // generateFlashcards

  const DefaultModel: string := "google/gemini-2.5-pro"
  const ErrorLogModel: string := "gpt-4o-mini"
  const GenerationErrorCode: string := "GENERATION_ERROR"
  const DatabaseError: string := "Database error"
  const GenerateError: string := "An error occurred while generating flashcards"

  datatype Stats = Stats(generatedCount: nat, generationDuration: string)

  datatype GenerationResult = GenerationResult(
    generationId: int, generationName: string, proposals: seq<NodeGeneration.Proposal>, stats: Stats)

  /** `generateFlashcardsFromText`: the proposals read from the model's
      reply, or the message of what went wrong (the model call's error
      or the parser's). */
  function ProposalsFromReply(reply: Result<string, string>, parse: string -> Option<NodeGeneration.JsValue>,
                              durationMs: int): (r: Result<(seq<NodeGeneration.Proposal>, Stats), string>)
    ensures reply.Err? ==> r == Err(reply.error)
    ensures reply.Ok? ==> (r.Ok? <==> NodeGeneration.ParseProposals(parse, reply.value).Ok?)
    ensures r.Ok? ==> r.value.0 == NodeGeneration.ParseProposals(parse, reply.value).value
    ensures r.Ok? ==> r.value.1 == Stats(|r.value.0|, Durations.NodeDuration(durationMs))
    ensures reply.Ok? && r.Err? ==> r.error == NodeGeneration.ParseProposals(parse, reply.value).error
  {
    match reply
    case Err(message) => Err(message)
    case Ok(content) =>
      match NodeGeneration.ParseProposals(parse, content)
      case Err(message) => Err(message)
      case Ok(ps) => Ok((ps, Stats(|ps|, Durations.NodeDuration(durationMs))))
  }

  /** The `catch` of `generateFlashcards`: one error log with the cause,
      nothing else written. */
  function LogError(db: Db, user: UserId, text: string, hash: string -> string, message: string): (r: Db)
    ensures r.generations == db.generations && r.cards == db.cards
    ensures r.errorLogs == db.errorLogs + [ErrorLog(user, ErrorLogModel, hash(text), |text|, GenerationErrorCode, message)]
  {
    db.(errorLogs := db.errorLogs + [ErrorLog(user, ErrorLogModel, hash(text), |text|, GenerationErrorCode, message)])
  }

  /** `generateFlashcards`: on success a generation row owned by the
      caller, with both accepted counts 0 and the text's length; on any
      failure, no row, one error log carrying the cause, and the single
      message `GenerateError`. A failing title call only gives the
      fallback title. */
  function GenerateFlashcards(
    db: Db, user: UserId, text: string, hash: string -> string,
    reply: Result<string, string>, parse: string -> Option<NodeGeneration.JsValue>, durationMs: int,
    titleReply: Option<string>, createdAt: int, insertFails: bool): (r: (Db, Result<GenerationResult, string>))
    ensures r.1.Ok? <==> ProposalsFromReply(reply, parse, durationMs).Ok? && !insertFails
    ensures r.1.Err? ==> r.1.error == GenerateError
    ensures r.1.Err? ==> r.0 == LogError(db, user, text, hash,
      if ProposalsFromReply(reply, parse, durationMs).Err? then ProposalsFromReply(reply, parse, durationMs).error else DatabaseError)
    ensures r.1.Ok? ==> (
      var id := db.nextGeneration;
      var stats := ProposalsFromReply(reply, parse, durationMs).value.1;
      r.1.value == GenerationResult(id, NodeGeneration.GenerationTitle(titleReply),
                                    ProposalsFromReply(reply, parse, durationMs).value.0, stats) &&
      r.0 == db.(generations := db.generations[id := Generation(user, DefaultModel, hash(text), |text|,
                   stats.generatedCount, stats.generationDuration, 0, 0, NodeGeneration.GenerationTitle(titleReply), createdAt)],
                 nextGeneration := db.nextGeneration + 1))
  {
    match ProposalsFromReply(reply, parse, durationMs)
    case Err(message) => (LogError(db, user, text, hash, message), Err(GenerateError))
    case Ok((proposals, stats)) =>
      var name := NodeGeneration.GenerationTitle(titleReply);
      if insertFails then (LogError(db, user, text, hash, DatabaseError), Err(GenerateError))
      else
        var id := db.nextGeneration;
        var row := Generation(user, DefaultModel, hash(text), |text|, stats.generatedCount,
                              stats.generationDuration, 0, 0, name, createdAt);
        (db.(generations := db.generations[id := row], nextGeneration := id + 1),
         Ok(GenerationResult(id, name, proposals, stats)))
  }

  // ---------------------------------------------------------------------
  // getGeneration, getGenerations

  const GenerationNotFound: string := "Generation not found"

  /** A generation with its cards. */
  datatype GenerationDetail = GenerationDetail(id: int, generation: Generation, cards: set<int>)

  /** `getGeneration`: the caller's generation and every card pointing at
      it; any other id is not found. */
  function GetGeneration(db: Db, id: int, user: UserId): (r: Result<GenerationDetail, string>)
    ensures r.Ok? <==> OwnsGeneration(db, user, id)
    ensures r.Ok? ==> r.value == GenerationDetail(id, db.generations[id], CardsOf(db, id))
    ensures r.Err? ==> r.error == GenerationNotFound
  {
    if OwnsGeneration(db, user, id) then Ok(GenerationDetail(id, db.generations[id], CardsOf(db, id)))
    else Err(GenerationNotFound)
  }

  /** A freshly created generation is read back by its owner, with no
      cards and no accepted cards, and is not found for anyone else. */
  lemma CreatedGenerationReadsBack(
    db: Db, user: UserId, other: UserId, text: string, hash: string -> string,
    reply: Result<string, string>, parse: string -> Option<NodeGeneration.JsValue>, durationMs: int,
    titleReply: Option<string>, createdAt: int)
    requires Valid(db) && other != user
    requires ProposalsFromReply(reply, parse, durationMs).Ok?
    ensures var created := GenerateFlashcards(db, user, text, hash, reply, parse, durationMs, titleReply, createdAt, false);
      var id := db.nextGeneration;
      created.1 .Ok? && created.1.value.generationId == id && Valid(created.0) &&
      GetGeneration(created.0, id, user).Ok? &&
      GetGeneration(created.0, id, user).value.cards == {} &&
      GetGeneration(created.0, id, user).value.generation.acceptedUneditedCount == 0 &&
      GetGeneration(created.0, id, user).value.generation.acceptedEditedCount == 0 &&
      GetGeneration(created.0, id, other) == Err(GenerationNotFound)
  {
    var created := GenerateFlashcards(db, user, text, hash, reply, parse, durationMs, titleReply, createdAt, false);
    var db' := created.0;
    var id := db.nextGeneration;
    assert db'.cards == db.cards;
    assert id in db'.generations && db'.generations[id].owner == user;
    forall c | c in db'.cards ensures db'.cards[c].generation != Some(id) {
      assert db'.cards[c] == db.cards[c];
    }
    assert CardsOf(db', id) == {};
  }

  /** A line of `getGenerations`: the row's summary and its card count. */
  datatype GenerationSummary = GenerationSummary(id: int, createdAt: int, generatedCount: nat, name: string, flashcardCount: nat)

  function OwnedBy(db: Db, user: UserId): nat -> bool {
    (g: nat) => OwnsGeneration(db, user, g)
  }

  function NewestFirstKey(db: Db): nat -> int {
    (g: nat) => if g in db.generations then -db.generations[g].createdAt else 0
  }

  function SummaryOf(db: Db, id: int): GenerationSummary
    requires id in db.generations
  {
    var g := db.generations[id];
    GenerationSummary(id, g.createdAt, g.generatedCount, g.name, |CardsOf(db, id)|)
  }

  /** The caller's generation ids, newest first. */
  function GenerationIdsOf(db: Db, user: UserId): (ids: seq<nat>)
    ensures Distinct(ids)
    ensures forall k :: 0 <= k < |ids| ==> OwnsGeneration(db, user, ids[k])
    ensures Valid(db) ==> forall g: nat :: OwnsGeneration(db, user, g) ==> g in ids
    ensures forall i, j :: 0 <= i < j < |ids| && ids[i] in db.generations && ids[j] in db.generations ==>
      db.generations[ids[i]].createdAt >= db.generations[ids[j]].createdAt
  {
    SortedIds(db.nextGeneration, OwnedBy(db, user), NewestFirstKey(db));
    SortBy<nat>(IdsBelow(db.nextGeneration, OwnedBy(db, user)), NewestFirstKey(db))
  }

  /** `getGenerations`: the caller's generations, newest first, each
      with the number of its cards. */
  function GetGenerations(db: Db, user: UserId): (out: seq<GenerationSummary>)
    ensures |out| == |GenerationIdsOf(db, user)|
    ensures forall k :: 0 <= k < |out| ==> out[k].id == GenerationIdsOf(db, user)[k]
    ensures forall k :: 0 <= k < |out| ==> OwnsGeneration(db, user, out[k].id) && out[k] == SummaryOf(db, out[k].id)
    ensures forall i, j :: 0 <= i < j < |out| ==> out[i].createdAt >= out[j].createdAt && out[i].id != out[j].id
  {
    var ids := GenerationIdsOf(db, user);
    seq(|ids|, k requires 0 <= k < |ids| => SummaryOf(db, ids[k]))
  }

  /** Every generation of the caller is listed, once. */
  lemma GenerationsListed(db: Db, user: UserId, g: nat)
    requires Valid(db) && OwnsGeneration(db, user, g)
    ensures exists k :: 0 <= k < |GetGenerations(db, user)| && GetGenerations(db, user)[k].id == g
  {
    var ids := GenerationIdsOf(db, user);
    var k :| 0 <= k < |ids| && ids[k] == g;
    assert GetGenerations(db, user)[k].id == g;
  }

  // ---------------------------------------------------------------------
  // updateGeneration, deleteGeneration

  /** A card of the update command, as the route's schema admits it. */
  datatype NewCard = NewCard(front: string, back: string, source: string)

  /** How many cards of the list carry `source`. */
  function CountSource(items: seq<NewCard>, source: string): (n: nat)
    ensures n <= |items|
  {
    if |items| == 0 then 0
    else (if items[0].source == source then 1 else 0) + CountSource(items[1..], source)
  }

  /** With only the two AI sources, the counts add up to the list. */
  lemma {:induction false} CountsCoverAiSources(items: seq<NewCard>)
    requires forall k :: 0 <= k < |items| ==> items[k].source in {NodeGeneration.AiFull, NodeGeneration.AiEdited}
    ensures CountSource(items, NodeGeneration.AiFull) + CountSource(items, NodeGeneration.AiEdited) == |items|
  {
    if |items| > 0 {
      CountsCoverAiSources(items[1..]);
    }
  }

  /** The ids `next`, `next + 1`, ..., below `next + count`. */
  function IdRange(next: int, count: nat): (r: set<int>)
    ensures forall c :: c in r <==> next <= c < next + count
    ensures |r| == count
  {
    if count == 0 then {} else
      var earlier := IdRange(next, count - 1);
      assert next + count - 1 !in earlier;
      earlier + {next + count - 1}
  }

  /** The rows `updateGeneration` inserts, keyed from `next` on. */
  function InsertedRows(next: nat, items: seq<NewCard>, user: UserId, g: int): (m: map<int, Card>)
    ensures forall c :: c in m <==> next <= c < next + |items|
    ensures |m| == |items|
    ensures forall c :: c in m ==> m[c] == Card(items[c - next].front, items[c - next].back, items[c - next].source,
                                                user, Some(g), Some(c - next + 1))
  {
    var m := map c | c in IdRange(next, |items|) ::
      Card(items[c - next].front, items[c - next].back, items[c - next].source, user, Some(g), Some(c - next + 1));
    assert m.Keys == IdRange(next, |items|);
    m
  }

  /** `updateGeneration`: after the owner check, the cards are inserted
      next to the ones already there, numbered 1.. in list order, and the
      generation's accepted counts become the counts of the list. */
  function UpdateGeneration(db: Db, id: int, user: UserId, items: seq<NewCard>): (r: (Db, Result<map<int, Card>, string>))
    ensures !OwnsGeneration(db, user, id) ==> r == (db, Err(GenerationNotFound))
    ensures OwnsGeneration(db, user, id) ==> r.1.Ok?
    ensures OwnsGeneration(db, user, id) ==> (
      var inserted := InsertedRows(db.nextCard, items, user, id);
      r.1.value == inserted &&
      r.0.cards == db.cards + inserted && r.0.nextCard == db.nextCard + |items| &&
      r.0.generations == db.generations[id := db.generations[id].(
        acceptedUneditedCount := CountSource(items, NodeGeneration.AiFull), acceptedEditedCount := CountSource(items, NodeGeneration.AiEdited))] &&
      r.0.errorLogs == db.errorLogs && r.0.nextGeneration == db.nextGeneration)
  {
    match GetGeneration(db, id, user)
    case Err(message) => (db, Err(message))
    case Ok(detail) =>
      var inserted := InsertedRows(db.nextCard, items, user, id);
      var counted := db.generations[id].(acceptedUneditedCount := CountSource(items, NodeGeneration.AiFull),
                                          acceptedEditedCount := CountSource(items, NodeGeneration.AiEdited));
      (db.(cards := db.cards + inserted, nextCard := db.nextCard + |items|,
           generations := db.generations[id := counted]), Ok(inserted))
  }

  /** Updating appends: the generation keeps every card it had and gains
      exactly the inserted ones, so saving the same list twice doubles
      it. */
  lemma UpdateAppends(db: Db, id: int, user: UserId, items: seq<NewCard>)
    requires Valid(db) && OwnsGeneration(db, user, id)
    ensures var db' := UpdateGeneration(db, id, user, items).0;
      Valid(db') &&
      CardsOf(db', id) == CardsOf(db, id) + InsertedRows(db.nextCard, items, user, id).Keys &&
      |CardsOf(db', id)| == |CardsOf(db, id)| + |items|
  {
    var db' := UpdateGeneration(db, id, user, items).0;
    var added := InsertedRows(db.nextCard, items, user, id).Keys;
    assert CardsOf(db', id) == CardsOf(db, id) + added;
    assert CardsOf(db, id) !! added;
  }

  /** `deleteGeneration`: after the owner check, the caller's cards of
      the generation and then the generation are deleted; cards of it
      owned by someone else stay. */
  function DeleteGeneration(db: Db, id: int, user: UserId): (r: (Db, Result<(), string>))
    ensures !OwnsGeneration(db, user, id) ==> r == (db, Err(GenerationNotFound))
    ensures OwnsGeneration(db, user, id) ==> r.1.Ok? && id !in r.0.generations
    ensures OwnsGeneration(db, user, id) ==> r.0.generations == db.generations - {id}
    ensures OwnsGeneration(db, user, id) ==> forall c :: (c in r.0.cards <==>
      c in db.cards && !(db.cards[c].generation == Some(id) && db.cards[c].owner == user))
    ensures forall c :: c in r.0.cards ==> c in db.cards && r.0.cards[c] == db.cards[c]
  {
    match GetGeneration(db, id, user)
    case Err(message) => (db, Err(message))
    case Ok(_) =>
      var kept := map c | c in db.cards && !(db.cards[c].generation == Some(id) && db.cards[c].owner == user) :: db.cards[c];
      (db.(cards := kept, generations := db.generations - {id}), Ok(()))
  }

  /** A deleted generation is not found afterwards, and any other
      generation answers as before. */
  lemma DeletedGenerationIsGone(db: Db, id: int, user: UserId, other: int)
    requires OwnsGeneration(db, user, id) && other != id
    ensures GetGeneration(DeleteGeneration(db, id, user).0, id, user) == Err(GenerationNotFound)
    ensures GetGeneration(DeleteGeneration(db, id, user).0, other, user).Ok? <==> GetGeneration(db, other, user).Ok?
  {
  }

  // ---------------------------------------------------------------------
  // FlashcardService

  /** Which `FlashcardService`: the one of `backend/` or the one of
      `backend_express/`. */
  datatype Variant = Backend | Express

  const FlashcardNotFound: string := "Flashcard not found"
  const NotFoundOrDenied: string := "Flashcard not found or access denied"
  const UnauthorizedError: string := "Unauthorized"
  const CreateErrorPrefix: string := "Error creating flashcard: "

  /** `getFlashcard`: only the caller's card. */
  function GetFlashcard(db: Db, id: int, user: UserId): (r: Result<Card, string>)
    ensures r.Ok? <==> OwnsCard(db, user, id)
    ensures r.Ok? ==> r.value == db.cards[id]
    ensures r.Err? ==> r.error == FlashcardNotFound
  {
    if OwnsCard(db, user, id) then Ok(db.cards[id]) else Err(FlashcardNotFound)
  }

  /** `getFlashcards`: the ids of the caller's cards. */
  function GetFlashcards(db: Db, user: UserId): (ids: set<int>)
    ensures forall c :: c in ids ==> OwnsCard(db, user, c)
    ensures forall c :: OwnsCard(db, user, c) ==> c in ids
  {
    set c | c in db.cards && db.cards[c].owner == user
  }

  datatype CreateCommand = CreateCommand(
    front: string, back: string, source: string, generationId: Option<int>, displayOrder: Option<int>)

  /** `createFlashcard`: the caller's card with the command's texts and
      source; a missing generation id is stored as null and the display
      order only by the `backend_express` variant. The generation id is
      not checked against the caller. A database error gives its
      message behind a prefix. */
  function CreateFlashcard(db: Db, user: UserId, cmd: CreateCommand, variant: Variant, dbError: Option<string>): (r: (Db, Result<(int, Card), string>))
    ensures dbError.Some? ==> r == (db, Err(CreateErrorPrefix + dbError.value))
    ensures dbError.None? ==> r.1.Ok? && r.1.value.0 == db.nextCard && r.0.cards == db.cards[db.nextCard := r.1.value.1]
    ensures dbError.None? ==> r.1.value.1 == Card(cmd.front, cmd.back, cmd.source, user, cmd.generationId,
                                                    if variant == Express then cmd.displayOrder else None)
  {
    if dbError.Some? then (db, Err(CreateErrorPrefix + dbError.value))
    else
      var card := Card(cmd.front, cmd.back, cmd.source, user, cmd.generationId,
                       if variant == Express then cmd.displayOrder else None);
      (db.(cards := db.cards[db.nextCard := card], nextCard := db.nextCard + 1), Ok((db.nextCard, card)))
  }

  /** A created card is listed for its creator and for no one else. */
  lemma CreatedCardIsTheCallers(db: Db, user: UserId, other: UserId, cmd: CreateCommand, variant: Variant)
    requires Valid(db) && other != user
    ensures var (db', r) := CreateFlashcard(db, user, cmd, variant, None);
      r.value.0 in GetFlashcards(db', user) && r.value.0 !in GetFlashcards(db', other) &&
      GetFlashcards(db', other) == GetFlashcards(db, other) &&
      GetFlashcard(db', r.value.0, user) == Ok(r.value.1)
  {
  }

  /** The fields of `UpdateFlashcardCommand`; `None` is a missing or empty
      value. */
  datatype UpdateCommand = UpdateCommand(front: Option<string>, back: Option<string>, source: Option<string>)

  /** A value JavaScript treats as true. */
  predicate Given(v: Option<string>) {
    v.Some? && v.value != ""
  }

  function Apply(c: Card, cmd: UpdateCommand, variant: Variant): (r: Card)
    ensures r.front == (if Given(cmd.front) then cmd.front.value else c.front)
    ensures r.back == (if Given(cmd.back) then cmd.back.value else c.back)
    ensures r.source == (if variant == Express && Given(cmd.source) then cmd.source.value else c.source)
    ensures r.owner == c.owner && r.generation == c.generation && r.displayOrder == c.displayOrder
  {
    c.(front := if Given(cmd.front) then cmd.front.value else c.front,
       back := if Given(cmd.back) then cmd.back.value else c.back,
       source := if variant == Express && Given(cmd.source) then cmd.source.value else c.source)
  }

  /** `updateFlashcard`: someone else's or a missing card is refused
      without a write; otherwise only the given texts are written, and
      the source only by the `backend_express` variant. */
  function UpdateFlashcard(db: Db, id: int, user: UserId, cmd: UpdateCommand, variant: Variant): (r: (Db, Result<Card, string>))
    ensures !OwnsCard(db, user, id) ==> r == (db, Err(NotFoundOrDenied))
    ensures OwnsCard(db, user, id) ==> r.1 == Ok(Apply(db.cards[id], cmd, variant)) && r.0 == db.(cards := db.cards[id := r.1.value])
  {
    if !OwnsCard(db, user, id) then (db, Err(NotFoundOrDenied))
    else
      var updated := Apply(db.cards[id], cmd, variant);
      (db.(cards := db.cards[id := updated]), Ok(updated))
  }

  /** The backend variant never changes a card's source; the Express one
      changes it exactly when a source is given. */
  lemma UpdateSourceByVariant(db: Db, id: int, user: UserId, cmd: UpdateCommand)
    requires OwnsCard(db, user, id)
    ensures UpdateFlashcard(db, id, user, cmd, Backend).1.value.source == db.cards[id].source
    ensures Given(cmd.source) ==> UpdateFlashcard(db, id, user, cmd, Express).1.value.source == cmd.source.value
    ensures !Given(cmd.source) ==> UpdateFlashcard(db, id, user, cmd, Express).1.value.source == db.cards[id].source
  {
  }

  /** `deleteFlashcard`: the caller's card and nothing else is deleted. */
  function DeleteFlashcard(db: Db, id: int, user: UserId): (r: (Db, Result<(), string>))
    ensures !OwnsCard(db, user, id) ==> r == (db, Err(NotFoundOrDenied))
    ensures OwnsCard(db, user, id) ==> r.1.Ok? && r.0 == db.(cards := db.cards - {id})
  {
    if !OwnsCard(db, user, id) then (db, Err(NotFoundOrDenied)) else (db.(cards := db.cards - {id}), Ok(()))
  }

  /** `patchFlashcard`: the card is found by id alone, and the caller
      must own the card's generation; the card's own owner is not looked
      at. */
  function PatchFlashcard(db: Db, id: int, front: string, back: string, user: UserId): (r: (Db, Result<(), string>))
    ensures id !in db.cards ==> r == (db, Err(FlashcardNotFound))
    ensures id in db.cards ==> (r.1.Ok? <==>
      db.cards[id].generation.Some? && OwnsGeneration(db, user, db.cards[id].generation.value))
    ensures id in db.cards && r.1.Err? ==> r == (db, Err(UnauthorizedError))
    ensures r.1.Ok? ==> r.0 == db.(cards := db.cards[id := db.cards[id].(front := front, back := back)])
  {
    if id !in db.cards then (db, Err(FlashcardNotFound))
    else
      var g := db.cards[id].generation;
      if g.None? || !OwnsGeneration(db, user, g.value) then (db, Err(UnauthorizedError))
      else (db.(cards := db.cards[id := db.cards[id].(front := front, back := back)]), Ok(()))
  }

  /** A card in someone else's generation cannot be patched by the
      card's owner, while the generation's owner can patch a card that
      is not theirs. */
  lemma PatchTrustsTheGeneration(db: Db, id: int, front: string, back: string, cardOwner: UserId, generationOwner: UserId)
    requires id in db.cards && db.cards[id].owner == cardOwner && cardOwner != generationOwner
    requires db.cards[id].generation.Some? && OwnsGeneration(db, generationOwner, db.cards[id].generation.value)
    ensures PatchFlashcard(db, id, front, back, cardOwner).1 == Err(UnauthorizedError)
    ensures PatchFlashcard(db, id, front, back, generationOwner).1.Ok?
  {
  }

  /** `createBulkFlashcards`: every card inserted as given, stamped with
      the caller as owner, in list order. */
  function CreateBulk(db: Db, cards: seq<CreateCommand>, user: UserId): (r: Db)
    ensures r.nextCard == db.nextCard + |cards|
    ensures forall c :: c in r.cards <==> c in db.cards || db.nextCard <= c < db.nextCard + |cards|
    ensures forall c :: db.nextCard <= c < db.nextCard + |cards| && c !in db.cards ==>
      r.cards[c] == Card(cards[c - db.nextCard].front, cards[c - db.nextCard].back, cards[c - db.nextCard].source,
                         user, cards[c - db.nextCard].generationId, cards[c - db.nextCard].displayOrder)
    decreases |cards|
  {
    if |cards| == 0 then db
    else
      var last := |cards| - 1;
      var before := CreateBulk(db, cards[..last], user);
      var c := cards[last];
      before.(cards := before.cards[before.nextCard := Card(c.front, c.back, c.source, user, c.generationId, c.displayOrder)],
              nextCard := before.nextCard + 1)
  }

  /** Every card of a bulk insert belongs to the caller, whatever it said. */
  lemma BulkCardsAreTheCallers(db: Db, cards: seq<CreateCommand>, user: UserId)
    requires Valid(db)
    ensures forall c :: c in CreateBulk(db, cards, user).cards && c !in db.cards ==> OwnsCard(CreateBulk(db, cards, user), user, c)
  {
  }
}

=== FILE: ordering.dfy ===
/** Ordered listings. The repositories return rows ordered by one integer
    column (`ORDER BY display_order`, `ORDER BY created_at DESC`); the
    model lists the ids of the matching rows in ascending order and then
    sorts them by the column with a stable insertion sort. */
module Ordering {

  /** `xs` is in non-decreasing order of `key`. */
  predicate SortedBy<T>(xs: seq<T>, key: T -> int) {
    forall i, j :: 0 <= i < j < |xs| ==> key(xs[i]) <= key(xs[j])
  }

  /** `x` inserted into a sorted list before the first element with a
      larger key. */
  function InsertBy<T>(x: T, xs: seq<T>, key: T -> int): (r: seq<T>)
    requires SortedBy(xs, key)
    ensures SortedBy(r, key)
    ensures multiset(r) == multiset(xs) + multiset{x}
    ensures |r| == |xs| + 1
    ensures r[0] == x || (|xs| > 0 && r[0] == xs[0])
  {
    if |xs| == 0 then [x]
    else if key(x) < key(xs[0]) then [x] + xs
    else
      var rest := InsertBy(x, xs[1..], key);
      assert xs == [xs[0]] + xs[1..];
      assert key(xs[0]) <= key(rest[0]);
      [xs[0]] + rest
  }

  /** The elements of `xs` ordered by `key`. */
  function SortBy<T>(xs: seq<T>, key: T -> int): (r: seq<T>)
    ensures SortedBy(r, key)
    ensures multiset(r) == multiset(xs)
    ensures |r| == |xs|
  {
    if |xs| == 0 then []
    else
      assert xs == xs[..|xs| - 1] + [xs[|xs| - 1]];
      InsertBy(xs[|xs| - 1], SortBy(xs[..|xs| - 1], key), key)
  }

  /** The numbers below `n` that satisfy `keep`, in ascending order. */
  function IdsBelow(n: nat, keep: nat -> bool): seq<nat> {
    if n == 0 then []
    else if keep(n - 1) then IdsBelow(n - 1, keep) + [n - 1]
    else IdsBelow(n - 1, keep)
  }

  /** `IdsBelow` lists exactly the numbers below `n` that satisfy `keep`,
      each once, in ascending order. */
  lemma {:induction false} IdsBelowLists(n: nat, keep: nat -> bool)
    ensures forall i :: 0 <= i < |IdsBelow(n, keep)| ==> IdsBelow(n, keep)[i] < n
    ensures forall i :: 0 <= i < |IdsBelow(n, keep)| ==> keep(IdsBelow(n, keep)[i])
    ensures forall i, j :: 0 <= i < j < |IdsBelow(n, keep)| ==> IdsBelow(n, keep)[i] < IdsBelow(n, keep)[j]
    ensures forall id: nat :: id < n && keep(id) ==> id in IdsBelow(n, keep)
  {
    if n > 0 {
      IdsBelowLists(n - 1, keep);
    }
  }

  /** The listing sorted by `key` still holds exactly the kept numbers,
      each once. */
  lemma SortedIds(n: nat, keep: nat -> bool, key: nat -> int)
    ensures var ids := SortBy<nat>(IdsBelow(n, keep), key);
      Distinct(ids) && SortedBy(ids, key) &&
      (forall k :: 0 <= k < |ids| ==> ids[k] < n && keep(ids[k])) &&
      (forall id: nat :: id < n && keep(id) ==> id in ids)
  {
    var listed := IdsBelow(n, keep);
    var ids := SortBy<nat>(listed, key);
    IdsBelowLists(n, keep);
    assert Distinct(listed);
    SortedListing(listed, key);
    forall k | 0 <= k < |ids| ensures ids[k] < n && keep(ids[k]) {
      assert ids[k] in listed;
      var i :| 0 <= i < |listed| && listed[i] == ids[k];
    }
  }

  /** A list whose elements are all different. */
  predicate Distinct<T(==)>(xs: seq<T>) {
    forall i, j :: 0 <= i < j < |xs| ==> xs[i] != xs[j]
  }

  /** Sorting keeps the elements and hence their distinctness. */
  lemma SortedListing(ids: seq<nat>, key: nat -> int)
    requires Distinct(ids)
    ensures Distinct(SortBy(ids, key))
    ensures forall id :: id in SortBy(ids, key) <==> id in ids
  {
    var r := SortBy(ids, key);
    forall id ensures id in r <==> id in ids {
      assert id in r <==> id in multiset(r);
      assert id in ids <==> id in multiset(ids);
    }
    forall i, j | 0 <= i < j < |r| ensures r[i] != r[j] {
      if r[i] == r[j] {
        DistinctCountsOnce(ids, r[i]);
        assert multiset(r)[r[i]] >= 2 by {
          CountsTwo(r, i, j);
        }
        assert false;
      }
    }
  }

  /** An element of a list without repeats occurs in it once. */
  lemma {:induction false} DistinctCountsOnce<T>(xs: seq<T>, x: T)
    requires Distinct(xs)
    ensures multiset(xs)[x] <= 1
  {
    if |xs| > 0 {
      var last := xs[|xs| - 1];
      var init := xs[..|xs| - 1];
      assert xs == init + [last];
      assert Distinct(init);
      DistinctCountsOnce(init, x);
      if x == last {
        assert x !in init;
        assert multiset(init)[x] == 0;
      }
    }
  }

  /** Two positions holding the same element count it twice. */
  lemma CountsTwo<T>(xs: seq<T>, i: nat, j: nat)
    requires i < j < |xs| && xs[i] == xs[j]
    ensures multiset(xs)[xs[i]] >= 2
  {
    var x := xs[i];
    assert xs == xs[..i] + [x] + xs[i + 1..j] + [x] + xs[j + 1..];
  }

  /** When `keep` holds exactly from `lo` on, the listing is `lo, lo+1, …, n-1`. */
  lemma {:induction false} IdsBelowRange(n: nat, lo: nat, keep: nat -> bool)
    requires lo <= n
    requires forall i: nat :: i < n ==> (keep(i) <==> lo <= i)
    ensures |IdsBelow(n, keep)| == n - lo
    ensures forall k :: 0 <= k < n - lo ==> IdsBelow(n, keep)[k] == lo + k
  {
    if n > lo {
      IdsBelowRange(n - 1, lo, keep);
      assert keep(n - 1);
      assert IdsBelow(n, keep) == IdsBelow(n - 1, keep) + [n - 1];
    } else if n > 0 {
      IdsBelowRange(n - 1, n - 1, keep);
      assert !keep(n - 1);
    }
  }

  /** An element whose key is at least every key of a sorted list goes to
      its end. */
  lemma {:induction false} InsertAtEnd<T>(x: T, xs: seq<T>, key: T -> int)
    requires SortedBy(xs, key)
    requires forall k :: 0 <= k < |xs| ==> key(xs[k]) <= key(x)
    ensures InsertBy(x, xs, key) == xs + [x]
  {
    if |xs| > 0 {
      InsertAtEnd(x, xs[1..], key);
      assert xs == [xs[0]] + xs[1..];
    }
  }

  /** Sorting a sorted list leaves it as it is. */
  lemma {:induction false} SortBySorted<T>(xs: seq<T>, key: T -> int)
    requires SortedBy(xs, key)
    ensures SortBy(xs, key) == xs
  {
    if |xs| > 0 {
      var init := xs[..|xs| - 1];
      SortBySorted(init, key);
      InsertAtEnd(xs[|xs| - 1], init, key);
      assert init + [xs[|xs| - 1]] == xs;
    }
  }
}

=== FILE: rate_limiter.dfy ===
/** The `TokenBucketRateLimiter` of the backend's chat client. The bucket
    starts full; every elapsed whole refill interval adds `refillRate`
    tokens up to `maxTokens`; a call takes one token, or, when the bucket
    is empty, waits and tries again. The clock is a parameter, and the
    wait-and-retry loop is left to the caller: `Acquire` reports how long
    to wait, and the caller calls again at the later time. */
module RateLimiter {

  datatype Bucket = Bucket(tokens: int, lastRefill: int, maxTokens: int, refillRate: int, refillInterval: int)

  const DefaultMaxTokens: int := 100
  const DefaultRefillRate: int := 10
  const DefaultRefillIntervalMs: int := 1000

  /** A limiter configured with positive numbers (the source divides by
      the interval and by the rate). */
  predicate Configured(b: Bucket) {
    b.maxTokens >= 0 && b.refillRate >= 1 && b.refillInterval >= 1
  }

  /** The bucket's invariant. */
  predicate Valid(b: Bucket) {
    Configured(b) && 0 <= b.tokens <= b.maxTokens
  }

  /** The constructor: a full bucket, last refilled at construction. */
  function NewBucket(maxTokens: int, refillRate: int, refillInterval: int, now: int): (b: Bucket)
    ensures b.tokens == maxTokens && b.lastRefill == now
    ensures Configured(b) ==> Valid(b)
  {
    Bucket(maxTokens, now, maxTokens, refillRate, refillInterval)
  }

  /** JavaScript's `Math.floor(a / b)` for a positive divisor (Dafny's
      division rounds down for a positive divisor too). */
  function FloorDiv(a: int, d: int): (q: int)
    requires d >= 1
    ensures q * d <= a < q * d + d
  {
    a / d
  }

  /** `refillTokens`: whole intervals since the last refill, times the
      rate, capped at the maximum; the clock mark moves only when
      something was added, so a partial interval is carried over. */
  function Refill(b: Bucket, now: int): (r: Bucket)
    requires Configured(b)
    ensures r.maxTokens == b.maxTokens && r.refillRate == b.refillRate && r.refillInterval == b.refillInterval
    ensures var added := FloorDiv(now - b.lastRefill, b.refillInterval) * b.refillRate;
      if added > 0 then
        r.lastRefill == now && r.tokens == (if b.tokens + added < b.maxTokens then b.tokens + added else b.maxTokens)
      else r == b
  {
    var tokensToAdd := FloorDiv(now - b.lastRefill, b.refillInterval) * b.refillRate;
    if tokensToAdd > 0 then
      b.(tokens := if b.maxTokens < b.tokens + tokensToAdd then b.maxTokens else b.tokens + tokensToAdd, lastRefill := now)
    else b
  }

  /** A refill never loses tokens from a valid bucket and keeps it valid;
      a full interval since the last refill adds at least one token, or
      fills the bucket. */
  lemma RefillBounds(b: Bucket, now: int)
    requires Valid(b)
    ensures Valid(Refill(b, now))
    ensures Refill(b, now).tokens >= b.tokens
    ensures now - b.lastRefill >= b.refillInterval ==>
      Refill(b, now).tokens >= b.tokens + 1 || Refill(b, now).tokens == b.maxTokens
  {
    if now - b.lastRefill >= b.refillInterval {
      assert FloorDiv(now - b.lastRefill, b.refillInterval) >= 1;
    }
  }

  /** `calculateWaitTime`: `ceil(1 / refillRate)` intervals. */
  function WaitTime(b: Bucket): (ms: int)
    requires Configured(b)
    ensures ms == b.refillInterval
  {
    var refillsNeeded := (1 + b.refillRate - 1) / b.refillRate;
    refillsNeeded * b.refillInterval
  }

  /** One pass of `acquireToken`: the refilled bucket less one token, or,
      when it is empty, the refilled bucket and how long to wait. */
  datatype Acquired = Granted(bucket: Bucket) | MustWait(bucket: Bucket, waitMs: int)

  function Acquire(b: Bucket, now: int): (r: Acquired)
    requires Configured(b)
    ensures var refilled := Refill(b, now);
      if refilled.tokens <= 0 then r == MustWait(refilled, b.refillInterval)
      else r == Granted(refilled.(tokens := refilled.tokens - 1))
  {
    var refilled := Refill(b, now);
    if refilled.tokens <= 0 then MustWait(refilled, WaitTime(refilled))
    else Granted(refilled.(tokens := refilled.tokens - 1))
  }

  /** Acquiring keeps the bucket valid: a token is taken only when there
      is one, so the count stays within `[0, maxTokens]`. */
  lemma AcquireKeepsValid(b: Bucket, now: int)
    requires Valid(b)
    ensures Valid(Acquire(b, now).bucket)
  {
    RefillBounds(b, now);
  }

  /** Waiting the advised time is enough: the retry gets a token, as
      long as the bucket can hold one and the clock does not run
      backwards. */
  lemma WaitSuffices(b: Bucket, now: int, later: int)
    requires Valid(b) && b.maxTokens >= 1 && b.lastRefill <= now
    requires Acquire(b, now).MustWait?
    requires later >= now + Acquire(b, now).waitMs
    ensures Acquire(Acquire(b, now).bucket, later).Granted?
  {
    var waiting := Acquire(b, now).bucket;
    RefillBounds(b, now);
    assert waiting.lastRefill <= now;
    RefillBounds(waiting, later);
  }
}

=== FILE: response_cache.dfy ===
/** The `ResponseCache` of the backend's chat client: responses keyed by
    the serialised messages and options, each stamped with the time it
    was stored, served while no older than the time-to-live. The clock is
    a parameter, and so is `JSON.stringify`: the key is built from the two
    serialisations the caller passes in. */
module ResponseCache {
  import opened Wrappers

  datatype Entry<R> = Entry(response: R, timestamp: int)

  /** The entries and the time-to-live in milliseconds. */
  datatype Cache<R> = Cache(entries: map<string, Entry<R>>, ttl: int)

  const DefaultTtlSeconds: int := 3600

  /** The constructor: an empty map; the ttl is given in seconds and kept
      in milliseconds. */
  function NewCache<R>(ttlSeconds: int): (c: Cache<R>)
    ensures c.entries == map[] && c.ttl == ttlSeconds * 1000
  {
    Cache(map[], ttlSeconds * 1000)
  }

  /** `generateCacheKey`: the two serialisations joined by a bar. */
  function Key(messagesJson: string, optionsJson: string): (k: string)
    ensures |k| == |messagesJson| + 1 + |optionsJson|
    ensures k[..|messagesJson|] == messagesJson && k[|messagesJson|] == '|'
    ensures k[|messagesJson| + 1..] == optionsJson
  {
    messagesJson + "|" + optionsJson
  }

  /** When the serialised messages hold no bar, the key determines both
      serialisations, so different requests never share an entry. */
  lemma KeyDeterminesRequest(m1: string, o1: string, m2: string, o2: string)
    requires '|' !in m1 && '|' !in m2
    requires Key(m1, o1) == Key(m2, o2)
    ensures m1 == m2 && o1 == o2
  {
    FirstBar(m1, o1);
    FirstBar(m2, o2);
  }

  /** The first bar of a key ends the serialised messages. */
  lemma FirstBar(m: string, o: string)
    requires '|' !in m
    ensures forall i :: 0 <= i < |m| ==> Key(m, o)[i] != '|'
    ensures Key(m, o)[|m|] == '|'
  {
    forall i | 0 <= i < |m| ensures Key(m, o)[i] != '|' {
      assert Key(m, o)[i] == m[i];
    }
  }

  /** `get`: a miss gives null; an entry strictly older than the ttl is
      removed and gives null; any other entry is served as stored. */
  function Get<R>(c: Cache<R>, key: string, now: int): (r: (Cache<R>, Option<R>))
    ensures key !in c.entries ==> r == (c, None)
    ensures key in c.entries && now - c.entries[key].timestamp > c.ttl ==>
      r.1 == None && r.0.ttl == c.ttl && r.0.entries == c.entries - {key}
    ensures key in c.entries && now - c.entries[key].timestamp <= c.ttl ==>
      r == (c, Some(c.entries[key].response))
  {
    if key !in c.entries then (c, None)
    else if now - c.entries[key].timestamp > c.ttl then (c.(entries := c.entries - {key}), None)
    else (c, Some(c.entries[key].response))
  }

  /** `set`: the entry for the key is replaced and stamped with `now`. */
  function Set<R>(c: Cache<R>, key: string, response: R, now: int): (r: Cache<R>)
    ensures r.ttl == c.ttl && key in r.entries && r.entries[key] == Entry(response, now)
    ensures forall k :: k != key ==> (k in r.entries <==> k in c.entries)
    ensures forall k :: k != key && k in c.entries ==> r.entries[k] == c.entries[k]
  {
    c.(entries := c.entries[key := Entry(response, now)])
  }

  /** `clear`. */
  function Clear<R>(c: Cache<R>): (r: Cache<R>)
    ensures r.entries == map[] && r.ttl == c.ttl
  {
    c.(entries := map[])
  }

  /** A stored response is served back, unchanged, to a `get` for the same
      key until the ttl has passed, and afterwards the entry is gone. */
  lemma SetThenGet<R>(c: Cache<R>, key: string, response: R, storedAt: int, now: int)
    ensures now - storedAt <= c.ttl ==>
      Get(Set(c, key, response, storedAt), key, now) == (Set(c, key, response, storedAt), Some(response))
    ensures now - storedAt > c.ttl ==>
      Get(Set(c, key, response, storedAt), key, now).1 == None &&
      key !in Get(Set(c, key, response, storedAt), key, now).0.entries
  {
  }

  /** Storing or expiring one key leaves every other key's answer as it was. */
  lemma OtherKeysUnaffected<R>(c: Cache<R>, key: string, other: string, response: R, storedAt: int, now: int)
    requires other != key
    ensures Get(Set(c, key, response, storedAt), other, now).1 == Get(c, other, now).1
    ensures Get(Get(c, key, now).0, other, now).1 == Get(c, other, now).1
  {
  }

  /** Nothing is served after `clear`. */
  lemma ClearedCacheMisses<R>(c: Cache<R>, key: string, now: int)
    ensures Get(Clear(c), key, now).1 == None
  {
  }
}

=== FILE: review_hook.dfy ===
/** The review screen of the Astro client: the `useFlashcardGeneration`
    hook, the action buttons of a proposal, and the inline edit form of
    `FlashcardProposalItem`. The hook keeps a status per proposal index
    and a list of edited texts keyed by index; saving sends accepted or
    edited proposals to the bulk endpoint. Network replies are
    parameters. */
module ReviewHook {
  import opened Wrappers
  import opened Ordering
  import NodeGeneration

  type Proposal = NodeGeneration.Proposal

  datatype Status = Pending | Accepted | Edited | Rejected

  /** An edited text for the proposal at `index`. */
  datatype EditEntry = EditEntry(index: nat, front: string, back: string)

  datatype Stats = Stats(generatedCount: int, generationDuration: string)

  /** The hook's state. */
  datatype Hook = Hook(
    text: string,
    isTextValid: bool,
    textError: Option<string>,
    generationError: Option<string>,
    proposals: seq<Proposal>,
    statuses: map<nat, Status>,
    edits: seq<EditEntry>,
    stats: Option<Stats>,
    generationId: Option<int>,
    generationName: Option<string>)

  const InitialHook: Hook := Hook("", false, None, None, [], map[], [], None, None, None)

  // ---------------------------------------------------------------------
  // Text

  /** `validateText`: the verdict and the error message it sets. */
  function ValidateText(text: string): (r: (bool, Option<string>))
    ensures r.0 <==> NodeGeneration.MinTextLength <= |text| <= NodeGeneration.MaxTextLength
    ensures r.0 <==> r.1.None?
    ensures |text| < NodeGeneration.MinTextLength ==> r.1 == Some(NodeGeneration.TooShortMessage)
    ensures |text| > NodeGeneration.MaxTextLength ==> r.1 == Some(NodeGeneration.TooLongMessage)
  {
    if |text| < NodeGeneration.MinTextLength then (false, Some(NodeGeneration.TooShortMessage))
    else if |text| > NodeGeneration.MaxTextLength then (false, Some(NodeGeneration.TooLongMessage))
    else (true, None)
  }

  /** `handleTextChange`. */
  function SetText(h: Hook, text: string): (r: Hook)
    ensures r.text == text && (r.isTextValid, r.textError) == ValidateText(text)
    ensures r.proposals == h.proposals && r.statuses == h.statuses && r.edits == h.edits
  {
    var verdict := ValidateText(text);
    h.(text := text, isTextValid := verdict.0, textError := verdict.1)
  }

  // ---------------------------------------------------------------------
  // Generation

  /** What `POST /api/generations` gives: the result, an error reply with
      its `error` field, or an exception with its message. */
  datatype GenerateReply =
    | Generated(proposals: seq<Proposal>, stats: Stats, generationId: int, generationName: string)
    | GenerateRejected(errorField: Option<string>)
    | GenerateThrew(message: string)

  const GenerateFallbackError: string := "An error occurred while generating flashcards"

  /** Every index of a list of `n` proposals, pending. */
  function AllPending(n: nat): (m: map<nat, Status>)
    ensures forall i: nat :: i in m <==> i < n
    ensures forall i :: i in m ==> m[i] == Pending
  {
    if n == 0 then map[] else AllPending(n - 1)[n - 1 := Pending]
  }

  /** `handleGenerate`: nothing happens for invalid text; otherwise the
      text is sent and a result replaces the proposals, marks every one
      pending and drops all edits, while a failure only sets the error.
      The second component is the text sent, if any. */
  function HandleGenerate(h: Hook, reply: GenerateReply): (r: (Hook, Option<string>))
    ensures !h.isTextValid ==> r == (h, None)
    ensures h.isTextValid ==> r.1 == Some(h.text)
    ensures h.isTextValid && reply.Generated? ==>
      r.0 == h.(generationError := None, proposals := reply.proposals, statuses := AllPending(|reply.proposals|),
                edits := [], stats := Some(reply.stats), generationId := Some(reply.generationId),
                generationName := Some(reply.generationName))
    ensures h.isTextValid && !reply.Generated? ==>
      r.0 == h.(generationError := Some(
        if reply.GenerateThrew? then reply.message
        else if reply.errorField.Some? && reply.errorField.value != "" then reply.errorField.value
        else GenerateFallbackError))
  {
    if !h.isTextValid then (h, None)
    else
      var next := match reply
        case Generated(proposals, stats, id, name) =>
          h.(generationError := None, proposals := proposals, statuses := AllPending(|proposals|),
             edits := [], stats := Some(stats), generationId := Some(id), generationName := Some(name))
        case GenerateRejected(errorField) =>
          h.(generationError := Some(if errorField.Some? && errorField.value != "" then errorField.value
                                     else GenerateFallbackError))
        case GenerateThrew(message) => h.(generationError := Some(message));
      (next, Some(h.text))
  }

  // ---------------------------------------------------------------------
  // Edits

  /** `findIndex` of the entry for `index`. */
  function FindEdit(edits: seq<EditEntry>, index: nat): (r: Option<nat>)
    ensures r.Some? ==> r.value < |edits| && edits[r.value].index == index
    ensures r.Some? ==> forall p :: 0 <= p < r.value ==> edits[p].index != index
    ensures r.None? ==> forall p :: 0 <= p < |edits| ==> edits[p].index != index
  {
    if |edits| == 0 then None
    else if edits[0].index == index then Some(0)
    else match FindEdit(edits[1..], index)
      case None => None
      case Some(p) => Some(p + 1)
  }

  /** At most one entry per index. */
  predicate OneEntryPerIndex(edits: seq<EditEntry>) {
    forall p, q :: 0 <= p < q < |edits| ==> edits[p].index != edits[q].index
  }

  /** The edit list after `handleEdit`: the entry for the index replaced
      in place, or appended. */
  function Upsert(edits: seq<EditEntry>, e: EditEntry): (r: seq<EditEntry>)
    ensures FindEdit(edits, e.index).Some? ==> r == edits[FindEdit(edits, e.index).value := e]
    ensures FindEdit(edits, e.index).None? ==> r == edits + [e]
    ensures OneEntryPerIndex(edits) ==> OneEntryPerIndex(r)
  {
    match FindEdit(edits, e.index)
    case Some(p) => edits[p := e]
    case None => edits + [e]
  }

  /** The edit list after `handleReset`: every entry for the index
      filtered out, the others kept in order. */
  function Without(edits: seq<EditEntry>, index: nat): (r: seq<EditEntry>)
    ensures forall e :: e in r <==> e in edits && e.index != index
    ensures OneEntryPerIndex(edits) ==> OneEntryPerIndex(r)
    ensures |r| <= |edits|
  {
    if |edits| == 0 then []
    else if edits[0].index == index then Without(edits[1..], index)
    else
      var rest := Without(edits[1..], index);
      assert forall e :: e in edits[1..] ==> e in edits;
      [edits[0]] + rest
  }

  // ---------------------------------------------------------------------
  // Per-index handlers

  /** `handleAccept`: the index becomes accepted; every other index keeps
      its status, and nothing else in the hook changes. */
  function HandleAccept(h: Hook, index: nat): (r: Hook)
    ensures StatusOf(r, index) == Some(Accepted)
    ensures forall j: nat :: j != index ==> StatusOf(r, j) == StatusOf(h, j)
    ensures r.(statuses := h.statuses) == h
  {
    h.(statuses := h.statuses[index := Accepted])
  }

  /** `handleReject`: the index becomes rejected; every other index keeps
      its status, and nothing else in the hook changes. */
  function HandleReject(h: Hook, index: nat): (r: Hook)
    ensures StatusOf(r, index) == Some(Rejected)
    ensures forall j: nat :: j != index ==> StatusOf(r, j) == StatusOf(h, j)
    ensures r.(statuses := h.statuses) == h
  {
    h.(statuses := h.statuses[index := Rejected])
  }

  /** `handleEdit`: the index becomes edited and its edit is the given
      text, recorded once; every other index keeps its status and its
      edit, and nothing else in the hook changes. */
  function HandleEdit(h: Hook, index: nat, front: string, back: string): (r: Hook)
    ensures StatusOf(r, index) == Some(Edited)
    ensures EditFor(r.edits, index) == Some(EditEntry(index, front, back))
    ensures forall j: nat :: j != index ==> StatusOf(r, j) == StatusOf(h, j) && EditFor(r.edits, j) == EditFor(h.edits, j)
    ensures OneEntryPerIndex(h.edits) ==> OneEntryPerIndex(r.edits)
    ensures r.(statuses := h.statuses, edits := h.edits) == h
  {
    var e := EditEntry(index, front, back);
    UpsertFinds(h.edits, e);
    forall j: nat | j != index ensures EditFor(Upsert(h.edits, e), j) == EditFor(h.edits, j) {
      UpsertKeepsOthers(h.edits, e, j);
    }
    h.(edits := Upsert(h.edits, e), statuses := h.statuses[index := Edited])
  }

  /** `handleReset`: the index goes back to pending and has no edit any
      more; every other index keeps its status and its edit, and nothing
      else in the hook changes. */
  function HandleReset(h: Hook, index: nat): (r: Hook)
    ensures StatusOf(r, index) == Some(Pending)
    ensures EditFor(r.edits, index) == None
    ensures forall j: nat :: j != index ==> StatusOf(r, j) == StatusOf(h, j) && EditFor(r.edits, j) == EditFor(h.edits, j)
    ensures OneEntryPerIndex(h.edits) ==> OneEntryPerIndex(r.edits)
    ensures r.(statuses := h.statuses, edits := h.edits) == h
  {
    forall j: nat | j != index ensures EditFor(Without(h.edits, index), j) == EditFor(h.edits, j) {
      WithoutKeepsOthers(h.edits, index, j);
    }
    h.(statuses := h.statuses[index := Pending], edits := Without(h.edits, index))
  }

  /** Each per-index handler changes only the given index's status and
      edit: every other index keeps its status and its edit entry. */
  lemma HandlersTouchOneIndex(h: Hook, index: nat, front: string, back: string, j: nat)
    requires j != index
    ensures forall r :: r in {HandleAccept(h, index), HandleReject(h, index),
                              HandleEdit(h, index, front, back), HandleReset(h, index)} ==>
      (j in r.statuses <==> j in h.statuses) &&
      (j in h.statuses ==> r.statuses[j] == h.statuses[j]) &&
      EditFor(r.edits, j) == EditFor(h.edits, j) &&
      r.proposals == h.proposals && r.generationId == h.generationId
  {
    var e := EditEntry(index, front, back);
    UpsertKeepsOthers(h.edits, e, j);
    WithoutKeepsOthers(h.edits, index, j);
  }

  /** The edited text for an index, if there is one. */
  function EditFor(edits: seq<EditEntry>, index: nat): Option<EditEntry> {
    match FindEdit(edits, index)
    case Some(p) => Some(edits[p])
    case None => None
  }

  lemma UpsertKeepsOthers(edits: seq<EditEntry>, e: EditEntry, j: nat)
    requires j != e.index
    ensures EditFor(Upsert(edits, e), j) == EditFor(edits, j)
  {
    var r := Upsert(edits, e);
    match FindEdit(edits, j)
    case Some(p) =>
      assert r[p] == edits[p];
      FindEditIs(r, j, p);
    case None =>
      assert forall q :: 0 <= q < |r| ==> r[q].index != j by {
        forall q | 0 <= q < |r| ensures r[q].index != j {
          if q < |edits| && r[q] != e {
            assert r[q] == edits[q];
          }
        }
      }
  }

  /** After an upsert the index's edit is the new entry. */
  lemma UpsertFinds(edits: seq<EditEntry>, e: EditEntry)
    ensures EditFor(Upsert(edits, e), e.index) == Some(e)
  {
    var r := Upsert(edits, e);
    match FindEdit(edits, e.index)
    case Some(p) =>
      FindEditIs(r, e.index, p);
    case None =>
      FindEditIs(r, e.index, |edits|);
  }

  /** The first entry for an index is the one `FindEdit` finds. */
  lemma FindEditIs(edits: seq<EditEntry>, index: nat, p: nat)
    requires p < |edits| && edits[p].index == index
    requires forall q :: 0 <= q < p ==> edits[q].index != index
    ensures FindEdit(edits, index) == Some(p)
  {
  }

  /** Filtering out one index keeps the first entry of every other
      index: the entries for `j` keep their relative order. */
  lemma {:induction false} WithoutKeepsOthers(edits: seq<EditEntry>, index: nat, j: nat)
    requires j != index
    ensures EditFor(Without(edits, index), j) == EditFor(edits, j)
  {
    if |edits| > 0 {
      WithoutKeepsOthers(edits[1..], index, j);
      EditForCons(edits, j);
      if edits[0].index != index {
        var rest := Without(edits[1..], index);
        assert ([edits[0]] + rest)[1..] == rest;
        EditForCons([edits[0]] + rest, j);
      }
    }
  }

  /** `EditFor` looks at the head first, then at the rest. */
  lemma EditForCons(edits: seq<EditEntry>, j: nat)
    requires |edits| > 0
    ensures EditFor(edits, j) == if edits[0].index == j then Some(edits[0]) else EditFor(edits[1..], j)
  {
  }

  // ---------------------------------------------------------------------
  // Action buttons

  datatype Action = Accept | Edit(front: string, back: string) | Reject | Reset

  /** `ProposalActionButtons`: accept, edit and reject are offered only
      for a pending proposal; any other status offers only reset. The list
      renders a proposal without a status as pending. */
  predicate Offered(status: Option<Status>, action: Action) {
    if status.GetOr(Pending) == Pending then !action.Reset? else action.Reset?
  }

  function StatusOf(h: Hook, index: nat): Option<Status> {
    if index in h.statuses then Some(h.statuses[index]) else None
  }

  /** A click on an offered button of the proposal at `index`. */
  function Click(h: Hook, index: nat, action: Action): (r: Hook)
    requires Offered(StatusOf(h, index), action)
    ensures StatusOf(r, index) == Some(match action
      case Accept => Accepted case Edit(_, _) => Edited case Reject => Rejected case Reset => Pending)
  {
    match action
    case Accept => HandleAccept(h, index)
    case Edit(front, back) => HandleEdit(h, index, front, back)
    case Reject => HandleReject(h, index)
    case Reset => HandleReset(h, index)
  }

  /** The review invariant: statuses and edits are about listed
      proposals, each index has at most one edit, and an index has an
      edit exactly when its status is edited. */
  ghost predicate InStep(h: Hook) {
    (forall i :: i in h.statuses ==> i < |h.proposals|) &&
    (forall p :: 0 <= p < |h.edits| ==> h.edits[p].index < |h.proposals|) &&
    OneEntryPerIndex(h.edits) &&
    (forall i: nat :: FindEdit(h.edits, i).Some? <==> StatusOf(h, i) == Some(Edited))
  }

  /** A fresh generation starts in step. */
  lemma GenerateStartsInStep(h: Hook, reply: GenerateReply)
    requires InStep(h)
    ensures InStep(HandleGenerate(h, reply).0)
  {
    var r := HandleGenerate(h, reply).0;
    if h.isTextValid && reply.Generated? {
      forall i: nat ensures FindEdit(r.edits, i).Some? <==> StatusOf(r, i) == Some(Edited) {
        assert r.edits == [];
      }
    }
  }

  /** Clicking offered buttons keeps statuses and edits in step. */
  lemma ClickKeepsInStep(h: Hook, index: nat, action: Action)
    requires InStep(h) && index < |h.proposals|
    requires Offered(StatusOf(h, index), action)
    ensures InStep(Click(h, index, action))
  {
    var r := Click(h, index, action);
    forall i: nat | i != index ensures FindEdit(r.edits, i).Some? <==> StatusOf(r, i) == Some(Edited) {
      var front, back := if action.Edit? then action.front else "", if action.Edit? then action.back else "";
      HandlersTouchOneIndex(h, index, front, back, i);
    }
    match action
    case Accept =>
    case Reject =>
    case Edit(front, back) =>
      var e := EditEntry(index, front, back);
      assert FindEdit(h.edits, index).None?;
      assert r.edits == h.edits + [e];
      FindEditIs(r.edits, index, |h.edits|);
    case Reset =>
      var w := Without(h.edits, index);
      assert r.edits == w;
      forall p | 0 <= p < |w| ensures w[p].index < |h.proposals| {
        assert w[p] in h.edits;
      }
      forall p | 0 <= p < |w| ensures w[p].index != index {
        assert w[p] in h.edits;
      }
  }

  // ---------------------------------------------------------------------
  // Saving

  /** A card to create, as the bulk endpoint receives it. */
  datatype CreateCommand = CreateCommand(front: string, back: string, source: string, generationId: Option<int>)

  /** The card sent for one proposal: its edited text as `ai-edited` when
      it was edited, its original text as `ai-full` otherwise. */
  function CommandFor(h: Hook, index: nat): (c: CreateCommand)
    requires index < |h.proposals|
    ensures c.generationId == h.generationId
    ensures EditFor(h.edits, index).Some? ==>
      c == CreateCommand(EditFor(h.edits, index).value.front, EditFor(h.edits, index).value.back, "ai-edited", h.generationId)
    ensures EditFor(h.edits, index).None? ==>
      c == CreateCommand(h.proposals[index].front, h.proposals[index].back, "ai-full", h.generationId)
  {
    match EditFor(h.edits, index)
    case Some(e) => CreateCommand(e.front, e.back, "ai-edited", h.generationId)
    case None => CreateCommand(h.proposals[index].front, h.proposals[index].back, "ai-full", h.generationId)
  }

  /** Whether the index counts as accepted for `handleSaveAccepted`. */
  function IsKept(h: Hook): nat -> bool {
    (i: nat) => i in h.statuses && (h.statuses[i] == Accepted || h.statuses[i] == Edited)
  }

  /** The indices `handleSaveAccepted` sends, in ascending order (the
      order in which `Object.entries` lists integer keys). */
  function KeptIndices(h: Hook): (ids: seq<nat>)
    ensures forall k :: 0 <= k < |ids| ==> ids[k] < |h.proposals| && IsKept(h)(ids[k])
    ensures forall i: nat :: i < |h.proposals| && IsKept(h)(i) ==> i in ids
    ensures forall k, l :: 0 <= k < l < |ids| ==> ids[k] < ids[l]
  {
    IdsBelowLists(|h.proposals|, IsKept(h));
    IdsBelow(|h.proposals|, IsKept(h))
  }

  function Commands(h: Hook, ids: seq<nat>): (cs: seq<CreateCommand>)
    requires forall k :: 0 <= k < |ids| ==> ids[k] < |h.proposals|
    ensures |cs| == |ids| && forall k :: 0 <= k < |ids| ==> cs[k] == CommandFor(h, ids[k])
  {
    seq(|ids|, k requires 0 <= k < |ids| => CommandFor(h, ids[k]))
  }

  /** The cleared state after a successful save; the generation's name
      stays. */
  function Cleared(h: Hook): (r: Hook)
    ensures r.proposals == [] && r.statuses == map[] && r.edits == [] && r.stats == None && r.generationId == None
    ensures r.generationName == h.generationName && r.text == h.text
  {
    h.(proposals := [], statuses := map[], edits := [], stats := None, generationId := None)
  }

  /** What a save gives: the new state, the cards sent (if a request was
      made) and the returned flag (if any). */
  datatype SaveResult = SaveResult(hook: Hook, sent: Option<seq<CreateCommand>>, returned: Option<bool>)

  /** `handleSaveAccepted`: no request without accepted or edited
      proposals; otherwise those are sent in index order, and success
      clears the state while failure leaves it and returns false. */
  function HandleSaveAccepted(h: Hook, saved: bool): (r: SaveResult)
    requires forall i :: i in h.statuses ==> i < |h.proposals|
    ensures |KeptIndices(h)| == 0 ==> r == SaveResult(h, None, None)
    ensures |KeptIndices(h)| > 0 ==> r.sent == Some(Commands(h, KeptIndices(h))) && r.returned == Some(saved)
    ensures |KeptIndices(h)| > 0 ==> r.hook == (if saved then Cleared(h) else h)
  {
    var ids := KeptIndices(h);
    if |ids| == 0 then SaveResult(h, None, None)
    else SaveResult(if saved then Cleared(h) else h, Some(Commands(h, ids)), Some(saved))
  }

  /** `handleSaveAll`: every proposal in order, under the same rule. */
  function HandleSaveAll(h: Hook, saved: bool): (r: SaveResult)
    ensures |h.proposals| == 0 ==> r == SaveResult(h, None, None)
    ensures |h.proposals| > 0 ==> r.returned == Some(saved) && r.hook == (if saved then Cleared(h) else h)
    ensures |h.proposals| > 0 ==> r.sent.Some? && |r.sent.value| == |h.proposals|
    ensures |h.proposals| > 0 ==> forall i :: 0 <= i < |h.proposals| ==> r.sent.value[i] == CommandFor(h, i)
  {
    if |h.proposals| == 0 then SaveResult(h, None, None)
    else
      var all := seq(|h.proposals|, i requires 0 <= i < |h.proposals| => i as nat);
      SaveResult(if saved then Cleared(h) else h, Some(Commands(h, all)), Some(saved))
  }

  /** In step, a saved card is marked `ai-edited` exactly when its
      proposal's status is edited, and every accepted or edited proposal
      is sent exactly once. */
  lemma SavedSourcesFollowStatuses(h: Hook, k: nat)
    requires InStep(h)
    requires k < |KeptIndices(h)|
    ensures var i := KeptIndices(h)[k];
      (Commands(h, KeptIndices(h))[k].source == "ai-edited" <==> h.statuses[i] == Edited) &&
      (Commands(h, KeptIndices(h))[k].source == "ai-full" <==> h.statuses[i] == Accepted)
  {
    var i := KeptIndices(h)[k];
    assert StatusOf(h, i) == Some(h.statuses[i]);
  }

  // ---------------------------------------------------------------------
  // The edit form of one proposal

  const MaxFrontLength: nat := 200
  const MaxBackLength: nat := 500
  const FrontTooLong: string := "Front text cannot exceed 200 characters"
  const BackTooLong: string := "Back text cannot exceed 500 characters"

  datatype EditForm = EditForm(isEditing: bool, front: string, back: string,
                               frontError: Option<string>, backError: Option<string>)

  /** `validateFields`: both limits are checked, each setting its own
      error, so both can be reported at once. */
  function ValidateFields(form: EditForm): (r: EditForm)
    ensures r.frontError == (if |form.front| > MaxFrontLength then Some(FrontTooLong) else None)
    ensures r.backError == (if |form.back| > MaxBackLength then Some(BackTooLong) else None)
    ensures r.isEditing == form.isEditing && r.front == form.front && r.back == form.back
  {
    form.(frontError := if |form.front| > MaxFrontLength then Some(FrontTooLong) else None,
          backError := if |form.back| > MaxBackLength then Some(BackTooLong) else None)
  }

  predicate FieldsValid(form: EditForm) {
    |form.front| <= MaxFrontLength && |form.back| <= MaxBackLength
  }

  /** `handleSaveEdit`: a valid form is passed on and closed; an invalid
      one stays open with its errors. The second component is what
      `onEdit` receives, if it is called. */
  function SaveEdit(form: EditForm): (r: (EditForm, Option<(string, string)>))
    ensures FieldsValid(form) ==> r.1 == Some((form.front, form.back)) && !r.0.isEditing
    ensures !FieldsValid(form) ==> r.1 == None && r.0.isEditing == form.isEditing
    ensures r.0.frontError.None? && r.0.backError.None? <==> FieldsValid(form)
  {
    var checked := ValidateFields(form);
    if FieldsValid(form) then (checked.(isEditing := false), Some((form.front, form.back)))
    else (checked, None)
  }

  /** `handleCancelEdit`: closed, back to the proposal's text, no errors. */
  function CancelEdit(form: EditForm, proposal: Proposal): (r: EditForm)
    ensures r == EditForm(false, proposal.front, proposal.back, None, None)
  {
    EditForm(false, proposal.front, proposal.back, None, None)
  }

  /** A saved edit reaches the hook as an edit of the item's index within
      the limits, and leaves that proposal edited. */
  lemma SavedEditWithinLimits(h: Hook, index: nat, form: EditForm)
    requires SaveEdit(form).1.Some?
    ensures var sent := SaveEdit(form).1.value;
      |sent.0| <= MaxFrontLength && |sent.1| <= MaxBackLength &&
      StatusOf(HandleEdit(h, index, sent.0, sent.1), index) == Some(Edited)
  {
  }
}

=== FILE: route_guards.dfy ===
/** Where the TypeScript servers find the caller's token and what they do
    with it: the Next.js page guard (`middleware`), the Next.js API helper
    `extractUserIdFromRequest`, and the Express `authenticate`
    middleware. JWT verification is an oracle: `None` is a token that
    fails to verify. The `Bearer ` prefix is the one of section 2.1 of
    RFC 6750, matched case-sensitively as the code does. */
module RouteGuards {
  import opened Wrappers
  import opened Text

  const BearerPrefix: string := "Bearer "

  /** A token JavaScript treats as present: defined and non-empty. */
  predicate Present(token: Option<string>) {
    token.Some? && token.value != ""
  }

  // ---------------------------------------------------------------------
  // Next.js page guard

  const ProtectedRoutes: seq<string> := ["/dashboard", "/generate", "/generations"]

  /** A protected path: one that starts with a protected route as plain
      text, so `/generated` counts too. */
  predicate IsProtected(path: string) {
    exists i :: 0 <= i < |ProtectedRoutes| && StartsWith(path, ProtectedRoutes[i])
  }

  /** A path of the login or registration pages. */
  predicate IsAuthPage(path: string) {
    StartsWith(path, "/auth/login") || StartsWith(path, "/auth/register")
  }

  /** The part of the `config.matcher` pattern after its leading slash
      that no path may start with: `api`, `_next/static`, `_next/image`,
      or `favicon.ico`, whose unescaped dot stands for any one character. */
  predicate ExcludedByMatcher(rest: string) {
    || StartsWith(rest, "api")
    || StartsWith(rest, "_next/static")
    || StartsWith(rest, "_next/image")
    || (|rest| >= 11 && rest[..7] == "favicon" && rest[8..11] == "ico")
  }

  /** A path the middleware runs on: a slash not followed by an excluded
      prefix. Every other request reaches its handler untouched. */
  predicate Matched(path: string) {
    |path| >= 1 && path[0] == '/' && !ExcludedByMatcher(path[1..])
  }

  datatype Decision = RedirectToLogin(clearCookie: bool) | RedirectToDashboard | PassThrough

  /** `middleware` on the paths its matcher selects: a protected path
      without a token goes to login; a token that does not verify goes to
      login and is cleared; a verified visitor of the login pages goes to
      the dashboard; everything else, and every path the matcher leaves
      out, passes. */
  function Guard(path: string, cookie: Option<string>, verifies: string -> bool): (d: Decision)
    ensures !Matched(path) ==> d == PassThrough
    ensures Matched(path) && IsProtected(path) && !Present(cookie) ==> d == RedirectToLogin(false)
    ensures Matched(path) && Present(cookie) && !verifies(cookie.value) ==> d == RedirectToLogin(true)
    ensures Matched(path) && Present(cookie) && verifies(cookie.value) ==>
      d == (if IsAuthPage(path) then RedirectToDashboard else PassThrough)
    ensures !IsProtected(path) && !Present(cookie) ==> d == PassThrough
  {
    if !Matched(path) then PassThrough
    else if IsProtected(path) && !Present(cookie) then RedirectToLogin(false)
    else if Present(cookie) then
      if verifies(cookie.value) then
        if IsAuthPage(path) then RedirectToDashboard else PassThrough
      else RedirectToLogin(true)
    else PassThrough
  }

  /** A string starting with `p` agrees with `p` at each of its indices. */
  lemma PrefixChar(s: string, p: string, k: nat)
    requires StartsWith(s, p) && k < |p|
    ensures s[k] == p[k]
  {
    assert s[..|p|][k] == s[k];
  }

  /** A string that differs from `p` at one of `p`'s indices does not
      start with `p`. */
  lemma PrefixMismatch(s: string, p: string, k: nat)
    requires k < |p| && k < |s| && s[k] != p[k]
    ensures !StartsWith(s, p)
  {
    if |p| <= |s| {
      assert s[..|p|][k] == s[k];
    }
  }

  /** The matcher never skips a protected page or a login page: after the
      slash they start with `d`, `g` or `au`. */
  lemma {:induction false} GuardedPagesAreMatched(path: string)
    requires IsProtected(path) || IsAuthPage(path)
    ensures Matched(path)
  {
    var p: string;
    if IsAuthPage(path) {
      p := if StartsWith(path, "/auth/login") then "/auth/login" else "/auth/register";
      assert p[1] == 'a' && p[2] == 'u';
    } else {
      var i :| 0 <= i < |ProtectedRoutes| && StartsWith(path, ProtectedRoutes[i]);
      p := ProtectedRoutes[i];
      assert p[1] == 'd' || p[1] == 'g';
    }
    assert StartsWith(path, p) && |p| >= 3;
    PrefixChar(path, p, 0);
    PrefixChar(path, p, 1);
    PrefixChar(path, p, 2);
    var rest := path[1..];
    assert rest[0] == p[1] && rest[1] == p[2];
    PrefixMismatch(rest, "_next/static", 0);
    PrefixMismatch(rest, "_next/image", 0);
    if rest[0] == 'a' {
      PrefixMismatch(rest, "api", 1);
    } else {
      PrefixMismatch(rest, "api", 0);
    }
    assert |rest| >= 11 ==> rest[..7][0] == rest[0];
    assert !ExcludedByMatcher(rest);
  }

  /** A protected page is served only to a visitor whose token verifies,
      and an anonymous visitor is never sent to the dashboard. */
  lemma GuardProtects(path: string, cookie: Option<string>, verifies: string -> bool)
    ensures IsProtected(path) && Guard(path, cookie, verifies) == PassThrough ==>
      Present(cookie) && verifies(cookie.value)
    ensures Guard(path, cookie, verifies) == RedirectToDashboard ==>
      Present(cookie) && verifies(cookie.value) && IsAuthPage(path)
  {
    if IsProtected(path) {
      GuardedPagesAreMatched(path);
    }
  }

  /** The API routes are outside the matcher: a stale or forged cookie is
      neither cleared nor redirected there, whatever it holds. */
  lemma ApiPathsPassThrough(tail: string, cookie: Option<string>, verifies: string -> bool)
    ensures Guard("/api" + tail, cookie, verifies) == PassThrough
  {
    assert ("/api" + tail)[1..] == "api" + tail;
  }

  /** `/generated` is guarded although it is no route of the list. */
  lemma GeneratedIsProtected()
    ensures IsProtected("/generated")
  {
    assert StartsWith("/generated", ProtectedRoutes[1]);
  }

  // ---------------------------------------------------------------------
  // Next.js API helper

  /** The claims the Next.js token carries. */
  datatype NextClaims = NextClaims(userId: Option<string>)

  /** The token `extractUserIdFromRequest` uses: the cookie when present,
      else the rest of a header starting with `Bearer `. */
  function RequestToken(cookie: Option<string>, header: Option<string>): (t: Option<string>)
    ensures Present(cookie) ==> t == cookie
    ensures !Present(cookie) ==>
      t == (if header.Some? && StartsWith(header.value, BearerPrefix) then Some(header.value[7..]) else cookie)
  {
    if Present(cookie) then cookie
    else if header.Some? && StartsWith(header.value, BearerPrefix) then Some(header.value[7..])
    else cookie
  }

  /** `extractUserIdFromRequest`: the verified token's user id; nothing
      when there is no token or it fails to verify (the header is not
      tried once a cookie token has failed). */
  function ExtractUserId(cookie: Option<string>, header: Option<string>, verify: string -> Option<NextClaims>): (r: Option<string>)
    ensures !Present(RequestToken(cookie, header)) ==> r == None
    ensures Present(RequestToken(cookie, header)) ==>
      r == (match verify(RequestToken(cookie, header).value)
            case Some(claims) => claims.userId
            case None => None)
  {
    var token := RequestToken(cookie, header);
    if Present(token) then
      match verify(token.value)
      case Some(claims) => claims.userId
      case None => None
    else None
  }

  /** The cookie takes precedence: with a cookie token the header does
      not matter, even when the cookie's token fails to verify. */
  lemma CookieTakesPrecedence(cookie: Option<string>, h1: Option<string>, h2: Option<string>,
                              verify: string -> Option<NextClaims>)
    requires Present(cookie)
    ensures ExtractUserId(cookie, h1, verify) == ExtractUserId(cookie, h2, verify)
  {
  }

  /** Without a cookie, a `Bearer` header is read from its eighth
      character on; a header without the prefix is ignored. */
  lemma HeaderTokenAfterPrefix(token: string, other: string, verify: string -> Option<NextClaims>)
    requires token != "" && !StartsWith(other, BearerPrefix)
    ensures ExtractUserId(None, Some(BearerPrefix + token), verify) ==
      (match verify(token) case Some(claims) => claims.userId case None => None)
    ensures ExtractUserId(None, Some(other), verify) == None
  {
    assert (BearerPrefix + token)[7..] == token;
    assert StartsWith(BearerPrefix + token, BearerPrefix) by {
      assert (BearerPrefix + token)[..7] == BearerPrefix;
    }
  }

  // ---------------------------------------------------------------------
  // Express `authenticate`

  /** The claims the Express token carries. */
  datatype TokenClaims = TokenClaims(userId: string, email: string, name: Option<string>)

  datatype User = User(id: string, email: string, name: string)

  datatype AuthOutcome = Authenticated(user: User) | Unauthorized(error: string)

  const NoTokenError: string := "Unauthorized - No token provided"
  const TokenFormatError: string := "Unauthorized - Invalid token format"
  const InvalidTokenError: string := "Unauthorized - Invalid token"

  /** The header less a leading `Bearer `, or the whole header. */
  function StripBearer(header: string): (t: string)
    ensures StartsWith(header, BearerPrefix) ==> header == BearerPrefix + t
    ensures !StartsWith(header, BearerPrefix) ==> t == header
  {
    if StartsWith(header, BearerPrefix) then
      assert header == header[..7] + header[7..];
      header[7..]
    else header
  }

  /** Prefixing a token and stripping it again gives the token back. */
  lemma StripBearerRoundTrip(token: string)
    ensures StripBearer(BearerPrefix + token) == token
  {
    assert StartsWith(BearerPrefix + token, BearerPrefix) by {
      assert (BearerPrefix + token)[..7] == BearerPrefix;
    }
  }

  /** `authenticate`: every failure is a 401 with its own message; the
      user's name defaults to the empty string. */
  function Authenticate(header: Option<string>, verify: string -> Option<TokenClaims>): (r: AuthOutcome)
    ensures !Present(header) ==> r == Unauthorized(NoTokenError)
    ensures Present(header) && StripBearer(header.value) == "" ==> r == Unauthorized(TokenFormatError)
    ensures r.Authenticated? <==> (Present(header) && StripBearer(header.value) != "" && verify(StripBearer(header.value)).Some?)
    ensures r.Authenticated? ==> (
      var claims := verify(StripBearer(header.value)).value;
      r.user == User(claims.userId, claims.email, claims.name.GetOr("")))
    ensures r.Unauthorized? && Present(header) && StripBearer(header.value) != "" ==> r.error == InvalidTokenError
  {
    if !Present(header) then Unauthorized(NoTokenError)
    else
      var token := StripBearer(header.value);
      if token == "" then Unauthorized(TokenFormatError)
      else
        match verify(token)
        case None => Unauthorized(InvalidTokenError)
        case Some(claims) => Authenticated(User(claims.userId, claims.email, claims.name.GetOr("")))
  }

  /** The only header that is present yet holds no token is the bare
      prefix. */
  lemma BarePrefixIsBadFormat(header: string)
    requires header != ""
    ensures StripBearer(header) == "" <==> header == BearerPrefix
  {
  }

  /** The two servers differ on a header without the prefix: Express
      verifies the whole header, the Next.js helper ignores it. */
  lemma ServersDisagreeOnBareToken(token: string, verify: string -> Option<TokenClaims>,
                                   verifyNext: string -> Option<NextClaims>)
    requires token != "" && !StartsWith(token, BearerPrefix)
    ensures ExtractUserId(None, Some(token), verifyNext) == None
    ensures Authenticate(Some(token), verify).Authenticated? <==> verify(token).Some?
  {
  }
}

=== FILE: router_client.dfy ===
/** The backend's `OpenRouterClient.chat` and its error vocabulary
    (`ErrorCode`, `OpenRouterError`, `ErrorHandler.handle`). The HTTP POST
    is an oracle: a function from the request body to what axios does
    with it. Thrown errors are values of `Thrown`. */
module RouterClient {
  import opened Wrappers
  import opened Text

  datatype ErrorCode =
    | InvalidRequest | InvalidResponse | RateLimitExceeded | UnknownError
    | ModelUnavailable | AuthenticationFailed | QuotaExceeded

  /** The string each code carries on the wire. */
  function CodeValue(c: ErrorCode): (v: string)
    ensures |v| > 0
  {
    match c
    case InvalidRequest => "INVALID_REQUEST"
    case InvalidResponse => "INVALID_RESPONSE"
    case RateLimitExceeded => "RATE_LIMIT_EXCEEDED"
    case UnknownError => "UNKNOWN_ERROR"
    case ModelUnavailable => "MODEL_UNAVAILABLE"
    case AuthenticationFailed => "AUTHENTICATION_FAILED"
    case QuotaExceeded => "QUOTA_EXCEEDED"
  }

  lemma CodeValueInjective(a: ErrorCode, b: ErrorCode)
    requires CodeValue(a) == CodeValue(b)
    ensures a == b
  {
  }

  /** What `details` of an `OpenRouterError` holds. */
  datatype Details = NoDetails | UpstreamData | Original(cause: Thrown)

  /** An `OpenRouterError`. */
  datatype RouterFailure = RouterFailure(message: string, code: ErrorCode, details: Details)

  /** A thrown value: an `OpenRouterError`, another `Error`, or a value
      that is not an `Error` at all. */
  datatype Thrown = Router(failure: RouterFailure) | Plain(message: string) | NonError

  const UnknownErrorMessage: string := "An unknown error occurred"

  /** `ErrorHandler.handle`: it never returns normally, so the model
      returns what it throws, which is always an `OpenRouterError`. */
  function Handle(e: Thrown): (f: RouterFailure)
    ensures e.Router? ==> f == e.failure
    ensures e.Plain? ==> f == RouterFailure(e.message, InvalidResponse, Original(e))
    ensures e.NonError? ==> f.message == UnknownErrorMessage && f.code == InvalidResponse
  {
    match e
    case Router(failure) => failure
    case Plain(message) => RouterFailure(message, InvalidResponse, Original(e))
    case NonError => RouterFailure(UnknownErrorMessage, InvalidResponse, Original(e))
  }

  /** Handling an error twice is handling it once. */
  lemma HandleIdempotent(e: Thrown)
    ensures Handle(Router(Handle(e))) == Handle(e)
  {
  }

  // ---------------------------------------------------------------------
  // Request validation and body

  /** A message as the caller passed it: `None` is a missing field. */
  datatype RawMessage = RawMessage(role: Option<string>, content: Option<string>)

  /** A field JavaScript treats as false: missing or empty. */
  predicate Falsy(v: Option<string>) {
    v.None? || v.value == ""
  }

  const EmptyMessagesError: string := "Messages array is required and must not be empty"
  const BadMessageError: string := "Each message must have a role and content"

  /** The checks `chat` makes before sending anything: `messages` must be
      a non-empty array (`None` is anything else) whose every element has
      a non-empty role and content. */
  function ValidateMessages(messages: Option<seq<RawMessage>>): (r: Result<seq<RawMessage>, RouterFailure>)
    ensures r.Ok? <==> (messages.Some? && |messages.value| > 0 &&
      forall i :: 0 <= i < |messages.value| ==> !Falsy(messages.value[i].role) && !Falsy(messages.value[i].content))
    ensures r.Ok? ==> r.value == messages.value
    ensures r.Err? ==> r.error.code == InvalidRequest
    ensures r.Err? && (messages.None? || |messages.value| == 0) ==> r.error.message == EmptyMessagesError
  {
    if messages.None? || |messages.value| == 0 then Err(RouterFailure(EmptyMessagesError, InvalidRequest, NoDetails))
    else if exists i :: 0 <= i < |messages.value| && (Falsy(messages.value[i].role) || Falsy(messages.value[i].content)) then
      Err(RouterFailure(BadMessageError, InvalidRequest, NoDetails))
    else Ok(messages.value)
  }

  /** The `model` key of the caller's options: absent, or present with a
      string or `undefined` (`None`). */
  datatype ModelKey = Absent | Present(value: Option<string>)

  /** The options; every other option is copied into the body unexamined
      and is not modelled. */
  datatype ChatOptions = ChatOptions(model: ModelKey)

  /** The body sent: `model` is `None` when it is `undefined`, which
      serialisation omits. */
  datatype RequestBody = RequestBody(model: Option<string>, messages: seq<RawMessage>)

  /** The body's model as written: `options.model || defaultModel`, then
      overwritten by the spread of `options` whenever the key is present. */
  function BodyModelAsWritten(options: ChatOptions, defaultModel: string): (m: Option<string>)
    ensures options.model.Absent? ==> m == Some(defaultModel)
    ensures options.model.Present? ==> m == options.model.value
  {
    var chosen := match options.model
      case Present(Some(v)) => if v != "" then v else defaultModel
      case _ => defaultModel;
    match options.model
    case Absent => Some(chosen)
    case Present(v) => v
  }

  /** A present but empty or `undefined` model reaches the body as it is,
      instead of the default the `||` was written to supply. */
  lemma BodyModelAsWrittenDropsDefault(defaultModel: string)
    ensures BodyModelAsWritten(ChatOptions(Present(Some(""))), defaultModel) == Some("")
    ensures BodyModelAsWritten(ChatOptions(Present(None)), defaultModel) == None
  {
  }

  /** The model the `||` alone would choose: the caller's model when it
      is a non-empty string, the default otherwise. */
  function FallbackModel(options: ChatOptions, defaultModel: string): (m: Option<string>)
    ensures m.Some?
    ensures options.model.Present? && !Falsy(options.model.value) ==> m == options.model.value
    ensures (options.model.Absent? || Falsy(options.model.value)) ==> m == Some(defaultModel)
  {
    match options.model
    case Present(Some(v)) => if v != "" then Some(v) else Some(defaultModel)
    case _ => Some(defaultModel)
  }

  /** The body carries the model the `||` chooses whenever the caller
      names a model or leaves the key out; it differs only for a present
      key whose value is empty or `undefined`. */
  lemma BodyModelAgreesWhenNamed(options: ChatOptions, defaultModel: string)
    requires options.model.Absent? || !Falsy(options.model.value)
    ensures FallbackModel(options, defaultModel) == BodyModelAsWritten(options, defaultModel)
  {
  }

  // ---------------------------------------------------------------------
  // Replies

  /** A choice of the reply: the content of its message, `None` when the
      message or the content is missing. */
  datatype ReplyChoice = ReplyChoice(content: Option<string>)

  /** The reply body: not an object, or an object with maybe a `choices`
      array and a `model`. */
  datatype ReplyData = NotAnObject | ReplyObject(choices: Option<seq<ReplyChoice>>, model: Option<string>)

  /** What axios does with the POST. */
  datatype Transport =
    | Responded(data: ReplyData)
    | HttpFailed(status: Option<int>, upstreamMessage: Option<string>)
    | Failed(thrown: Thrown)

  datatype ChatResponse = ChatResponse(content: string, model: Option<string>)

  /** The first choice's content when the reply has a non-empty one. */
  function FirstContent(data: ReplyData): Option<string> {
    if data.ReplyObject? && data.choices.Some? && |data.choices.value| > 0 &&
       !Falsy(data.choices.value[0].content)
    then data.choices.value[0].content
    else None
  }

  /** `validateResponse`. */
  function ValidateResponse(data: ReplyData): (r: Result<ChatResponse, RouterFailure>)
    ensures r.Ok? <==> FirstContent(data).Some?
    ensures r.Ok? ==> (r.value.content == FirstContent(data).value && r.value.content != "" &&
      r.value.model == data.model)
    ensures r.Err? ==> r.error.code == InvalidResponse
  {
    if data.NotAnObject? then Err(RouterFailure("Invalid response format", InvalidResponse, NoDetails))
    else if FirstContent(data).None? then Err(RouterFailure("Missing content in response", InvalidResponse, NoDetails))
    else Ok(ChatResponse(FirstContent(data).value, data.model))
  }

  /** A reply whose first choice holds text gives exactly that text. */
  lemma ReplyContentPassesThrough(content: string, more: seq<ReplyChoice>, model: Option<string>)
    requires content != ""
    ensures ValidateResponse(ReplyObject(Some([ReplyChoice(Some(content))] + more), model)) ==
      Ok(ChatResponse(content, model))
  {
  }

  /** The error an HTTP failure becomes. */
  function ClassifyStatus(status: Option<int>, upstreamMessage: Option<string>): (f: RouterFailure)
    ensures status == Some(400) ==> (f.code == InvalidRequest &&
      f.message == (if Falsy(upstreamMessage) then "Invalid request parameters" else upstreamMessage.value))
    ensures status == Some(429) ==> f == RouterFailure("Rate limit exceeded", RateLimitExceeded, NoDetails)
    ensures status == Some(401) ==> f == RouterFailure("Authentication failed", AuthenticationFailed, NoDetails)
    ensures status == Some(402) ==> f == RouterFailure("Quota exceeded", QuotaExceeded, NoDetails)
    ensures status !in {Some(400), Some(429), Some(401), Some(402)} ==> (f.code == InvalidResponse &&
      f.message == "Request failed with status " + (if status.Some? then IntToDecimal(status.value) else "undefined"))
  {
    if status == Some(400) then
      RouterFailure(if Falsy(upstreamMessage) then "Invalid request parameters" else upstreamMessage.value, InvalidRequest, UpstreamData)
    else if status == Some(429) then RouterFailure("Rate limit exceeded", RateLimitExceeded, NoDetails)
    else if status == Some(401) then RouterFailure("Authentication failed", AuthenticationFailed, NoDetails)
    else if status == Some(402) then RouterFailure("Quota exceeded", QuotaExceeded, NoDetails)
    else
      RouterFailure("Request failed with status " + (if status.Some? then IntToDecimal(status.value) else "undefined"),
                    InvalidResponse, UpstreamData)
  }

  /** Each special code comes from exactly one status, and every other
      status is reported as an invalid response. */
  lemma ClassifyStatusIsExact(status: Option<int>, upstreamMessage: Option<string>)
    ensures var c := ClassifyStatus(status, upstreamMessage).code;
      (c == InvalidRequest <==> status == Some(400)) &&
      (c == RateLimitExceeded <==> status == Some(429)) &&
      (c == AuthenticationFailed <==> status == Some(401)) &&
      (c == QuotaExceeded <==> status == Some(402)) &&
      (c == InvalidResponse <==> status !in {Some(400), Some(429), Some(401), Some(402)})
  {
  }

  /** `chat`: validate, build the body, POST it, and read the reply. The
      first component is the body sent, if any. An `OpenRouterError`
      from validation is rethrown unchanged, an HTTP failure is
      classified, and any other error propagates as it is. */
  function Chat(messages: Option<seq<RawMessage>>, options: ChatOptions, defaultModel: string,
                post: RequestBody -> Transport): (r: (Option<RequestBody>, Result<ChatResponse, Thrown>))
    ensures ValidateMessages(messages).Err? ==>
      r == (None, Err(Router(ValidateMessages(messages).error)))
    ensures ValidateMessages(messages).Ok? ==>
      r.0 == Some(RequestBody(BodyModelAsWritten(options, defaultModel), messages.value))
    ensures ValidateMessages(messages).Ok? ==>
      match post(r.0.value)
      case Responded(data) =>
        (r.1.Ok? <==> FirstContent(data).Some?) && (r.1.Ok? ==> r.1.value.content == FirstContent(data).value)
      case HttpFailed(status, upstream) => r.1 == Err(Router(ClassifyStatus(status, upstream)))
      case Failed(thrown) => r.1 == Err(thrown)
  {
    match ValidateMessages(messages)
    case Err(f) => (None, Err(Router(f)))
    case Ok(valid) =>
      var body := RequestBody(BodyModelAsWritten(options, defaultModel), valid);
      var outcome := match post(body)
        case Responded(data) =>
          (match ValidateResponse(data)
           case Ok(response) => Ok(response)
           case Err(f) => Err(Router(f)))
        case HttpFailed(status, upstream) => Err(Router(ClassifyStatus(status, upstream)))
        case Failed(thrown) => Err(thrown);
      (Some(body), outcome)
  }

  /** Every error `chat` raises is an `OpenRouterError` except those the
      transport throws itself, and `handle` leaves the former alone. */
  lemma ChatErrorsSurviveHandle(messages: Option<seq<RawMessage>>, options: ChatOptions, defaultModel: string,
                                post: RequestBody -> Transport)
    requires Chat(messages, options, defaultModel, post).1.Err?
    requires Chat(messages, options, defaultModel, post).1.error.Router?
    ensures Handle(Chat(messages, options, defaultModel, post).1.error) ==
      Chat(messages, options, defaultModel, post).1.error.failure
  {
  }
}

=== FILE: source.dfy ===
/** Where a flashcard came from: the three values of the Spring enum, the
    string each is stored as, the JPA converter between them, and the
    labels and badge colours the React front end shows for a source. */
module Sources {
  import opened Wrappers

  datatype FlashcardSource = Manual | AiFull | AiEdited

  /** The strings the enum accepts, in declaration order. */
  const ValidValues: seq<string> := ["manual", "ai-full", "ai-edited"]

  /** The string a source is stored and serialised as. */
  function Value(s: FlashcardSource): (v: string)
    ensures v in ValidValues
  {
    match s
    case Manual => "manual"
    case AiFull => "ai-full"
    case AiEdited => "ai-edited"
  }

  /** Java renders a `null` string as `null` when concatenating. */
  function JavaString(v: Option<string>): string {
    match v
    case None => "null"
    case Some(x) => x
  }

  /** The message of the `IllegalArgumentException` for an unknown value. */
  function InvalidSourceMessage(v: Option<string>): string {
    "Invalid flashcard source: " + JavaString(v) + ". Valid values: manual, ai-full, ai-edited"
  }

  /** The enum constant whose value equals `v`; `None` is Java `null`, which
      equals no value. */
  function FromValue(v: Option<string>): (r: Result<FlashcardSource, string>)
    ensures r.Ok? <==> v.Some? && v.value in ValidValues
    ensures r.Ok? ==> Value(r.value) == v.value
    ensures r.Err? ==> r.error == InvalidSourceMessage(v)
  {
    match v
    case None => Err(InvalidSourceMessage(v))
    case Some(x) =>
      if x == "manual" then Ok(Manual)
      else if x == "ai-full" then Ok(AiFull)
      else if x == "ai-edited" then Ok(AiEdited)
      else Err(InvalidSourceMessage(v))
  }

  /** Decoding a stored value gives back the source it was stored from. */
  lemma FromValueOfValue(s: FlashcardSource)
    ensures FromValue(Some(Value(s))) == Ok(s)
  {
  }

  /** Distinct sources are stored as distinct strings. */
  lemma ValueInjective(a: FlashcardSource, b: FlashcardSource)
    requires Value(a) == Value(b)
    ensures a == b
  {
  }

  /** The converter's database side: `null` stays `null`. */
  function ToColumn(a: Option<FlashcardSource>): (c: Option<string>)
    ensures c.None? <==> a.None?
    ensures c.Some? ==> c.value in ValidValues
  {
    match a
    case None => None
    case Some(s) => Some(Value(s))
  }

  /** The converter's entity side: `null` stays `null`, anything else goes
      through `FromValue` and may fail. */
  function ToAttribute(c: Option<string>): (r: Result<Option<FlashcardSource>, string>)
    ensures r.Ok? <==> c.None? || c.value in ValidValues
    ensures r.Ok? ==> (r.value.None? <==> c.None?)
  {
    match c
    case None => Ok(None)
    case Some(x) =>
      match FromValue(c)
      case Ok(s) => Ok(Some(s))
      case Err(e) => Err(e)
  }

  /** Writing an attribute and reading it back is the identity. */
  lemma ConverterRoundTrip(a: Option<FlashcardSource>)
    ensures ToAttribute(ToColumn(a)) == Ok(a)
  {
    if a.Some? {
      FromValueOfValue(a.value);
    }
  }

  /** Reading a column that converts and writing it back is the identity. */
  lemma ConverterColumnRoundTrip(c: Option<string>)
    requires ToAttribute(c).Ok?
    ensures ToColumn(ToAttribute(c).value) == c
  {
  }

  /** The badge colours of the flashcard list. */
  datatype BadgeVariant = Default | Secondary | Outline

  /** Badge for a source string; unknown strings get the default badge. */
  function SourceBadgeVariant(source: string): (b: BadgeVariant)
    ensures b == Secondary <==> source == "ai-full"
    ensures b == Outline <==> source == "ai-edited"
    ensures b == Default <==> source !in ["ai-full", "ai-edited"]
  {
    if source == "manual" then Default
    else if source == "ai-full" then Secondary
    else if source == "ai-edited" then Outline
    else Default
  }

  /** Human-readable label for a source string; unknown strings are shown
      as they are. */
  function SourceLabel(source: string): (l: string)
    ensures source !in ValidValues ==> l == source
    ensures source in ValidValues ==> l != source && l in ["Manual", "AI Generated", "AI Edited"]
  {
    if source == "manual" then "Manual"
    else if source == "ai-full" then "AI Generated"
    else if source == "ai-edited" then "AI Edited"
    else source
  }

  /** The three known sources get three different labels. */
  lemma SourceLabelDistinguishesSources(a: FlashcardSource, b: FlashcardSource)
    requires SourceLabel(Value(a)) == SourceLabel(Value(b))
    ensures a == b
  {
  }
}

=== FILE: spring_parser.dfy ===
/** How the Spring services turn a model reply into flashcard proposals
    (`OpenAIService.parseFlashcards`, copied verbatim into
    `OpenRouterService`): first as a JSON list of proposals, and when that
    fails as plain text in the `FRONT: ... BACK: ... ---` format the prompt
    asks for. The two Java regular expressions are modelled by what
    `Matcher.find` does with them. */
module SpringParser {
  import opened Wrappers
  import opened Text

  /** `FlashcardProposalDTO`: `None` is a Java `null`. */
  datatype ProposalDto = ProposalDto(front: Option<string>, back: Option<string>, source: Option<string>)

  /** The value the DTO's `source` field is initialised with. */
  const DefaultSource: string := "ai-full"

  // ---------------------------------------------------------------------
  // The JSON attempt

  /** A string property of a JSON object as Jackson sees it. */
  datatype JsonField = Absent | Null | Str(value: string)

  datatype JsonCard = JsonCard(front: JsonField, back: JsonField, source: JsonField)

  /** What Jackson's `readValue(text, List<FlashcardProposalDTO>)` produces:
      an exception (the text is not such a list), `null` (the text is the
      JSON literal `null`), or a list of cards. */
  datatype Decoded = NotAList | NullList | Cards(cards: seq<JsonCard>)

  /** A DTO built by Jackson: absent properties keep the field initialiser,
      an explicit `null` overwrites it. */
  function FromJson(c: JsonCard): (p: ProposalDto)
    ensures p.front.Some? <==> c.front.Str?
    ensures p.back.Some? <==> c.back.Str?
    ensures c.front.Str? ==> p.front.value == c.front.value
    ensures c.back.Str? ==> p.back.value == c.back.value
    ensures c.source.Absent? ==> p.source == Some(DefaultSource)
    ensures c.source.Null? ==> p.source.None?
    ensures c.source.Str? ==> p.source == Some(c.source.value)
  {
    ProposalDto(
      if c.front.Str? then Some(c.front.value) else None,
      if c.back.Str? then Some(c.back.value) else None,
      match c.source
      case Absent => Some(DefaultSource)
      case Null => None
      case Str(s) => Some(s))
  }

  // ---------------------------------------------------------------------
  // The regular expressions `FRONT:\s*(.+?)(?=BACK:|$)` and
  // `BACK:\s*(.+?)(?=FRONT:|$)`, compiled with DOTALL

  /** The chars Java's `$` treats as line terminators. */
  predicate IsLineTerminator(c: char) {
    c == '\n' || c == '\r' || c == '\U{0085}' || c == '\U{2028}' || c == '\U{2029}'
  }

  /** Java's `$` without MULTILINE holds at the end of the input and just
      before a final line terminator (`\r\n` counting as one, and never
      between its two chars). */
  predicate EndAnchor(s: string, e: nat) {
    || e == |s|
    || (e + 1 == |s| && IsLineTerminator(s[e]) && !(s[e] == '\n' && e > 0 && s[e - 1] == '\r'))
    || (e + 2 == |s| && s[e] == '\r' && s[e + 1] == '\n')
  }

  /** The lookahead `(?=stop|$)` holds at `e`. */
  predicate Lookahead(s: string, stop: string, e: nat) {
    StartsAt(s, stop, e) || EndAnchor(s, e)
  }

  /** Where the lazy `.+?` stops when it may stop no earlier than `e`: the
      first position from `e` on where the lookahead holds. */
  function LazyEnd(s: string, stop: string, e: nat): (r: nat)
    requires e <= |s|
    decreases |s| - e
    ensures e <= r <= |s| && Lookahead(s, stop, r)
    ensures forall k :: e <= k < r ==> !Lookahead(s, stop, k)
  {
    if Lookahead(s, stop, e) then e else LazyEnd(s, stop, e + 1)
  }

  /** The group captured by a match attempt at `p`, where `tag` occurs.
      `\s*` first takes every white-space char; when that leaves nothing
      for `.+?`, it gives one char back, and when it took none the attempt
      fails. */
  function MatchAt(s: string, tag: string, stop: string, p: nat): (g: Option<string>)
    requires StartsAt(s, tag, p)
    ensures g.Some? <==> p + |tag| < |s|
    ensures g.Some? ==> |g.value| > 0
  {
    var a := p + |tag|;
    var q := a + LeadingCount(s[a..], IsRegexSpace);
    if q < |s| then Some(s[q..LazyEnd(s, stop, q + 1)])
    else if q > a then Some(s[q - 1..q])
    else None
  }

  /** `Matcher.find()` followed by `group(1)`: the first position from
      `from` on where the attempt succeeds. */
  function FindGroup(s: string, tag: string, stop: string, from: nat): (g: Option<string>)
    requires |tag| > 0
    decreases |s| - from
    ensures g.Some? ==> |g.value| > 0
    ensures g.None? <==> forall p :: from <= p && StartsAt(s, tag, p) ==> p + |tag| == |s|
  {
    match IndexOfFrom(s, tag, from)
    case None => None
    case Some(p) =>
      if p + |tag| < |s| then MatchAt(s, tag, stop, p)
      else FindGroup(s, tag, stop, p + 1)
  }

  // ---------------------------------------------------------------------
  // The plain-text fallback

  /** A card taken from the text: both sides are present, non-empty and
      trimmed, and the source is the DTO default. */
  predicate IsTextCard(p: ProposalDto) {
    && p.front.Some? && p.front.value != [] && JavaTrim(p.front.value) == p.front.value
    && p.back.Some? && p.back.value != [] && JavaTrim(p.back.value) == p.back.value
    && p.source == Some(DefaultSource)
  }

  /** One `---`-separated piece: trimmed, skipped when empty, and kept only
      when both patterns match and both trimmed groups are non-empty. */
  function ParsePiece(piece: string): (r: Option<ProposalDto>)
    ensures r.Some? ==> IsTextCard(r.value)
    ensures r.Some? ==> JavaTrim(piece) != []
  {
    var card := JavaTrim(piece);
    if card == [] then None
    else
      match (FindGroup(card, "FRONT:", "BACK:", 0), FindGroup(card, "BACK:", "FRONT:", 0))
      case (Some(f), Some(b)) =>
        var front := JavaTrim(f);
        var back := JavaTrim(b);
        TrimIdempotent(f, IsJavaTrimmable);
        TrimIdempotent(b, IsJavaTrimmable);
        if front != [] && back != [] then Some(ProposalDto(Some(front), Some(back), Some(DefaultSource)))
        else None
      case _ => None
  }

  /** The cards of a sequence of pieces, in order. */
  function ParsePieces(pieces: seq<string>): (r: seq<ProposalDto>)
    ensures |r| <= |pieces|
    ensures forall i :: 0 <= i < |r| ==> IsTextCard(r[i])
  {
    if |pieces| == 0 then []
    else
      var rest := ParsePieces(pieces[1..]);
      match ParsePiece(pieces[0])
      case Some(c) => [c] + rest
      case None => rest
  }

  /** The text fallback: split on `---`, then parse every piece. */
  function ParseText(text: string): (r: seq<ProposalDto>)
    ensures forall i :: 0 <= i < |r| ==> IsTextCard(r[i])
  {
    ParsePieces(JavaSplit(text, "---"))
  }

  /** `parseFlashcards`: the decoded list when Jackson succeeds (`None` for
      a `null` list), the text fallback when it throws. */
  function ParseFlashcards(decode: string -> Decoded, text: string): (r: Option<seq<ProposalDto>>)
    ensures r.None? <==> decode(text).NullList?
    ensures decode(text).Cards? ==>
      |r.value| == |decode(text).cards| &&
      forall i :: 0 <= i < |r.value| ==> r.value[i] == FromJson(decode(text).cards[i])
    ensures decode(text).NotAList? ==> forall i :: 0 <= i < |r.value| ==> IsTextCard(r.value[i])
  {
    match decode(text)
    case NullList => None
    case Cards(cs) => Some(seq(|cs|, i requires 0 <= i < |cs| => FromJson(cs[i])))
    case NotAList => Some(ParseText(text))
  }

  // ---------------------------------------------------------------------
  // The text format round trip

  /** A question and answer in the shape the prompt asks the model for. */
  datatype TextCard = TextCard(front: string, back: string)

  /** One card as the prompt describes it: a `FRONT:` line, a `BACK:`
      line, and line breaks around it so that neighbouring `---`
      separators stay apart from the text. */
  function RenderCard(c: TextCard): string {
    "\nFRONT: " + c.front + "\nBACK: " + c.back + "\n"
  }

  function RenderPieces(cards: seq<TextCard>): (r: seq<string>)
    ensures |r| == |cards|
    ensures forall i :: 0 <= i < |r| ==> r[i] == RenderCard(cards[i])
  {
    if |cards| == 0 then [] else [RenderCard(cards[0])] + RenderPieces(cards[1..])
  }

  /** A reply listing `cards` separated by `---`. */
  function RenderCards(cards: seq<TextCard>): string {
    Join(RenderPieces(cards), "---")
  }

  /** The side of a card is trimmed and non-empty. */
  predicate IsCleanSide(s: string) {
    |s| > 0 && !IsJavaTrimmable(s[0]) && !IsJavaTrimmable(s[|s| - 1])
  }

  /** A card the text format can carry: clean sides, no separator inside,
      no `BACK:` in the question, no `FRONT:` in the answer, and an answer
      that does not end in a char Java's `$` would stop before. */
  predicate Renderable(c: TextCard) {
    && IsCleanSide(c.front) && IsCleanSide(c.back)
    && !Contains(c.front, "---") && !Contains(c.back, "---")
    && !Contains(c.front, "BACK:") && !Contains(c.back, "FRONT:")
    && !IsLineTerminator(c.back[|c.back| - 1])
  }

  function AsProposal(c: TextCard): ProposalDto {
    ProposalDto(Some(c.front), Some(c.back), Some(DefaultSource))
  }

  /** A reply written in the requested text format, which is not a JSON
      list, parses back to exactly the cards it lists, in order. */
  lemma TextFormatRoundTrip(decode: string -> Decoded, cards: seq<TextCard>)
    requires forall i :: 0 <= i < |cards| ==> Renderable(cards[i])
    requires decode(RenderCards(cards)).NotAList?
    ensures ParseFlashcards(decode, RenderCards(cards)) ==
      Some(seq(|cards|, i requires 0 <= i < |cards| => AsProposal(cards[i])))
  {
    JavaSplitOfRendered(cards);
    ParsePiecesOfRendered(cards);
  }

  /** Splitting a rendered reply gives back its pieces. */
  lemma JavaSplitOfRendered(cards: seq<TextCard>)
    requires forall i :: 0 <= i < |cards| ==> Renderable(cards[i])
    ensures |cards| > 0 ==> JavaSplit(RenderCards(cards), "---") == RenderPieces(cards)
    ensures |cards| == 0 ==> JavaSplit(RenderCards(cards), "---") == [""]
  {
    var pieces := RenderPieces(cards);
    if |cards| == 0 {
      assert RenderCards(cards) == "";
    } else {
      forall i | 0 <= i < |pieces|
        ensures !Contains(pieces[i], "---")
        ensures |pieces[i]| > 0 && pieces[i][|pieces[i]| - 1] == '\n'
      {
        RenderedPieceHasNoSeparator(cards[i]);
      }
      JavaSplitJoin(pieces, "---", '\n');
    }
  }

  /** Every rendered piece parses to its card, and the single empty piece
      of an empty reply to nothing. */
  lemma {:induction false} ParsePiecesOfRendered(cards: seq<TextCard>)
    requires forall i :: 0 <= i < |cards| ==> Renderable(cards[i])
    ensures ParsePieces(RenderPieces(cards)) == seq(|cards|, i requires 0 <= i < |cards| => AsProposal(cards[i]))
    ensures ParsePieces([""]) == []
  {
    assert JavaTrim("") == "";
    if |cards| > 0 {
      ParsePiecesOfRendered(cards[1..]);
      assert RenderPieces(cards)[1..] == RenderPieces(cards[1..]);
      ParseRenderedCard(cards[0]);
    }
  }

  /** The separator never occurs inside a rendered piece, which ends in a
      line break. */
  lemma RenderedPieceHasNoSeparator(c: TextCard)
    requires Renderable(c)
    ensures !Contains(RenderCard(c), "---")
    ensures |RenderCard(c)| > 0 && RenderCard(c)[|RenderCard(c)| - 1] == '\n'
  {
    var backLine := "BACK:" + [' '] + (c.back + ['\n']);
    BackLineHasNoSeparator(c.back);
    var afterFront := c.front + ['\n'] + backLine;
    NoOccurrenceAcross(c.front, '\n', backLine, "---");
    NoContainsWithoutFirstChar("\nFRONT:", "---");
    NoOccurrenceAcross("\nFRONT:", ' ', afterFront, "---");
    assert RenderCard(c) == "\nFRONT:" + [' '] + afterFront;
  }

  /** The `BACK:` line of a rendered piece is free of the separator. */
  lemma BackLineHasNoSeparator(b: string)
    requires !Contains(b, "---")
    ensures !Contains("BACK:" + [' '] + (b + ['\n']), "---")
  {
    NoContainsWithoutFirstChar("", "---");
    NoOccurrenceAcross(b, '\n', "", "---");
    assert b + ['\n'] + "" == b + ['\n'];
    NoContainsWithoutFirstChar("BACK:", "---");
    NoOccurrenceAcross("BACK:", ' ', b + ['\n'], "---");
  }

  /** Trimmed, a rendered piece is its `FRONT:` and `BACK:` lines. */
  function Core(c: TextCard): string {
    "FRONT: " + c.front + "\nBACK: " + c.back
  }

  lemma ParseRenderedCard(c: TextCard)
    requires Renderable(c)
    ensures ParsePiece(RenderCard(c)) == Some(AsProposal(c))
  {
    TrimRendered(c);
    FrontGroupOfCore(c);
    BackGroupOfCore(c);
    TrimGroups(c);
  }

  /** Trimming a rendered piece leaves its two lines. */
  lemma TrimRendered(c: TextCard)
    requires Renderable(c)
    ensures JavaTrim(RenderCard(c)) == Core(c)
  {
    var core := Core(c);
    assert RenderCard(c) == "\n" + core + "\n";
    assert core[0] == 'F' && core[|core| - 1] == c.back[|c.back| - 1];
    TrimSurrounded("\n", core, "\n", IsJavaTrimmable);
  }

  /** Trimming the two groups gives the question and the answer. */
  lemma TrimGroups(c: TextCard)
    requires Renderable(c)
    ensures JavaTrim(c.front + "\n") == c.front && JavaTrim(c.back) == c.back
  {
    TrimSurrounded("", c.front, "\n", IsJavaTrimmable);
    assert "" + c.front + "\n" == c.front + "\n";
    TrimKeepsCleanString(c.back, IsJavaTrimmable);
  }

  /** The question's group runs to the line break before `BACK:`. */
  lemma FrontGroupOfCore(c: TextCard)
    requires Renderable(c)
    ensures FindGroup(Core(c), "FRONT:", "BACK:", 0) == Some(c.front + "\n")
  {
    var s := Core(c);
    var f := c.front;
    var n := |f|;
    assert s[0..6] == "FRONT:";
    assert IndexOfFrom(s, "FRONT:", 0) == Some(0);
    var tail := s[6..];
    assert tail[0] == ' ' && tail[1] == f[0];
    assert LeadingCount(tail, IsRegexSpace) == 1 by {
      assert IsRegexSpace(tail[0]) && !IsRegexSpace(tail[1]);
    }
    var head := "FRONT: " + f;
    var rest := "BACK: " + c.back;
    assert s == head + ['\n'] + rest;
    assert Lookahead(s, "BACK:", 8 + n) by {
      assert s[8 + n..13 + n] == rest[..5];
    }
    NoContainsWithoutFirstChar("FRONT:", "BACK:");
    assert head == "FRONT:" + [' '] + f;
    NoOccurrenceAcross("FRONT:", ' ', f, "BACK:");
    forall k: nat | k < 8 + n
      ensures !Lookahead(s, "BACK:", k)
    {
      NoOccurrenceBeforeChar(head, '\n', rest, "BACK:", k);
    }
    assert LazyEnd(s, "BACK:", 8) == 8 + n;
    assert s[7..8 + n] == f + "\n";
  }

  /** The first `BACK:` of a core is the one that starts its second line. */
  lemma FirstBackInCore(c: TextCard)
    requires Renderable(c)
    ensures IndexOfFrom(Core(c), "BACK:", 0) == Some(8 + |c.front|)
  {
    var s := Core(c);
    var n := |c.front|;
    var head := "FRONT: " + c.front;
    var rest := "BACK: " + c.back;
    assert s == head + ['\n'] + rest;
    assert StartsAt(s, "BACK:", 8 + n) by {
      assert s[8 + n..13 + n] == rest[..5];
    }
    NoContainsWithoutFirstChar("FRONT:", "BACK:");
    assert head == "FRONT:" + [' '] + c.front;
    NoOccurrenceAcross("FRONT:", ' ', c.front, "BACK:");
    forall k: nat | k < 8 + n
      ensures !StartsAt(s, "BACK:", k)
    {
      NoOccurrenceBeforeChar(head, '\n', rest, "BACK:", k);
    }
  }

  /** The answer's lazy group can stop only at the end of the core. */
  lemma BackLazyEnd(c: TextCard)
    requires Renderable(c)
    ensures 15 + |c.front| <= |Core(c)|
    ensures LazyEnd(Core(c), "FRONT:", 15 + |c.front|) == |Core(c)|
  {
    var s := Core(c);
    var b := c.back;
    var prefix := "FRONT: " + c.front + "\nBACK: ";
    assert s == prefix + b;
    assert |prefix| == 14 + |c.front|;
    assert s[|s| - 1] == b[|b| - 1];
    forall k | |prefix| + 1 <= k < |s|
      ensures !Lookahead(s, "FRONT:", k)
    {
      NoStartInSuffix(prefix, b, "FRONT:", k);
    }
    assert Lookahead(s, "FRONT:", |s|);
  }

  /** The answer's group runs to the end of the piece. */
  lemma BackGroupOfCore(c: TextCard)
    requires Renderable(c)
    ensures FindGroup(Core(c), "BACK:", "FRONT:", 0) == Some(c.back)
  {
    var s := Core(c);
    var b := c.back;
    var n := |c.front|;
    FirstBackInCore(c);
    BackLazyEnd(c);
    var tail := s[13 + n..];
    assert s == "FRONT: " + c.front + "\nBACK: " + b;
    assert tail == " " + b;
    assert LeadingCount(tail, IsRegexSpace) == 1 by {
      assert IsRegexSpace(tail[0]) && !IsRegexSpace(tail[1]);
    }
    assert s[14 + n..|s|] == b;
    assert StartsAt(s, "BACK:", 8 + n);
    assert 8 + n + |"BACK:"| == 13 + n;
    assert s[13 + n..] == tail;
    assert MatchAt(s, "BACK:", "FRONT:", 8 + n) == Some(b);
  }

  // ---------------------------------------------------------------------
  // Facts about occurrences and joins

  lemma StartsAtContains(s: string, p: string, k: nat)
    requires StartsAt(s, p, k)
    ensures Contains(s, p)
  {
  }

  /** A string without the first char of `p` does not contain `p`. */
  lemma NoContainsWithoutFirstChar(a: string, p: string)
    requires |p| > 0
    requires forall i :: 0 <= i < |a| ==> a[i] != p[0]
    ensures !Contains(a, p)
  {
  }

  /** A string free of `p` has no occurrence of it at any index. */
  lemma NoStartInFree(s: string, p: string, k: nat)
    requires !Contains(s, p)
    ensures !StartsAt(s, p, k)
  {
  }

  /** No occurrence of `p` in `a + b` starts within `b` when `b` is free
      of `p`. */
  lemma NoStartInSuffix(a: string, b: string, p: string, k: nat)
    requires !Contains(b, p) && |a| <= k
    ensures !StartsAt(a + b, p, k)
  {
    var s := a + b;
    if k + |p| <= |s| {
      assert s[k..k + |p|] == b[k - |a|..k - |a| + |p|];
      NoStartInFree(b, p, k - |a|);
    }
  }

  /** A window of `s` that covers index `i`, where `s[i]` is not a char of
      `p`, is not an occurrence of `p`. */
  lemma NoStartOver(s: string, p: string, k: nat, i: nat)
    requires k <= i < k + |p| && i < |s| && s[i] !in p
    ensures !StartsAt(s, p, k)
  {
    if k + |p| <= |s| {
      assert s[k..k + |p|][i - k] == s[i];
    }
  }

  /** No occurrence of `p` in `a + [c] + b` starts within `a` when `a`
      is free of `p` and `c` is not a char of `p`. */
  lemma NoOccurrenceBeforeChar(a: string, c: char, b: string, p: string, k: nat)
    requires c !in p && !Contains(a, p) && k <= |a|
    ensures !StartsAt(a + [c] + b, p, k)
  {
    var s := a + [c] + b;
    assert s[|a|] == c;
    if k + |p| <= |a| {
      assert s[k..k + |p|] == a[k..k + |p|];
      NoStartInFree(a, p, k);
    } else {
      NoStartOver(s, p, k, |a|);
    }
  }

  /** Joining two strings free of `p` with a char outside `p` keeps the
      result free of `p`. */
  lemma NoOccurrenceAcross(a: string, c: char, b: string, p: string)
    requires |p| > 0 && c !in p
    requires !Contains(a, p) && !Contains(b, p)
    ensures !Contains(a + [c] + b, p)
  {
    var s := a + [c] + b;
    forall k: nat ensures !StartsAt(s, p, k) {
      if k <= |a| {
        NoOccurrenceBeforeChar(a, c, b, p, k);
      } else {
        assert s == (a + [c]) + b;
        NoStartInSuffix(a + [c], b, p, k);
      }
    }
  }

  /** Splitting a join of pieces that do not contain the delimiter, and
      that end in a char `e` outside it, gives the pieces back. */
  lemma {:induction false} SplitOnJoin(pieces: seq<string>, d: string, e: char)
    requires |d| > 0 && |pieces| > 0 && e !in d
    requires forall i :: 0 <= i < |pieces| ==> !Contains(pieces[i], d)
    requires forall i :: 0 <= i < |pieces| ==> |pieces[i]| > 0 && pieces[i][|pieces[i]| - 1] == e
    ensures SplitOn(Join(pieces, d), d) == pieces
    decreases |pieces|
  {
    var s := Join(pieces, d);
    if |pieces| == 1 {
      assert s == pieces[0];
    } else {
      var p0 := pieces[0];
      var tail := Join(pieces[1..], d);
      assert s == p0 + d + tail;
      assert StartsAt(s, d, |p0|) by {
        assert s[|p0|..|p0| + |d|] == d;
      }
      var k := IndexOfFrom(s, d, 0).value;
      forall j: nat | j < |p0| ensures !StartsAt(s, d, j) {
        NoStartBeforeJoin(p0, d, tail, e, j);
      }
      assert k == |p0|;
      assert s[k + |d|..] == tail;
      SplitOnJoin(pieces[1..], d, e);
      assert pieces == [p0] + pieces[1..];
    }
  }

  /** In `p0 + d + tail`, where `p0` is free of `d` and ends in a char
      outside it, no occurrence of `d` starts within `p0`. */
  lemma NoStartBeforeJoin(p0: string, d: string, tail: string, e: char, j: nat)
    requires |d| > 0 && e !in d && !Contains(p0, d)
    requires |p0| > 0 && p0[|p0| - 1] == e && j < |p0|
    ensures !StartsAt(p0 + d + tail, d, j)
  {
    var s := p0 + d + tail;
    if j + |d| <= |p0| {
      assert s[j..j + |d|] == p0[j..j + |d|];
      NoStartInFree(p0, d, j);
    } else {
      assert s[|p0| - 1] == e;
      NoStartOver(s, d, j, |p0| - 1);
    }
  }

  /** `split` of such a join gives the pieces back as well: the last piece
      is not empty, so nothing is dropped. */
  lemma JavaSplitJoin(pieces: seq<string>, d: string, e: char)
    requires |d| > 0 && |pieces| > 0 && e !in d
    requires forall i :: 0 <= i < |pieces| ==> !Contains(pieces[i], d)
    requires forall i :: 0 <= i < |pieces| ==> |pieces[i]| > 0 && pieces[i][|pieces[i]| - 1] == e
    ensures JavaSplit(Join(pieces, d), d) == pieces
  {
    SplitOnJoin(pieces, d, e);
    var s := Join(pieces, d);
    if |pieces| == 1 {
      assert s == pieces[0];
    } else {
      assert s == pieces[0] + d + Join(pieces[1..], d);
      assert StartsAt(s, d, |pieces[0]|) by {
        assert s[|pieces[0]|..|pieces[0]| + |d|] == d;
      }
      StartsAtContains(s, d, |pieces[0]|);
      assert pieces[|pieces| - 1] != "";
    }
  }
}

=== FILE: spring_providers.dfy ===
/** The two Spring clients of a chat-completion API: `OpenAIService`
    (through the OpenAI Java SDK) and `OpenRouterService` (through a
    `RestTemplate` POST). Both send the same system prompt and the same
    user prompt, and both read the first choice's content with
    `parseFlashcards`. The network call is not modelled: its outcome is a
    parameter, described by the datatypes below. */
module SpringProviders {
  import opened Wrappers
  import opened SpringParser

  const SystemPrompt: string := "You are a helpful assistant that generates flashcards from text. Create 5-10 high-quality flashcards with a question on the front and an answer on the back. Each flashcard should cover a key concept from the text. Format your response as a JSON array with objects containing \"front\" and \"back\" properties. JSON only, no extra text, tags or delimiters."

  /** Everything `buildPrompt` puts before the user's text. */
  const PromptPrefix: string := "Create flashcards from the following text. Generate 5-10 flashcards that cover the key concepts, definitions, and important information.\n\nFormat each flashcard as:\nFRONT: [question or prompt]\nBACK: [answer or explanation]\n---\n\nMake the questions clear and concise. Make the answers informative but not too long.\n\nText to process:\n"

  const Temperature: real := 0.7
  const MaxTokens: nat := 2000

  /** `buildPrompt`: the fixed instructions followed by the text. */
  function BuildPrompt(text: string): (p: string)
    ensures |p| == |PromptPrefix| + |text|
    ensures p[..|PromptPrefix|] == PromptPrefix && p[|PromptPrefix|..] == text
  {
    PromptPrefix + text
  }

  /** The text a prompt was built from, if it was built by `BuildPrompt`. */
  function TextOfPrompt(p: string): Option<string> {
    if |p| >= |PromptPrefix| && p[..|PromptPrefix|] == PromptPrefix then Some(p[|PromptPrefix|..]) else None
  }

  /** The user's text can be recovered from the prompt unchanged: the
      prompt neither loses nor alters any of it. */
  lemma PromptKeepsText(text: string)
    ensures TextOfPrompt(BuildPrompt(text)) == Some(text)
  {
  }

  /** Prompts built from different texts differ. */
  lemma BuildPromptInjective(a: string, b: string)
    requires BuildPrompt(a) == BuildPrompt(b)
    ensures a == b
  {
    PromptKeepsText(a);
    PromptKeepsText(b);
  }

  datatype ChatMessage = ChatMessage(role: string, content: string)

  /** The request both services send. */
  datatype ChatRequest = ChatRequest(model: string, messages: seq<ChatMessage>, temperature: real, maxTokens: nat)

  function CompletionRequest(model: string, text: string): (r: ChatRequest)
    ensures |r.messages| == 2
    ensures r.messages[0] == ChatMessage("system", SystemPrompt)
    ensures r.messages[1].role == "user" && TextOfPrompt(r.messages[1].content) == Some(text)
    ensures r.temperature == Temperature && r.maxTokens == MaxTokens && r.model == model
  {
    PromptKeepsText(text);
    ChatRequest(model, [ChatMessage("system", SystemPrompt), ChatMessage("user", BuildPrompt(text))], Temperature, MaxTokens)
  }

  /** How a call to a provider ends: a list of proposals (`None` is the
      `null` list Jackson returns for the reply `null`), or an exception. */
  datatype Failure =
    | Rethrown(message: string)   // the SDK's exception, thrown on unchanged
    | Wrapped(message: string)    // any exception, wrapped in a RuntimeException
    | NullContent                 // a null reply content reaches `split`
  datatype Outcome = Proposals(list: Option<seq<ProposalDto>>) | Threw(failure: Failure)

  // ---------------------------------------------------------------------
  // OpenAIService

  /** A choice of the SDK's result: its message, when there is one. */
  datatype SdkChoice = NoMessage | SdkMessage(content: Option<string>)

  /** What `createChatCompletion` does: throw, or return a result whose
      choice list may be `null`. */
  datatype SdkResult = SdkThrew(message: string) | SdkChoices(choices: Option<seq<SdkChoice>>)

  /** Whether the result carries at least one choice. */
  predicate HasChoices(result: SdkResult) {
    result.SdkChoices? && result.choices.Some? && |result.choices.value| > 0
  }

  /** `OpenAIService.generateFlashcards`: parse the first choice; no
      choices give an empty list; exceptions leave unchanged. */
  function OpenAIGenerate(decode: string -> Decoded, result: SdkResult): (o: Outcome)
    ensures result.SdkThrew? ==> o == Threw(Rethrown(result.message))
    ensures (result.SdkChoices? && !HasChoices(result)) ==> o == Proposals(Some([]))
    ensures HasChoices(result) ==>
      (match result.choices.value[0]
       case SdkMessage(Some(text)) => o == Proposals(ParseFlashcards(decode, text))
       case _ => o.Threw?)
  {
    match result
    case SdkThrew(m) => Threw(Rethrown(m))
    case SdkChoices(choices) =>
      if choices.None? || |choices.value| == 0 then Proposals(Some([]))
      else
        match choices.value[0]
        case NoMessage => Threw(Rethrown("NullPointerException"))
        case SdkMessage(None) => Threw(NullContent)
        case SdkMessage(Some(text)) => Proposals(ParseFlashcards(decode, text))
  }

  /** A first choice written in the requested text format comes back as
      exactly the cards it lists. */
  lemma OpenAIReadsTextFormatReply(decode: string -> Decoded, cards: seq<TextCard>, more: seq<SdkChoice>)
    requires forall i :: 0 <= i < |cards| ==> Renderable(cards[i])
    requires decode(RenderCards(cards)).NotAList?
    ensures OpenAIGenerate(decode, SdkChoices(Some([SdkMessage(Some(RenderCards(cards)))] + more))) ==
      Proposals(Some(seq(|cards|, i requires 0 <= i < |cards| => AsProposal(cards[i]))))
  {
    TextFormatRoundTrip(decode, cards);
  }

  // ---------------------------------------------------------------------
  // OpenRouterService

  datatype RouterChoice = RouterChoice(message: Option<Option<string>>)

  /** What `restTemplate.exchange` does: throw (which it also does for
      every 4xx and 5xx status), or return a status and a body whose
      `choices` may be missing. */
  datatype HttpReply = TransportThrew(message: string) | HttpReply(status: int, body: Option<Option<seq<RouterChoice>>>)

  const HttpOk: int := 200

  /** Whether the reply is a 200 with a body holding at least one choice. */
  predicate HasRouterChoices(reply: HttpReply) {
    reply.HttpReply? && reply.status == HttpOk && reply.body.Some? && reply.body.value.Some? &&
    |reply.body.value.value| > 0
  }

  /** `OpenRouterService.generateFlashcards`: a 200 reply with choices is
      parsed, any other reply gives an empty list, and every exception,
      including those of parsing, is wrapped. */
  function OpenRouterGenerate(decode: string -> Decoded, reply: HttpReply): (o: Outcome)
    ensures reply.TransportThrew? ==> o == Threw(Wrapped(reply.message))
    ensures o.Threw? ==> o.failure.Wrapped?
    ensures (reply.HttpReply? && !HasRouterChoices(reply)) ==> o == Proposals(Some([]))
    ensures HasRouterChoices(reply) ==>
      (match reply.body.value.value[0].message
       case Some(Some(text)) => o == Proposals(ParseFlashcards(decode, text))
       case _ => o.Threw?)
  {
    match reply
    case TransportThrew(m) => Threw(Wrapped(m))
    case HttpReply(status, body) =>
      if status == HttpOk && body.Some? && body.value.Some? && |body.value.value| > 0 then
        match body.value.value[0].message
        case None => Threw(Wrapped("NullPointerException"))
        case Some(None) => Threw(Wrapped("NullPointerException"))
        case Some(Some(text)) => Proposals(ParseFlashcards(decode, text))
      else Proposals(Some([]))
  }

  /** The two services read the same first-choice text the same way. */
  lemma ProvidersAgreeOnContent(decode: string -> Decoded, text: string)
    ensures OpenAIGenerate(decode, SdkChoices(Some([SdkMessage(Some(text))]))) ==
      OpenRouterGenerate(decode, HttpReply(HttpOk, Some(Some([RouterChoice(Some(Some(text)))]))))
  {
  }
}

=== FILE: spring_store.dfy ===
/** The Spring back end's generations and flashcards: the two JPA entities
    held as maps keyed by id, and the two REST controllers over them
    (`GenerationController`, `FlashcardController`). Every repository
    lookup is scoped by the caller, so another user's row is as absent as
    a missing one. The clock, the generation's display name and the elapsed
    time are parameters; the AI provider's outcome comes from
    `SpringProviders.OpenAIGenerate`. */
module SpringStore {
  import opened Wrappers
  import opened Sources
  import opened SpringParser
  import opened SpringProviders
  import opened Durations
  import opened Ordering
  import Text

  type UserId = nat

  /** A `generations` row. The three counters default to 0 in the entity
      and no Spring code path sets them; the last four columns are
      declared `nullable = false` and have no default. The duration is
      held as its ISO-8601 text. */
  datatype Generation = Generation(
    owner: UserId, name: string, createdAt: int,
    generatedCount: int, acceptedUneditedCount: int, acceptedEditedCount: int,
    sourceTextLength: int, generationDuration: string, model: string, sourceTextHash: string)

  /** A `flashcards` row; `generation` is the nullable `generation_id`. */
  datatype Card = Card(
    front: string, back: string, source: FlashcardSource, displayOrder: int,
    owner: UserId, generation: Option<nat>)

  /** Both tables and their identity sequences. */
  datatype Store = Store(
    generations: map<nat, Generation>, cards: map<nat, Card>,
    nextGeneration: nat, nextCard: nat)

  /** Ids stay below their sequence, and a card's generation exists and
      belongs to the card's owner. */
  predicate Valid(st: Store) {
    (forall g :: g in st.generations ==> g < st.nextGeneration) &&
    (forall c :: c in st.cards ==> c < st.nextCard) &&
    (forall c :: c in st.cards && st.cards[c].generation.Some? ==>
      st.cards[c].generation.value in st.generations &&
      st.generations[st.cards[c].generation.value].owner == st.cards[c].owner)
  }

  /** The HTTP outcome of a controller method: 200 with data, 401, 404,
      500 with the error text of `ApiResponse.error`, or the framework's
      400 for a request body that fails Bean Validation (its body is
      Spring's default error document, not an `ApiResponse`), or the
      framework's 500 when a transaction that a repository call marked
      rollback-only fails to commit after the controller has returned,
      discarding the controller's reply. */
  datatype Reply<T> =
    | Success(data: T) | Unauthorized(error: string) | NotFound | ServerError(error: string) | BadRequest
    | CommitFailed

  /** The store after a request, and the reply. */
  datatype Step<T> = Step(store: Store, reply: Reply<T>)

  const UserNotFound: string := "User not found"

  /** Whether `user` owns generation `g`: what `findByIdAndUser` finds. */
  predicate OwnsGeneration(st: Store, user: UserId, g: nat) {
    g in st.generations && st.generations[g].owner == user
  }

  /** Whether `user` owns card `c`. */
  predicate OwnsCard(st: Store, user: UserId, c: nat) {
    c in st.cards && st.cards[c].owner == user
  }

  // ---------------------------------------------------------------------
  // DTOs

  /** `FlashcardDTO`; `generationId` is left out of the JSON when `None`. */
  datatype CardDto = CardDto(id: nat, front: string, back: string, source: string, displayOrder: int, generationId: Option<nat>)

  /** `convertFlashcardToDTO` / `convertToDTO`. */
  function ToDto(id: nat, c: Card): (d: CardDto)
    ensures d.generationId.Some? <==> c.generation.Some?
    ensures FromValue(Some(d.source)) == Ok(c.source)
  {
    FromValueOfValue(c.source);
    CardDto(id, c.front, c.back, Value(c.source), c.displayOrder, c.generation)
  }

  /** `convertGenerationToMap`, without the formatted timestamps. */
  datatype GenerationSummary = GenerationSummary(id: nat, name: string, createdAt: int, owner: UserId)

  function Summary(id: nat, g: Generation): GenerationSummary {
    GenerationSummary(id, g.name, g.createdAt, g.owner)
  }

  function SummaryIds(xs: seq<GenerationSummary>): seq<nat> {
    seq(|xs|, k requires 0 <= k < |xs| => xs[k].id)
  }

  function DtoIds(xs: seq<CardDto>): seq<nat> {
    seq(|xs|, k requires 0 <= k < |xs| => xs[k].id)
  }

  // ---------------------------------------------------------------------
  // POST /api/generations

  datatype GenerationStats = GenerationStats(generatedCount: int, generationDuration: string)
  datatype GenerationResult = GenerationResult(
    generationId: nat, generationName: string, proposals: seq<ProposalDto>, stats: GenerationStats)

  const GenerateFailed: string := "Failed to generate flashcards"

  /** A new `Generation` entity before it is saved: name and owner, and
      the four `nullable = false` columns without a default, unset until a
      setter is called. */
  datatype NewGeneration = NewGeneration(
    owner: UserId, name: string, sourceTextLength: Option<int>, generationDuration: Option<string>,
    model: Option<string>, sourceTextHash: Option<string>)

  /** Every `nullable = false` column without a default has a value. */
  predicate NotNullColumnsSet(e: NewGeneration) {
    e.sourceTextLength.Some? && e.generationDuration.Some? && e.model.Some? && e.sourceTextHash.Some?
  }

  /** `generationRepository.save` of a new entity: the insert is refused
      when a NOT NULL column has no value, or when the database fails;
      otherwise the row gets the next id, the creation time and zero
      counters. */
  function SaveGeneration(st: Store, e: NewGeneration, now: int, dbFails: bool): (r: Option<Store>)
    ensures r.Some? <==> NotNullColumnsSet(e) && !dbFails
    ensures r.Some? ==>
      r.value == st.(generations := st.generations[st.nextGeneration := Generation(
                        e.owner, e.name, now, 0, 0, 0, e.sourceTextLength.value, e.generationDuration.value,
                        e.model.value, e.sourceTextHash.value)],
                     nextGeneration := st.nextGeneration + 1)
  {
    if !NotNullColumnsSet(e) || dbFails then None
    else
      Some(st.(generations := st.generations[st.nextGeneration := Generation(
                  e.owner, e.name, now, 0, 0, 0, e.sourceTextLength.value, e.generationDuration.value,
                  e.model.value, e.sourceTextHash.value)],
               nextGeneration := st.nextGeneration + 1))
  }

  /** The request flow of `generateFlashcards` over a given entity: call
      the provider, save the entity, then report the proposals. A
      provider exception or a refused save leaves the store as it was; a
      `null` list fails only at `proposals.size()`, after the save. */
  function GenerateWith(
    st: Store, user: Option<UserId>, decode: string -> Decoded, result: SdkResult,
    e: NewGeneration, now: int, nanos: int, dbFails: bool): (s: Step<GenerationResult>)
    requires user.Some? ==> e.owner == user.value
    ensures user.None? ==> s == Step(st, Unauthorized(UserNotFound))
    ensures user.Some? && (OpenAIGenerate(decode, result).Threw? || SaveGeneration(st, e, now, dbFails).None?) ==>
      s == Step(st, ServerError(GenerateFailed))
    ensures user.Some? && OpenAIGenerate(decode, result).Proposals? && SaveGeneration(st, e, now, dbFails).Some? ==>
      s.store == SaveGeneration(st, e, now, dbFails).value
    ensures s.reply.Success? <==> (user.Some? && OpenAIGenerate(decode, result).Proposals? &&
      OpenAIGenerate(decode, result).list.Some? && SaveGeneration(st, e, now, dbFails).Some?)
    ensures !s.reply.Success? && s.reply != Unauthorized(UserNotFound) ==> s.reply == ServerError(GenerateFailed)
    ensures s.reply.Success? ==>
      (s.reply.data.generationId == st.nextGeneration && s.reply.data.generationName == e.name &&
       s.reply.data.proposals == OpenAIGenerate(decode, result).list.value &&
       s.reply.data.stats.generatedCount == |s.reply.data.proposals| &&
       ParseIsoSeconds(s.reply.data.stats.generationDuration) == Some(FloorSeconds(nanos)))
  {
    if user.None? then Step(st, Unauthorized(UserNotFound))
    else
      match OpenAIGenerate(decode, result)
      case Threw(_) => Step(st, ServerError(GenerateFailed))
      case Proposals(list) =>
        match SaveGeneration(st, e, now, dbFails)
        case None => Step(st, ServerError(GenerateFailed))
        case Some(saved) =>
          if list.None? then Step(saved, ServerError(GenerateFailed))
          else
            IsoSecondsRoundTrip(FloorSeconds(nanos));
            var stats := GenerationStats(|list.value|, SpringDuration(nanos));
            Step(saved, Success(GenerationResult(st.nextGeneration, e.name, list.value, stats)))
  }

  /** The constraints of `GenerateFlashcardsCommand`, checked by `@Valid`
      before the controller runs: text present, not blank after Java's
      `trim`, and 1000 to 10000 characters long as sent. */
  predicate GenerateCommandValid(text: Option<string>) {
    text.Some? && Text.JavaTrim(text.value) != "" && 1000 <= |text.value| <= 10000
  }

  /** `generateFlashcards` as written: the entity gets only a name and an
      owner, so none of the four NOT NULL columns without a default is
      set and every save is refused. */
  function GenerateFlashcardsAsWritten(
    st: Store, user: Option<UserId>, text: Option<string>, decode: string -> Decoded, result: SdkResult,
    name: string, now: int, nanos: int, dbFails: bool): (s: Step<GenerationResult>)
    ensures !GenerateCommandValid(text) ==> s == Step(st, BadRequest)
    ensures GenerateCommandValid(text) && user.None? ==> s == Step(st, Unauthorized(UserNotFound))
    ensures GenerateCommandValid(text) && user.Some? ==> s == Step(st, ServerError(GenerateFailed))
  {
    if !GenerateCommandValid(text) then Step(st, BadRequest)
    else
      var e := NewGeneration(if user.Some? then user.value else 0, name, None, None, None, None);
      GenerateWith(st, user, decode, result, e, now, nanos, dbFails)
  }

  /** Even with a valid request, a provider that returns cards and a
      database that accepts every valid insert, the endpoint as written
      answers 500 and stores nothing, where the corrected one succeeds. */
  lemma GenerateFlashcardsAsWrittenNeverSucceeds(
    st: Store, user: UserId, text: string, decode: string -> Decoded, result: SdkResult, name: string, now: int, nanos: int)
    requires GenerateCommandValid(Some(text))
    requires OpenAIGenerate(decode, result).Proposals? && OpenAIGenerate(decode, result).list.Some?
    ensures var s := GenerateFlashcardsAsWritten(st, Some(user), Some(text), decode, result, name, now, nanos, false);
      s.reply == ServerError(GenerateFailed) && s.store == st
    ensures GenerateFlashcards(st, Some(user), Some(text), decode, result, name, now, nanos,
                               (t: string) => t, "m", false).reply.Success?
  {
  }

  /** `generateFlashcards` with the entity's columns filled, as the
      entity declares them and as the Node service fills them: the source
      text's length and hash, the duration and the model. A provider
      exception or a failed save leaves the store as it was; otherwise a
      row holding those values is saved before the list is reported. */
  function GenerateFlashcards(
    st: Store, user: Option<UserId>, text: Option<string>, decode: string -> Decoded, result: SdkResult,
    name: string, now: int, nanos: int, hash: string -> string, model: string,
    dbFails: bool): (s: Step<GenerationResult>)
    ensures !GenerateCommandValid(text) ==> s == Step(st, BadRequest)
    ensures GenerateCommandValid(text) && user.None? ==> s == Step(st, Unauthorized(UserNotFound))
    ensures (GenerateCommandValid(text) && user.Some? && (OpenAIGenerate(decode, result).Threw? || dbFails)) ==>
      s == Step(st, ServerError(GenerateFailed))
    ensures (GenerateCommandValid(text) && user.Some? && OpenAIGenerate(decode, result).Proposals? && !dbFails) ==>
      (s.store.generations == st.generations[st.nextGeneration := Generation(
         user.value, name, now, 0, 0, 0, |text.value|, SpringDuration(nanos), model, hash(text.value))] &&
       s.store.cards == st.cards && s.store.nextGeneration == st.nextGeneration + 1 &&
       s.store.nextCard == st.nextCard)
    ensures (GenerateCommandValid(text) && user.Some? && OpenAIGenerate(decode, result) == Proposals(None)) ==>
      s.reply == ServerError(GenerateFailed)
    ensures s.reply.Success? <==> (GenerateCommandValid(text) && user.Some? && OpenAIGenerate(decode, result).Proposals? &&
      OpenAIGenerate(decode, result).list.Some? && !dbFails)
    ensures s.reply.Success? ==>
      (s.reply.data.generationId == st.nextGeneration && s.reply.data.generationName == name &&
       s.reply.data.proposals == OpenAIGenerate(decode, result).list.value &&
       s.reply.data.stats.generatedCount == |s.reply.data.proposals| &&
       ParseIsoSeconds(s.reply.data.stats.generationDuration) == Some(FloorSeconds(nanos)))
    ensures Valid(st) ==> Valid(s.store)
  {
    if !GenerateCommandValid(text) then Step(st, BadRequest)
    else
      var e := NewGeneration(if user.Some? then user.value else 0, name, Some(|text.value|), Some(SpringDuration(nanos)),
                             Some(model), Some(hash(text.value)));
      GenerateWith(st, user, decode, result, e, now, nanos, dbFails)
  }

  /** A generation just created is readable by its owner and holds no
      cards yet: no existing card can point at a fresh id. */
  lemma {:induction false} GeneratedGenerationIsEmpty(
    st: Store, user: UserId, text: Option<string>, decode: string -> Decoded, result: SdkResult,
    name: string, now: int, nanos: int, hash: string -> string, model: string)
    requires Valid(st) && GenerateCommandValid(text)
    requires OpenAIGenerate(decode, result).Proposals? && OpenAIGenerate(decode, result).list.Some?
    ensures var s := GenerateFlashcards(st, Some(user), text, decode, result, name, now, nanos, hash, model, false);
      var r := GetGeneration(s.store, Some(user), s.reply.data.generationId);
      r.Success? && r.data.cards == []
  {
    var s := GenerateFlashcards(st, Some(user), text, decode, result, name, now, nanos, hash, model, false);
    var id := s.reply.data.generationId;
    assert OwnsGeneration(s.store, user, id);
    var r := GetGeneration(s.store, Some(user), id);
    forall c | c in s.store.cards
      ensures s.store.cards[c].generation != Some(id)
    {
      assert c in st.cards;
    }
  }

  // ---------------------------------------------------------------------
  // GET /api/generations and GET /api/generations/{id}

  function OwnedBy(st: Store, user: UserId): nat -> bool {
    (g: nat) => OwnsGeneration(st, user, g)
  }

  /** `-createdAt`, so that ascending order is newest first. */
  function NewestFirstKey(st: Store): nat -> int {
    (g: nat) => if g in st.generations then -st.generations[g].createdAt else 0
  }

  /** `findByUserOrderByCreatedAtDesc`. */
  function GenerationIdsOf(st: Store, user: UserId): (ids: seq<nat>)
    ensures Distinct(ids)
    ensures forall k :: 0 <= k < |ids| ==> OwnsGeneration(st, user, ids[k])
    ensures Valid(st) ==> forall g :: OwnsGeneration(st, user, g) ==> g in ids
    ensures forall i, j :: 0 <= i < j < |ids| && ids[i] in st.generations && ids[j] in st.generations ==>
      st.generations[ids[i]].createdAt >= st.generations[ids[j]].createdAt
  {
    SortedIds(st.nextGeneration, OwnedBy(st, user), NewestFirstKey(st));
    SortBy<nat>(IdsBelow(st.nextGeneration, OwnedBy(st, user)), NewestFirstKey(st))
  }

  /** The summaries of the listed generations, in the listed order. */
  function Summaries(st: Store, ids: seq<nat>): (out: seq<GenerationSummary>)
    requires forall k :: 0 <= k < |ids| ==> ids[k] in st.generations
    ensures |out| == |ids|
    ensures forall k :: 0 <= k < |ids| ==> out[k] == Summary(ids[k], st.generations[ids[k]])
  {
    seq(|ids|, k requires 0 <= k < |ids| => Summary(ids[k], st.generations[ids[k]]))
  }

  /** `getGenerations`: the caller's generations, newest first. */
  function GetGenerations(st: Store, user: Option<UserId>): (r: Reply<seq<GenerationSummary>>)
    ensures user.None? <==> r == Unauthorized(UserNotFound)
    ensures user.Some? ==> r.Success?
    ensures r.Success? ==>
      (Distinct(SummaryIds(r.data)) &&
       (forall k :: 0 <= k < |r.data| ==>
          OwnsGeneration(st, user.value, r.data[k].id) &&
          r.data[k] == Summary(r.data[k].id, st.generations[r.data[k].id])) &&
       (Valid(st) ==> forall g :: OwnsGeneration(st, user.value, g) ==> g in SummaryIds(r.data)) &&
       (forall i, j :: 0 <= i < j < |r.data| ==> r.data[i].createdAt >= r.data[j].createdAt))
  {
    if user.None? then Unauthorized(UserNotFound)
    else
      var ids := GenerationIdsOf(st, user.value);
      var out := Summaries(st, ids);
      assert SummaryIds(out) == ids;
      Success(out)
  }

  function InGeneration(st: Store, g: nat): nat -> bool {
    (c: nat) => c in st.cards && st.cards[c].generation == Some(g)
  }

  function DisplayOrderKey(st: Store): nat -> int {
    (c: nat) => if c in st.cards then st.cards[c].displayOrder else 0
  }

  /** `findByGenerationOrderByDisplayOrder`. */
  function CardIdsOf(st: Store, g: nat): (ids: seq<nat>)
    ensures Distinct(ids)
    ensures forall k :: 0 <= k < |ids| ==> ids[k] in st.cards && st.cards[ids[k]].generation == Some(g)
    ensures Valid(st) ==> forall c :: c in st.cards && st.cards[c].generation == Some(g) ==> c in ids
    ensures forall i, j :: 0 <= i < j < |ids| && ids[i] in st.cards && ids[j] in st.cards ==>
      st.cards[ids[i]].displayOrder <= st.cards[ids[j]].displayOrder
  {
    SortedIds(st.nextCard, InGeneration(st, g), DisplayOrderKey(st));
    SortBy<nat>(IdsBelow(st.nextCard, InGeneration(st, g)), DisplayOrderKey(st))
  }

  /** The DTOs of the listed cards, in the listed order. */
  function CardDtos(st: Store, ids: seq<nat>): (ds: seq<CardDto>)
    requires forall k :: 0 <= k < |ids| ==> ids[k] in st.cards
    ensures |ds| == |ids|
    ensures forall k :: 0 <= k < |ids| ==> ds[k] == ToDto(ids[k], st.cards[ids[k]])
  {
    seq(|ids|, k requires 0 <= k < |ids| => ToDto(ids[k], st.cards[ids[k]]))
  }

  datatype GenerationDetail = GenerationDetail(summary: GenerationSummary, cards: seq<CardDto>)

  /** `getGeneration`: 404 unless the caller owns the generation; otherwise
      its cards in display order. */
  function GetGeneration(st: Store, user: Option<UserId>, id: nat): (r: Reply<GenerationDetail>)
    ensures user.None? <==> r == Unauthorized(UserNotFound)
    ensures user.Some? ==> (r.NotFound? <==> !OwnsGeneration(st, user.value, id))
    ensures r.Success? ==>
      (r.data.summary == Summary(id, st.generations[id]) &&
       Distinct(DtoIds(r.data.cards)) &&
       (forall k :: 0 <= k < |r.data.cards| ==>
          r.data.cards[k].id in st.cards && st.cards[r.data.cards[k].id].generation == Some(id) &&
          r.data.cards[k] == ToDto(r.data.cards[k].id, st.cards[r.data.cards[k].id])) &&
       (Valid(st) ==> forall c :: c in st.cards && st.cards[c].generation == Some(id) ==> c in DtoIds(r.data.cards)) &&
       (forall i, j :: 0 <= i < j < |r.data.cards| ==> r.data.cards[i].displayOrder <= r.data.cards[j].displayOrder))
  {
    if user.None? then Unauthorized(UserNotFound)
    else if !OwnsGeneration(st, user.value, id) then NotFound
    else
      var ids := CardIdsOf(st, id);
      var cards := CardDtos(st, ids);
      assert DtoIds(cards) == ids;
      Success(GenerationDetail(Summary(id, st.generations[id]), cards))
  }

  // ---------------------------------------------------------------------
  // PUT /api/generations/{id}

  /** One element of the request's `flashcards` list; a key the element
      leaves out or sends as `null` is `None`. */
  datatype UpdateItem = UpdateItem(front: Option<string>, back: Option<string>, source: Option<string>)

  const UpdateDone: string := "Generation updated successfully"
  const UpdateFailed: string := "Failed to update generation"

  /** A value the `front` and `back` columns accept: they are declared
      `nullable = false, length = 1000`. */
  predicate FitsSideColumn(v: Option<string>) {
    v.Some? && |v.value| <= 1000
  }

  /** An item the loop saves: `fromValue` accepts its source, and the
      insert accepts its front and back. */
  predicate Storable(item: UpdateItem) {
    FromValue(item.source).Ok? && FitsSideColumn(item.front) && FitsSideColumn(item.back)
  }

  /** The index of the first item the loop cannot save, or the number of
      items when there is none. */
  function FirstInvalid(items: seq<UpdateItem>): (k: nat)
    ensures k <= |items|
    ensures forall i :: 0 <= i < k ==> Storable(items[i])
    ensures k < |items| ==> !Storable(items[k])
  {
    if |items| == 0 then 0
    else if !Storable(items[0]) then 0
    else 1 + FirstInvalid(items[1..])
  }

  /** The card the loop saves for item `i`. */
  function ItemCard(item: UpdateItem, i: nat, user: UserId, g: nat): Card
    requires Storable(item)
  {
    Card(item.front.value, item.back.value, FromValue(item.source).value, i + 1, user, Some(g))
  }

  function ItemCards(items: seq<UpdateItem>, user: UserId, g: nat): (cs: seq<Card>)
    requires forall i :: 0 <= i < |items| ==> Storable(items[i])
  {
    seq(|items|, i requires 0 <= i < |items| => ItemCard(items[i], i, user, g))
  }

  /** `deleteByGeneration`. */
  function WithoutCardsOf(cards: map<nat, Card>, g: nat): (r: map<nat, Card>)
    ensures forall c :: c in r <==> c in cards && cards[c].generation != Some(g)
    ensures forall c :: c in r ==> r[c] == cards[c]
  {
    map c | c in cards && cards[c].generation != Some(g) :: cards[c]
  }

  /** `cs` under the consecutive ids starting at `next`. */
  function Numbered(next: nat, cs: seq<Card>): (m: map<nat, Card>)
    ensures forall c :: c in m <==> next <= c < next + |cs|
    ensures forall i :: 0 <= i < |cs| ==> m[next + i] == cs[i]
  {
    if |cs| == 0 then map[]
    else Numbered(next, cs[..|cs| - 1])[next + |cs| - 1 := cs[|cs| - 1]]
  }

  /** Saves `cs` in order under fresh ids. */
  function Append(st: Store, cs: seq<Card>): (r: Store)
    ensures r.generations == st.generations && r.nextGeneration == st.nextGeneration
    ensures r.nextCard == st.nextCard + |cs|
    ensures forall c :: c in r.cards <==> c in st.cards || st.nextCard <= c < st.nextCard + |cs|
    ensures forall i :: 0 <= i < |cs| ==> r.cards[st.nextCard + i] == cs[i]
    ensures Valid(st) ==> forall c :: c in st.cards ==> r.cards[c] == st.cards[c]
  {
    st.(cards := st.cards + Numbered(st.nextCard, cs), nextCard := st.nextCard + |cs|)
  }

  /** Deletes the generation's cards, then saves `cs` in order. */
  function Replace(st: Store, g: nat, cs: seq<Card>): Store {
    Append(st.(cards := WithoutCardsOf(st.cards, g)), cs)
  }

  /** `Replace` keeps the invariant when the new cards belong to an existing
      generation of their owner. */
  lemma ReplaceValid(st: Store, g: nat, cs: seq<Card>)
    requires Valid(st)
    requires forall i :: 0 <= i < |cs| ==> cs[i].generation == Some(g) && OwnsGeneration(st, cs[i].owner, g)
    ensures Valid(Replace(st, g, cs))
  {
    var mid := st.(cards := WithoutCardsOf(st.cards, g));
    assert Valid(mid);
    var r := Replace(st, g, cs);
    forall c | c in r.cards && r.cards[c].generation.Some?
      ensures r.cards[c].generation.value in r.generations
      ensures r.generations[r.cards[c].generation.value].owner == r.cards[c].owner
    {
      if c < st.nextCard {
        assert c in mid.cards;
      } else {
        assert r.cards[c] == cs[c - st.nextCard];
      }
    }
  }

  /** After `Replace` the generation holds exactly the new cards, and every
      other card is untouched. */
  lemma ReplaceContents(st: Store, g: nat, cs: seq<Card>)
    requires Valid(st)
    requires forall i :: 0 <= i < |cs| ==> cs[i].generation == Some(g)
    ensures var r := Replace(st, g, cs);
      (forall c :: (c in r.cards && r.cards[c].generation == Some(g)) <==> st.nextCard <= c < st.nextCard + |cs|) &&
      (forall c :: c in st.cards && st.cards[c].generation != Some(g) ==> c in r.cards && r.cards[c] == st.cards[c])
  {
    var mid := st.(cards := WithoutCardsOf(st.cards, g));
    var r := Replace(st, g, cs);
    forall c ensures (c in r.cards && r.cards[c].generation == Some(g)) <==> st.nextCard <= c < st.nextCard + |cs| {
      if st.nextCard <= c < st.nextCard + |cs| {
        assert r.cards[st.nextCard + (c - st.nextCard)] == cs[c - st.nextCard];
      }
    }
  }

  /** Whether the cards from `next` on are `items`, in order, as the update
      loop saves them. */
  predicate HoldsItems(cards: map<nat, Card>, next: nat, items: seq<UpdateItem>, user: UserId, g: nat) {
    forall i :: 0 <= i < |items| ==>
      next + i in cards &&
      Some(cards[next + i].front) == items[i].front &&
      Some(cards[next + i].back) == items[i].back &&
      Some(Value(cards[next + i].source)) == items[i].source &&
      cards[next + i].displayOrder == i + 1 &&
      cards[next + i].owner == user &&
      cards[next + i].generation == Some(g)
  }

  /** `updateGeneration` as the controller is written: the old cards are
      deleted, and the items are saved one by one until one fails.
      - `fromValue` throws on an unknown source before the item is saved.
        The exception is caught inside the `@Transactional` method, which
        then returns normally, so the deletion and the cards saved so far
        are committed although the reply is 500.
      - An insert refused for a null or over-long front or back throws out
        of the repository, whose own transactional proxy marks the shared
        transaction rollback-only. The controller's 500 is then lost: the
        commit fails and nothing is kept. */
  function UpdateGenerationAsWritten(st: Store, user: Option<UserId>, id: nat, flashcards: Option<seq<UpdateItem>>): (s: Step<string>)
    ensures user.None? ==> s == Step(st, Unauthorized(UserNotFound))
    ensures (user.Some? && !OwnsGeneration(st, user.value, id)) ==> s == Step(st, NotFound)
    ensures (user.Some? && OwnsGeneration(st, user.value, id)) ==>
      var items := flashcards.GetOr([]);
      var k := FirstInvalid(items);
      if k < |items| && FromValue(items[k].source).Ok? then s == Step(st, CommitFailed)
      else
        s.store == Replace(st, id, ItemCards(items[..k], user.value, id)) &&
        s.reply == (if k < |items| then ServerError(UpdateFailed) else Success(UpdateDone))
  {
    if user.None? then Step(st, Unauthorized(UserNotFound))
    else if !OwnsGeneration(st, user.value, id) then Step(st, NotFound)
    else
      var items := flashcards.GetOr([]);
      var k := FirstInvalid(items);
      if k < |items| && FromValue(items[k].source).Ok? then Step(st, CommitFailed)
      else
        var saved := Replace(st, id, ItemCards(items[..k], user.value, id));
        if k < |items| then Step(saved, ServerError(UpdateFailed)) else Step(saved, Success(UpdateDone))
  }

  /** A front one character over the column's length is refused by the
      insert; as written, the whole request is rolled back, old cards
      included. */
  lemma UpdateGenerationAsWrittenRollsBackLongSide(st: Store, user: UserId, id: nat, source: string)
    requires OwnsGeneration(st, user, id) && FromValue(Some(source)).Ok?
    ensures var items := [UpdateItem(Some(seq(1001, _ => 'x')), Some("b"), Some(source))];
      UpdateGenerationAsWritten(st, Some(user), id, Some(items)) == Step(st, CommitFailed)
  {
    var items := [UpdateItem(Some(seq(1001, _ => 'x')), Some("b"), Some(source))];
    assert !Storable(items[0]);
    assert FirstInvalid(items) == 0;
  }

  /** A request whose second item has an unknown source is answered with 500
      and yet has deleted the generation's old card and saved the first
      item. */
  lemma UpdateGenerationAsWrittenCommitsPartially()
    ensures var st := Store(map[0 := Generation(1, "g", 0, 0, 0, 0, 0, "PT0S", "m", "h")],
                            map[0 := Card("old", "card", Manual, 1, 1, Some(0))], 1, 1);
            var items := [UpdateItem(Some("q"), Some("a"), Some("ai-full")), UpdateItem(Some("q2"), Some("a2"), Some("AI-FULL"))];
            var s := UpdateGenerationAsWritten(st, Some(1), 0, Some(items));
            s.reply == ServerError(UpdateFailed) &&
            0 !in s.store.cards && s.store.cards[1] == Card("q", "a", AiFull, 1, 1, Some(0))
  {
    var items := [UpdateItem(Some("q"), Some("a"), Some("ai-full")), UpdateItem(Some("q2"), Some("a2"), Some("AI-FULL"))];
    assert FirstInvalid(items[1..]) == 0;
    assert FirstInvalid(items) == 1;
  }

  /** `updateGeneration` as its `@Transactional` annotation intends: every
      item is checked before anything is written (its source, and its front
      and back against the columns), so a request either replaces the
      generation's cards entirely, with display orders 1..N in request
      order, or changes nothing. A missing `flashcards` key deletes every
      card and succeeds. */
  function UpdateGeneration(st: Store, user: Option<UserId>, id: nat, flashcards: Option<seq<UpdateItem>>): (s: Step<string>)
    ensures user.None? ==> s == Step(st, Unauthorized(UserNotFound))
    ensures (user.Some? && !OwnsGeneration(st, user.value, id)) ==> s == Step(st, NotFound)
    ensures s.reply.ServerError? ==> s.store == st
    ensures (user.Some? && OwnsGeneration(st, user.value, id)) ==>
      (s.reply.Success? <==> forall i :: 0 <= i < |flashcards.GetOr([])| ==> Storable(flashcards.GetOr([])[i]))
    ensures s.reply.Success? ==>
      (s.reply.data == UpdateDone &&
       s.store.generations == st.generations &&
       HoldsItems(s.store.cards, st.nextCard, flashcards.GetOr([]), user.value, id))
    ensures (s.reply.Success? && Valid(st)) ==>
      ((forall c :: (c in s.store.cards && s.store.cards[c].generation == Some(id)) <==>
          st.nextCard <= c < st.nextCard + |flashcards.GetOr([])|) &&
       (forall c :: c in st.cards && st.cards[c].generation != Some(id) ==>
          c in s.store.cards && s.store.cards[c] == st.cards[c]))
    ensures Valid(st) ==> Valid(s.store)
  {
    if user.None? then Step(st, Unauthorized(UserNotFound))
    else if !OwnsGeneration(st, user.value, id) then Step(st, NotFound)
    else
      var items := flashcards.GetOr([]);
      if FirstInvalid(items) < |items| then Step(st, ServerError(UpdateFailed))
      else
        var cs := ItemCards(items, user.value, id);
        var r := Replace(st, id, cs);
        ItemsSaved(st, items, user.value, id);
        if Valid(st) then
          ReplaceValid(st, id, cs);
          ReplaceContents(st, id, cs);
          Step(r, Success(UpdateDone))
        else Step(r, Success(UpdateDone))
  }

  /** Saving the converted items puts each at its place in the sequence. */
  lemma ItemsSaved(st: Store, items: seq<UpdateItem>, user: UserId, g: nat)
    requires forall i :: 0 <= i < |items| ==> Storable(items[i])
    ensures HoldsItems(Replace(st, g, ItemCards(items, user, g)).cards, st.nextCard, items, user, g)
  {
    var cs := ItemCards(items, user, g);
    var r := Replace(st, g, cs);
    forall i | 0 <= i < |items|
      ensures st.nextCard + i in r.cards && r.cards[st.nextCard + i] == cs[i]
      ensures Some(Value(cs[i].source)) == items[i].source
    {
      assert cs[i] == ItemCard(items[i], i, user, g);
    }
  }

  /** A generation whose cards are exactly the ids `n .. n+len-1`,
      numbered 1..len, lists them in that order. */
  lemma CardIdsOfRange(st: Store, g: nat, n: nat, len: nat)
    requires st.nextCard == n + len
    requires forall c :: (c in st.cards && st.cards[c].generation == Some(g)) <==> n <= c < n + len
    requires forall c :: n <= c < n + len ==> c in st.cards && st.cards[c].displayOrder == c - n + 1
    ensures CardIdsOf(st, g) == seq(len, k requires 0 <= k < len => n + k)
  {
    var members := MembersOfRange(st, g, n, len);
    assert SortedBy(members, DisplayOrderKey(st)) by {
      forall i, j | 0 <= i < j < |members|
        ensures DisplayOrderKey(st)(members[i]) <= DisplayOrderKey(st)(members[j])
      {
        assert st.cards[n + i].displayOrder == i + 1;
        assert st.cards[n + j].displayOrder == j + 1;
      }
    }
    SortBySorted(members, DisplayOrderKey(st));
  }

  /** The cards of a generation that holds exactly the ids `n..n+len-1`,
      in ascending order of id. */
  lemma MembersOfRange(st: Store, g: nat, n: nat, len: nat) returns (members: seq<nat>)
    requires st.nextCard == n + len
    requires forall c :: (c in st.cards && st.cards[c].generation == Some(g)) <==> n <= c < n + len
    ensures members == IdsBelow(st.nextCard, InGeneration(st, g))
    ensures members == seq(len, k requires 0 <= k < len => n + k)
  {
    var keep := InGeneration(st, g);
    forall i: nat | i < st.nextCard ensures keep(i) <==> n <= i {
      assert keep(i) <==> (i in st.cards && st.cards[i].generation == Some(g));
    }
    IdsBelowRange(st.nextCard, n, keep);
    members := IdsBelow(st.nextCard, keep);
    assert members == seq(len, k requires 0 <= k < len => n + k);
  }

  /** The saved items carry the display orders 1..N. */
  lemma SavedOrders(cards: map<nat, Card>, user: UserId, g: nat, n: nat, items: seq<UpdateItem>)
    requires HoldsItems(cards, n, items, user, g)
    ensures forall c :: n <= c < n + |items| ==> c in cards && cards[c].displayOrder == c - n + 1
  {
    forall c | n <= c < n + |items|
      ensures c in cards && cards[c].displayOrder == c - n + 1
    {
      var i := c - n;
      assert items[i] == items[i];
    }
  }

  /** A generation holding exactly the saved items reads back as them. */
  lemma ReadBackItems(st: Store, user: UserId, g: nat, n: nat, items: seq<UpdateItem>)
    requires OwnsGeneration(st, user, g)
    requires st.nextCard == n + |items|
    requires HoldsItems(st.cards, n, items, user, g)
    requires forall c :: (c in st.cards && st.cards[c].generation == Some(g)) <==> n <= c < n + |items|
    ensures var r := GetGeneration(st, Some(user), g);
      r.Success? && |r.data.cards| == |items| &&
      forall i :: 0 <= i < |items| ==>
        Some(r.data.cards[i].front) == items[i].front && Some(r.data.cards[i].back) == items[i].back &&
        Some(r.data.cards[i].source) == items[i].source && r.data.cards[i].displayOrder == i + 1
  {
    SavedOrders(st.cards, user, g, n, items);
    CardIdsOfRange(st, g, n, |items|);
    var ids := CardIdsOf(st, g);
    var cards := CardDtos(st, ids);
    assert GetGeneration(st, Some(user), g) == Success(GenerationDetail(Summary(g, st.generations[g]), cards));
    DtosMatchItems(st, ids, n, items, user, g);
  }

  /** The DTOs of the ids `n ..` are the saved items. */
  lemma DtosMatchItems(st: Store, ids: seq<nat>, n: nat, items: seq<UpdateItem>, user: UserId, g: nat)
    requires HoldsItems(st.cards, n, items, user, g)
    requires ids == seq(|items|, k requires 0 <= k < |items| => n + k)
    requires forall k :: 0 <= k < |ids| ==> ids[k] in st.cards
    ensures var cards := CardDtos(st, ids);
      forall i :: 0 <= i < |items| ==>
        Some(cards[i].front) == items[i].front && Some(cards[i].back) == items[i].back &&
        Some(cards[i].source) == items[i].source && cards[i].displayOrder == i + 1
  {
    var cards := CardDtos(st, ids);
    forall i | 0 <= i < |items|
      ensures Some(cards[i].front) == items[i].front && Some(cards[i].back) == items[i].back
      ensures Some(cards[i].source) == items[i].source && cards[i].displayOrder == i + 1
    {
      assert ids[i] == n + i;
      var c := st.cards[n + i];
      assert cards[i] == ToDto(n + i, c);
      assert Some(c.front) == items[i].front && Some(c.back) == items[i].back;
      assert Some(Value(c.source)) == items[i].source && c.displayOrder == i + 1;
    }
  }

  /** Reading a generation back after a successful update lists the
      submitted cards in request order, numbered 1..N. */
  lemma UpdatedGenerationReadsBack(st: Store, user: Option<UserId>, id: nat, flashcards: Option<seq<UpdateItem>>)
    requires Valid(st)
    requires UpdateGeneration(st, user, id, flashcards).reply.Success?
    ensures var items := flashcards.GetOr([]);
      var r := GetGeneration(UpdateGeneration(st, user, id, flashcards).store, user, id);
      r.Success? && |r.data.cards| == |items| &&
      forall i :: 0 <= i < |items| ==>
        Some(r.data.cards[i].front) == items[i].front && Some(r.data.cards[i].back) == items[i].back &&
        Some(r.data.cards[i].source) == items[i].source && r.data.cards[i].displayOrder == i + 1
  {
    var s := UpdateGeneration(st, user, id, flashcards);
    assert user.Some? && OwnsGeneration(st, user.value, id);
    assert s.store.nextCard == st.nextCard + |flashcards.GetOr([])|;
    ReadBackItems(s.store, user.value, id, st.nextCard, flashcards.GetOr([]));
  }

  /** The two versions agree on every request that does not fail: the fix
      only changes what a failing request leaves behind. */
  lemma UpdateGenerationAgreesOnSuccess(st: Store, user: Option<UserId>, id: nat, flashcards: Option<seq<UpdateItem>>)
    requires UpdateGeneration(st, user, id, flashcards).reply.Success?
    ensures UpdateGenerationAsWritten(st, user, id, flashcards) == UpdateGeneration(st, user, id, flashcards)
  {
    var items := flashcards.GetOr([]);
    assert items[..|items|] == items;
  }

  // ---------------------------------------------------------------------
  // DELETE /api/generations/{id}

  const DeleteDone: string := "Generation deleted successfully"

  /** `deleteGeneration`: the generation's cards go first, then the
      generation. */
  function DeleteGeneration(st: Store, user: Option<UserId>, id: nat): (s: Step<string>)
    ensures user.None? ==> s == Step(st, Unauthorized(UserNotFound))
    ensures (user.Some? && !OwnsGeneration(st, user.value, id)) ==> s == Step(st, NotFound)
    ensures (user.Some? && OwnsGeneration(st, user.value, id)) ==>
      (s.reply == Success(DeleteDone) &&
       s.store.generations == st.generations - {id} &&
       (forall c :: c in s.store.cards <==> c in st.cards && st.cards[c].generation != Some(id)) &&
       (forall c :: c in s.store.cards ==> s.store.cards[c] == st.cards[c]))
    ensures Valid(st) ==> Valid(s.store)
  {
    if user.None? then Step(st, Unauthorized(UserNotFound))
    else if !OwnsGeneration(st, user.value, id) then Step(st, NotFound)
    else
      var r := st.(cards := WithoutCardsOf(st.cards, id), generations := st.generations - {id});
      Step(r, Success(DeleteDone))
  }

  // ---------------------------------------------------------------------
  // FlashcardController

  /** The request bodies after JSON binding; a field the body leaves out
      or sends as `null` is `None`. */
  datatype CreateCommand = CreateCommand(
    front: Option<string>, back: Option<string>, source: Option<string>,
    generationId: Option<nat>, displayOrder: Option<int>)
  datatype UpdateCommand = UpdateCommand(front: Option<string>, back: Option<string>, source: Option<string>)

  const DeleteCardDone: string := "Flashcard deleted successfully"

  /** The `@Pattern` alternatives of the two commands: an update may not
      declare a card `ai-full`. */
  const CreateSources: set<string> := {"manual", "ai-full", "ai-edited"}
  const UpdateSources: set<string> := {"manual", "ai-edited"}

  /** Bean Validation's `@NotBlank`: present, and not empty after Java's
      `trim`. */
  predicate NotBlank(v: Option<string>) {
    v.Some? && Text.JavaTrim(v.value) != ""
  }

  /** `@Size(max = 1000)` on front and back, which a `null` satisfies. */
  predicate FitsCardText(v: Option<string>) {
    v.None? || |v.value| <= 1000
  }

  /** `@Pattern`, a whole-string match, which a `null` satisfies. */
  predicate MatchesOneOf(v: Option<string>, alternatives: set<string>) {
    v.None? || v.value in alternatives
  }

  predicate CardTextValid(v: Option<string>) {
    NotBlank(v) && FitsCardText(v)
  }

  /** The constraints of `CreateFlashcardCommand`, checked by `@Valid`
      before the controller runs. */
  predicate CreateCommandValid(cmd: CreateCommand) {
    CardTextValid(cmd.front) && CardTextValid(cmd.back) &&
    NotBlank(cmd.source) && MatchesOneOf(cmd.source, CreateSources) &&
    cmd.displayOrder.Some?
  }

  /** The constraints of `UpdateFlashcardCommand`. */
  predicate UpdateCommandValid(cmd: UpdateCommand) {
    CardTextValid(cmd.front) && CardTextValid(cmd.back) &&
    NotBlank(cmd.source) && MatchesOneOf(cmd.source, UpdateSources)
  }

  /** `createFlashcard`: a body that fails validation is 400 and nothing
      is saved. Otherwise the command's fields are copied unchanged; the
      generation is attached only when the caller owns it, and otherwise
      the card is saved without one. */
  function CreateFlashcard(st: Store, user: UserId, cmd: CreateCommand): (s: Step<CardDto>)
    ensures !CreateCommandValid(cmd) ==> s == Step(st, BadRequest)
    ensures s.reply.Success? <==> CreateCommandValid(cmd)
    ensures CreateCommandValid(cmd) ==>
      st.nextCard in s.store.cards &&
      var c := s.store.cards[st.nextCard];
      s.store.generations == st.generations &&
      s.store.cards.Keys == st.cards.Keys + {st.nextCard} &&
      (Valid(st) ==> forall id :: id in st.cards ==> s.store.cards[id] == st.cards[id]) &&
      c.front == cmd.front.value && c.back == cmd.back.value && Value(c.source) == cmd.source.value &&
      c.displayOrder == cmd.displayOrder.value && c.owner == user &&
      (c.generation.Some? <==> cmd.generationId.Some? && OwnsGeneration(st, user, cmd.generationId.value)) &&
      (c.generation.Some? ==> c.generation == cmd.generationId) &&
      s.reply == Success(ToDto(st.nextCard, c))
    ensures Valid(st) ==> Valid(s.store)
  {
    if !CreateCommandValid(cmd) then Step(st, BadRequest)
    else
      var source := FromValue(cmd.source).value;
      var g := if cmd.generationId.Some? && OwnsGeneration(st, user, cmd.generationId.value) then cmd.generationId else None;
      var c := Card(cmd.front.value, cmd.back.value, source, cmd.displayOrder.value, user, g);
      var r := Append(st, [c]);
      assert r.cards[st.nextCard] == c;
      Step(r, Success(ToDto(st.nextCard, c)))
  }

  /** `updateFlashcard`: a body that fails validation is 400 before the
      card is looked up; a card the caller does not own is 404. Otherwise
      only front, back and source change, and the source is never
      `ai-full`; the owner, the generation and the display order are
      kept. */
  function UpdateFlashcard(st: Store, user: UserId, id: nat, cmd: UpdateCommand): (s: Step<CardDto>)
    ensures !UpdateCommandValid(cmd) ==> s == Step(st, BadRequest)
    ensures UpdateCommandValid(cmd) && !OwnsCard(st, user, id) ==> s == Step(st, NotFound)
    ensures s.reply.Success? <==> UpdateCommandValid(cmd) && OwnsCard(st, user, id)
    ensures s.reply.Success? ==>
      id in s.store.cards &&
      var prev := st.cards[id];
      var c := s.store.cards[id];
      s.store.generations == st.generations &&
      s.store.cards.Keys == st.cards.Keys &&
      (forall o :: o in st.cards && o != id ==> s.store.cards[o] == st.cards[o]) &&
      c.front == cmd.front.value && c.back == cmd.back.value && Value(c.source) == cmd.source.value &&
      c.source != AiFull &&
      c.owner == prev.owner && c.generation == prev.generation && c.displayOrder == prev.displayOrder &&
      s.reply == Success(ToDto(id, c))
    ensures Valid(st) ==> Valid(s.store)
  {
    if !UpdateCommandValid(cmd) then Step(st, BadRequest)
    else if !OwnsCard(st, user, id) then Step(st, NotFound)
    else
      var c := st.cards[id].(front := cmd.front.value, back := cmd.back.value, source := FromValue(cmd.source).value);
      Step(st.(cards := st.cards[id := c]), Success(ToDto(id, c)))
  }

  /** An update can keep or clear the AI origin of a card but never mark
      it as unedited AI output: `ai-full` in the body is refused as a 400
      however the card stands, and nothing changes. */
  lemma UpdateToAiFullIsRefused(st: Store, user: UserId, id: nat, front: string, back: string)
    ensures UpdateFlashcard(st, user, id, UpdateCommand(Some(front), Some(back), Some("ai-full"))) == Step(st, BadRequest)
  {
    assert "ai-full" !in UpdateSources;
  }

  /** With text and display order in order, a create succeeds exactly for
      the three source names the card's source type knows. */
  lemma CreateAcceptsExactlyKnownSources(st: Store, user: UserId, cmd: CreateCommand)
    requires CardTextValid(cmd.front) && CardTextValid(cmd.back) && cmd.displayOrder.Some?
    ensures CreateFlashcard(st, user, cmd).reply.Success? <==> FromValue(cmd.source).Ok?
  {
    if cmd.source.Some? && cmd.source.value in ValidValues {
      var v := cmd.source.value;
      assert !Text.IsJavaTrimmable(v[0]) && !Text.IsJavaTrimmable(v[|v| - 1]);
      Text.TrimKeepsCleanString(v, Text.IsJavaTrimmable);
      assert Text.JavaTrim(v) == v;
    }
  }

  /** `deleteFlashcard`: exactly the addressed card goes. */
  function DeleteFlashcard(st: Store, user: UserId, id: nat): (s: Step<string>)
    ensures !OwnsCard(st, user, id) ==> s == Step(st, NotFound)
    ensures OwnsCard(st, user, id) ==>
      (s == Step(st.(cards := st.cards - {id}), Success(DeleteCardDone)) &&
       id !in s.store.cards && s.store.cards.Keys == st.cards.Keys - {id})
    ensures Valid(st) ==> Valid(s.store)
  {
    if !OwnsCard(st, user, id) then Step(st, NotFound)
    else Step(st.(cards := st.cards - {id}), Success(DeleteCardDone))
  }
}

=== FILE: supabase_auth.dfy ===
/** `SupabaseAuthService` of the Spring backend: how it reads the auth
    server's replies to a login and a registration, and how it digs the
    `error_description` out of an error body. The HTTP exchange is an
    oracle reply; token signing is a function parameter. */
module SupabaseAuth {
  import opened Wrappers
  import opened Text
  import Sources

  /** What precedes the description in the error body. */
  const DescriptionKey: string := "error_description"
  const Marker: string := "\"" + DescriptionKey + "\":\""

  /** `extractErrorMessage`: the characters after the first marker up to
      the next quote, when that is a non-empty run; the exception's own
      message otherwise (no marker, an empty description, or no closing
      quote). */
  function ExtractErrorMessage(body: string, fallback: string): (m: string)
    ensures m == fallback || (|m| > 0 && '"' !in m)
    ensures m != fallback ==>
      exists i :: IndexOfFrom(body, Marker, 0) == Some(i) && StartsAt(body, Marker + m + "\"", i)
    ensures var i := IndexOfFrom(body, Marker, 0);
      i.Some? ==> var e := IndexOfFrom(body, "\"", i.value + |Marker|);
        e.Some? && e.value > i.value + |Marker| ==> m == body[i.value + |Marker|..e.value]
  {
    if !Contains(body, DescriptionKey) then
      MarkerHoldsKey(body);
      fallback
    else
      match IndexOfFrom(body, Marker, 0)
      case None => fallback
      case Some(i) =>
        var start := i + |Marker|;
        match IndexOfFrom(body, "\"", start)
        case Some(end) =>
          if end > start then
            RunBeforeQuote(body, i, end);
            body[start..end]
          else fallback
        case None => fallback
  }

  /** The run between the marker at `i` and the first quote after it
      holds no quote, and marker, run and quote sit together at `i`. */
  lemma RunBeforeQuote(body: string, i: nat, end: nat)
    requires StartsAt(body, Marker, i) && StartsAt(body, "\"", end) && i + |Marker| <= end
    requires forall k :: i + |Marker| <= k < end ==> !StartsAt(body, "\"", k)
    ensures end < |body|
    ensures '"' !in body[i + |Marker|..end]
    ensures body[i..end + 1] == Marker + body[i + |Marker|..end] + "\""
  {
    var start := i + |Marker|;
    assert body[i..start] == Marker;
    assert body[end..end + 1] == "\"";
    var run := body[start..end];
    forall j | 0 <= j < |run| ensures run[j] != '"' {
      var k := start + j;
      assert !StartsAt(body, "\"", k);
      assert body[k..k + 1] == [body[k]];
      assert run[j] == body[k];
    }
    assert body[i..end + 1] == body[i..start] + run + body[end..end + 1];
  }

  /** Wherever the marker occurs, the key occurs one character later, so
      the `contains` test never hides a marker. */
  lemma MarkerHoldsKey(body: string)
    ensures IndexOfFrom(body, Marker, 0).Some? ==> Contains(body, DescriptionKey)
  {
    if IndexOfFrom(body, Marker, 0).Some? {
      var i := IndexOfFrom(body, Marker, 0).value;
      assert body[i..i + |Marker|] == Marker;
      forall k | 0 <= k < |DescriptionKey| ensures body[i + 1 + k] == DescriptionKey[k] {
        assert body[i + 1 + k] == body[i..i + |Marker|][1 + k] == Marker[1 + k];
      }
      assert body[i + 1..i + 1 + |DescriptionKey|] == DescriptionKey;
      assert StartsAt(body, DescriptionKey, i + 1);
    }
  }

  /** A body carrying a non-empty, quote-free description after its first
      marker gives exactly that description back, whatever precedes the
      marker (the `"error":…` entry of Supabase's error bodies included). */
  lemma ExtractsDescription(before: string, description: string, after: string, fallback: string)
    requires forall k :: 0 <= k < |before| ==> !StartsAt(before + Marker + description + "\"" + after, Marker, k)
    requires '"' !in description && |description| > 0
    ensures ExtractErrorMessage(before + Marker + description + "\"" + after, fallback) == description
  {
    var rest := description + "\"" + after;
    var body := before + Marker + description + "\"" + after;
    assert body == before + Marker + rest;
    var start := |before| + |Marker|;
    assert body[|before|..start] == Marker;
    IndexOfFromFinds(body, Marker, 0, |before|);
    assert body[start..] == rest;
    QuoteEndsDescription(body, start, description, after);
  }

  /** Supabase's reply to a wrong password, `{"error":"invalid_grant",`
      then the marker, the description and `"}`: the description is read
      out although a quoted `error` entry comes first. */
  lemma ReadsSupabaseErrorBody(fallback: string)
    ensures ExtractErrorMessage("{\"error\":\"invalid_grant\"," + Marker + "Invalid login credentials\"}", fallback)
      == "Invalid login credentials"
  {
    var before := "{\"error\":\"invalid_grant\",";
    var description := "Invalid login credentials";
    var body := before + Marker + description + "\"" + "}";
    assert body == "{\"error\":\"invalid_grant\"," + Marker + "Invalid login credentials\"}";
    forall k | 0 <= k < |before| ensures !StartsAt(body, Marker, k) {
      assert body[k] == before[k];
      if k + 1 < |before| {
        assert body[k + 1] == before[k + 1];
      }
      if k + 6 < |before| {
        assert body[k + 6] == before[k + 6];
      }
      if k + |Marker| <= |body| {
        assert body[k..k + |Marker|][0] == body[k];
        assert body[k..k + |Marker|][1] == body[k + 1];
        assert body[k..k + |Marker|][6] == body[k + 6];
      }
    }
    ExtractsDescription(before, description, "}", fallback);
  }

  /** A quote-free description followed by a quote is cut out whole. */
  lemma QuoteEndsDescription(body: string, start: nat, description: string, after: string)
    requires start <= |body| && body[start..] == description + "\"" + after
    requires '"' !in description
    ensures IndexOfFrom(body, "\"", start) == Some(start + |description|)
    ensures body[start..start + |description|] == description
  {
    var end := start + |description|;
    assert body[end] == body[start..][|description|] == '"';
    assert StartsAt(body, "\"", end) by {
      assert body[end..end + 1] == [body[end]];
    }
    forall k | start <= k < end ensures !StartsAt(body, "\"", k) {
      assert body[k] == body[start..][k - start] == description[k - start];
    }
    IndexOfFromFinds(body, "\"", start, end);
    assert body[start..end] == body[start..][..|description|];
  }

  // ---------------------------------------------------------------------
  // Replies

  /** The `identities` entry of the user: a list of some length, or
      anything else. */
  datatype Identities = IdentityList(count: nat) | NotAList

  /** The `user` entry of a reply. */
  datatype UserValue =
    | NullUser
    | UserObject(id: Option<string>, email: Option<string>, identities: Identities, confirmed: bool)

  /** What the exchange with the auth server gives: an error status
      (`WebClientResponseException`, with its body and message), another
      exception, or a body whose map may be null (outer `None`) or lack a
      `user` key (inner `None`). */
  datatype AuthReply =
    | ErrorStatus(body: string, exceptionMessage: string)
    | Threw(message: Option<string>)
    | Replied(response: Option<Option<UserValue>>)

  /** Why a call failed: a `RuntimeException` with a message, or a null
      `user` entry dereferenced (the JVM's message is not modelled). */
  datatype AuthFailure = Failed(message: string) | NullUserDereferenced

  datatype LoginResponse = LoginResponse(token: string, id: string, email: string)

  const LoginPrefix: string := "Authentication failed: "
  const NoUserData: string := "Authentication failed - no user data received"
  const InvalidUserData: string := "Authentication failed - invalid user data"

  /** `login`: every failure inside the `try`, the service's own included,
      is caught and re-wrapped with the prefix. */
  function Login(reply: AuthReply, generateToken: (string, string, string) -> string): (r: Result<LoginResponse, AuthFailure>)
    ensures r.Ok? <==> (reply.Replied? && reply.response.Some? && reply.response.value.Some? &&
      reply.response.value.value.UserObject? &&
      reply.response.value.value.id.Some? && reply.response.value.value.email.Some?)
    ensures r.Ok? ==> (r.value.id == reply.response.value.value.id.value &&
      r.value.email == reply.response.value.value.email.value &&
      r.value.token == generateToken(r.value.id, r.value.email, ""))
    ensures reply.ErrorStatus? ==> r == Err(Failed(LoginPrefix + ExtractErrorMessage(reply.body, reply.exceptionMessage)))
    ensures reply.Threw? ==> r == Err(Failed(LoginPrefix + Sources.JavaString(reply.message)))
    ensures reply.Replied? && (reply.response.None? || reply.response.value.None?) ==>
      r == Err(Failed(LoginPrefix + NoUserData))
  {
    match reply
    case ErrorStatus(body, message) => Err(Failed(LoginPrefix + ExtractErrorMessage(body, message)))
    case Threw(message) => Err(Failed(LoginPrefix + Sources.JavaString(message)))
    case Replied(response) =>
      if response.None? || response.value.None? then Err(Failed(LoginPrefix + NoUserData))
      else
        match response.value.value
        case NullUser => Err(NullUserDereferenced)
        case UserObject(id, email, _, _) =>
          if id.None? || email.None? then Err(Failed(LoginPrefix + InvalidUserData))
          else Ok(LoginResponse(generateToken(id.value, email.value, ""), id.value, email.value))
  }

  datatype Registration = Registration(user: UserValue, requiresEmailConfirmation: bool, message: string)

  const RegisterPrefix: string := "Registration failed: "
  const NoRegistrationData: string := "Registration failed - no user data received"
  const AlreadyRegistered: string := "This email is already registered. Please check your email for the confirmation link or try logging in."
  const CanLogIn: string := "Registration successful! You can now log in."
  const CheckEmail: string := "Please check your email for a confirmation link to complete your registration."

  /** `register`: an empty `identities` list means the address is taken;
      otherwise the user must confirm by e-mail unless `confirmed_at` is
      set. */
  function Register(reply: AuthReply): (r: Result<Registration, AuthFailure>)
    ensures r.Ok? ==> (reply.Replied? && reply.response.Some? && reply.response.value.Some? &&
      r.value.user == reply.response.value.value && r.value.user.UserObject? &&
      r.value.user.identities != IdentityList(0))
    ensures r.Ok? ==> (r.value.requiresEmailConfirmation <==> !r.value.user.confirmed)
    ensures r.Ok? ==> r.value.message == (if r.value.requiresEmailConfirmation then CheckEmail else CanLogIn)
    ensures reply.ErrorStatus? ==> r == Err(Failed(RegisterPrefix + ExtractErrorMessage(reply.body, reply.exceptionMessage)))
    ensures reply.Threw? ==> r == Err(Failed(RegisterPrefix + Sources.JavaString(reply.message)))
  {
    match reply
    case ErrorStatus(body, message) => Err(Failed(RegisterPrefix + ExtractErrorMessage(body, message)))
    case Threw(message) => Err(Failed(RegisterPrefix + Sources.JavaString(message)))
    case Replied(response) =>
      if response.None? || response.value.None? then Err(Failed(RegisterPrefix + NoRegistrationData))
      else
        match response.value.value
        case NullUser => Err(NullUserDereferenced)
        case UserObject(_, _, identities, confirmed) =>
          if identities == IdentityList(0) then Err(Failed(RegisterPrefix + AlreadyRegistered))
          else if confirmed then Ok(Registration(response.value.value, false, CanLogIn))
          else Ok(Registration(response.value.value, true, CheckEmail))
  }

  /** A registration reply for a user is rejected as already registered
      exactly when its `identities` is an empty list, and accepted
      otherwise. */
  lemma RegisterClassifiesUsers(id: Option<string>, email: Option<string>, identities: Identities, confirmed: bool)
    ensures var r := Register(Replied(Some(Some(UserObject(id, email, identities, confirmed)))));
      (r == Err(Failed(RegisterPrefix + AlreadyRegistered)) <==> identities == IdentityList(0)) &&
      (r.Ok? <==> identities != IdentityList(0))
  {
  }

  const RecoverMessage: string := "If an account exists with that email, password reset instructions have been sent."
  const LogoutMessage: string := "Logged out successfully"

  /** `recover`: a fixed reply, whatever the address. */
  function Recover(email: string): (r: map<string, string>)
    ensures r == map["message" := RecoverMessage]
  {
    map["message" := RecoverMessage]
  }

  /** `logout`: a fixed reply. */
  function Logout(): (r: map<string, string>)
    ensures "message" in r && r["message"] == LogoutMessage && |r| == 1
  {
    map["message" := LogoutMessage]
  }
}

=== FILE: text.dfy ===
/** String primitives the source takes from its runtimes: Java's `trim`,
    `indexOf` and `split`, ECMAScript's `trim` and `parseInt`, and decimal
    rendering of integers. Strings are sequences of `char`. */
module Text {
  import opened Wrappers

  // ---------------------------------------------------------------------
  // Character classes

  /** Java `String.trim` removes every char at or below U+0020. */
  predicate IsJavaTrimmable(c: char) {
    c <= ' '
  }

  /** The Java regular-expression class `\s`: `[ \t\n\x0B\f\r]`. */
  predicate IsRegexSpace(c: char) {
    c == ' ' || c == '\t' || c == '\n' || c == '\U{000B}' || c == '\U{000C}' || c == '\r'
  }

  /** ECMAScript WhiteSpace and LineTerminator code points, the set that
      `String.prototype.trim` and `parseInt` skip. */
  predicate IsJsWhitespace(c: char) {
    || c == '\t' || c == '\U{000B}' || c == '\U{000C}' || c == ' '
    || c == '\U{00A0}' || c == '\U{FEFF}' || c == '\U{1680}'
    || ('\U{2000}' <= c <= '\U{200A}')
    || c == '\U{202F}' || c == '\U{205F}' || c == '\U{3000}'
    || c == '\n' || c == '\r' || c == '\U{2028}' || c == '\U{2029}'
  }

  predicate IsDigit(c: char) {
    '0' <= c <= '9'
  }

  predicate AllDigits(s: string) {
    forall i :: 0 <= i < |s| ==> IsDigit(s[i])
  }

  // ---------------------------------------------------------------------
  // Trimming

  /** Number of leading chars of `s` that satisfy `ws`. */
  function LeadingCount(s: string, ws: char -> bool): (n: nat)
    ensures n <= |s|
    ensures forall k :: 0 <= k < n ==> ws(s[k])
    ensures n < |s| ==> !ws(s[n])
  {
    if |s| == 0 || !ws(s[0]) then 0 else 1 + LeadingCount(s[1..], ws)
  }

  /** Number of trailing chars of `s` that satisfy `ws`. */
  function TrailingCount(s: string, ws: char -> bool): (n: nat)
    ensures n <= |s|
    ensures forall k :: |s| - n <= k < |s| ==> ws(s[k])
    ensures n < |s| ==> !ws(s[|s| - n - 1])
  {
    if |s| == 0 || !ws(s[|s| - 1]) then 0 else 1 + TrailingCount(s[..|s| - 1], ws)
  }

  /** `s` without its leading and trailing `ws` chars. */
  function Trim(s: string, ws: char -> bool): (r: string)
    ensures LeadingCount(s, ws) + |r| <= |s|
    ensures r == s[LeadingCount(s, ws)..LeadingCount(s, ws) + |r|]
    ensures forall k :: 0 <= k < LeadingCount(s, ws) ==> ws(s[k])
    ensures forall k :: LeadingCount(s, ws) + |r| <= k < |s| ==> ws(s[k])
    ensures r == [] || (!ws(r[0]) && !ws(r[|r| - 1]))
  {
    var a := LeadingCount(s, ws);
    var rest := s[a..];
    var b := TrailingCount(rest, ws);
    assert b < |rest| ==> rest[|rest| - b - 1] == s[a + |rest| - b - 1];
    rest[..|rest| - b]
  }

  /** Trimming is idempotent. */
  lemma TrimIdempotent(s: string, ws: char -> bool)
    ensures Trim(Trim(s, ws), ws) == Trim(s, ws)
  {
    TrimKeepsCleanString(Trim(s, ws), ws);
  }

  /** A string whose ends are not white space is its own trim. */
  lemma TrimKeepsCleanString(s: string, ws: char -> bool)
    requires s == [] || (!ws(s[0]) && !ws(s[|s| - 1]))
    ensures Trim(s, ws) == s
  {
    assert LeadingCount(s, ws) == 0;
  }

  /** Trimming `a + m + c`, where `a` and `c` are all white space and `m`
      is non-empty with non-white ends, gives `m`. */
  lemma TrimSurrounded(a: string, m: string, c: string, ws: char -> bool)
    requires forall i :: 0 <= i < |a| ==> ws(a[i])
    requires forall i :: 0 <= i < |c| ==> ws(c[i])
    requires |m| > 0 && !ws(m[0]) && !ws(m[|m| - 1])
    ensures Trim(a + m + c, ws) == m
  {
    var s := a + m + c;
    assert s[|a|] == m[0];
    assert forall i :: 0 <= i < |a| ==> s[i] == a[i];
    assert s[|a| + |m| - 1] == m[|m| - 1];
    assert forall i :: |a| + |m| <= i < |s| ==> s[i] == c[i - |a| - |m|];
    assert s[|a|..|a| + |m|] == m;
  }

  /** Java `String.trim`. */
  function JavaTrim(s: string): string {
    Trim(s, IsJavaTrimmable)
  }

  /** ECMAScript `String.prototype.trim`. */
  function JsTrim(s: string): string {
    Trim(s, IsJsWhitespace)
  }

  // ---------------------------------------------------------------------
  // Searching

  /** `p` occurs in `s` starting at index `i`. */
  predicate StartsAt(s: string, p: string, i: nat) {
    i + |p| <= |s| && s[i..i + |p|] == p
  }

  predicate StartsWith(s: string, p: string) {
    StartsAt(s, p, 0)
  }

  /** Java `s.indexOf(p, from)`, with `None` for -1. */
  function IndexOfFrom(s: string, p: string, from: nat): (r: Option<nat>)
    decreases |s| - from
    ensures r.Some? ==> from <= r.value && StartsAt(s, p, r.value)
    ensures r.Some? ==> forall k :: from <= k < r.value ==> !StartsAt(s, p, k)
    ensures r.None? ==> forall k :: from <= k ==> !StartsAt(s, p, k)
  {
    if from + |p| > |s| then None
    else if StartsAt(s, p, from) then Some(from)
    else IndexOfFrom(s, p, from + 1)
  }

  /** An occurrence with none before it, from `from` on, is the one
      `IndexOfFrom` finds. */
  lemma IndexOfFromFinds(s: string, p: string, from: nat, at: nat)
    requires from <= at && StartsAt(s, p, at)
    requires forall k :: from <= k < at ==> !StartsAt(s, p, k)
    ensures IndexOfFrom(s, p, from) == Some(at)
  {
  }

  predicate Contains(s: string, p: string) {
    IndexOfFrom(s, p, 0).Some?
  }

  /** Index of the first occurrence of `c` in `s`. */
  function FirstIndexOf(s: string, c: char): (r: Option<nat>)
    ensures r.Some? ==> r.value < |s| && s[r.value] == c
    ensures r.Some? ==> forall k :: 0 <= k < r.value ==> s[k] != c
    ensures r.None? ==> forall k :: 0 <= k < |s| ==> s[k] != c
  {
    if |s| == 0 then None
    else if s[0] == c then Some(0)
    else match FirstIndexOf(s[1..], c)
      case None => None
      case Some(k) => Some(k + 1)
  }

  /** Index of the last occurrence of `c` in `s`. */
  function LastIndexOf(s: string, c: char): (r: Option<nat>)
    ensures r.Some? ==> r.value < |s| && s[r.value] == c
    ensures r.Some? ==> forall k :: r.value < k < |s| ==> s[k] != c
    ensures r.None? ==> forall k :: 0 <= k < |s| ==> s[k] != c
  {
    if |s| == 0 then None
    else if s[|s| - 1] == c then Some(|s| - 1)
    else LastIndexOf(s[..|s| - 1], c)
  }

  // ---------------------------------------------------------------------
  // Splitting on a literal delimiter

  /** Concatenation of `parts` with `d` between neighbours. */
  function Join(parts: seq<string>, d: string): string {
    if |parts| == 0 then ""
    else if |parts| == 1 then parts[0]
    else parts[0] + d + Join(parts[1..], d)
  }

  /** An occurrence of `d` inside a prefix of `s` is an occurrence in `s`. */
  lemma OccurrenceInPrefix(s: string, d: string, k: nat, j: nat)
    requires k <= |s| && StartsAt(s[..k], d, j)
    ensures StartsAt(s, d, j) && j + |d| <= k
  {
    assert s[..k][j..j + |d|] == s[j..j + |d|];
  }

  /** Left-to-right, non-overlapping split of `s` at every occurrence of
      `d`, keeping empty pieces. */
  function SplitOn(s: string, d: string): (parts: seq<string>)
    requires |d| > 0
    decreases |s|
    ensures |parts| >= 1
    ensures Join(parts, d) == s
    ensures forall i :: 0 <= i < |parts| ==> !Contains(parts[i], d)
  {
    match IndexOfFrom(s, d, 0)
    case None => [s]
    case Some(k) =>
      var head := s[..k];
      var tail := SplitOn(s[k + |d|..], d);
      assert !Contains(head, d) by {
        if Contains(head, d) {
          var j := IndexOfFrom(head, d, 0).value;
          OccurrenceInPrefix(s, d, k, j);
        }
      }
      assert s == head + d + s[k + |d|..];
      [head] + tail
  }

  /** `parts` without its trailing empty strings. */
  function DropTrailingEmpty(parts: seq<string>): (r: seq<string>)
    ensures |r| <= |parts| && r == parts[..|r|]
    ensures forall i :: |r| <= i < |parts| ==> parts[i] == ""
    ensures r == [] || r[|r| - 1] != ""
  {
    if |parts| == 0 || parts[|parts| - 1] != "" then parts
    else DropTrailingEmpty(parts[..|parts| - 1])
  }

  /** Java `s.split(d)` for a delimiter without regex metacharacters: the
      whole string when `d` does not occur, otherwise the pieces without
      trailing empty strings. */
  function JavaSplit(s: string, d: string): (parts: seq<string>)
    requires |d| > 0
    ensures !Contains(s, d) ==> parts == [s]
    ensures Contains(s, d) ==> |parts| <= |SplitOn(s, d)| && parts == SplitOn(s, d)[..|parts|]
    ensures Contains(s, d) ==> forall i :: |parts| <= i < |SplitOn(s, d)| ==> SplitOn(s, d)[i] == ""
  {
    if !Contains(s, d) then [s] else DropTrailingEmpty(SplitOn(s, d))
  }

  // ---------------------------------------------------------------------
  // Decimal numbers

  function DigitChar(d: nat): (c: char)
    requires d < 10
    ensures IsDigit(c)
  {
    "0123456789"[d]
  }

  function DigitValue(c: char): (d: nat)
    requires IsDigit(c)
    ensures d < 10
  {
    (c as int - '0' as int) as nat
  }

  lemma DigitRoundTrip(d: nat)
    requires d < 10
    ensures DigitValue(DigitChar(d)) == d
  {
  }

  /** Decimal rendering of a natural number, as `String.valueOf` and
      template literals print it: no sign, no leading zeros. */
  function NatToDecimal(n: nat): (r: string)
    ensures |r| >= 1 && AllDigits(r)
    ensures r[0] != '0' || n == 0
    decreases n
  {
    if n < 10 then [DigitChar(n)] else NatToDecimal(n / 10) + [DigitChar(n % 10)]
  }

  /** Value of a string of decimal digits. */
  function DecimalValue(s: string): nat
    requires AllDigits(s)
  {
    if |s| == 0 then 0 else DecimalValue(s[..|s| - 1]) * 10 + DigitValue(s[|s| - 1])
  }

  lemma {:induction false} DecimalRoundTrip(n: nat)
    ensures DecimalValue(NatToDecimal(n)) == n
    decreases n
  {
    if n >= 10 {
      var r := NatToDecimal(n);
      assert r[..|r| - 1] == NatToDecimal(n / 10);
      DecimalRoundTrip(n / 10);
    }
  }

  /** Decimal rendering of an integer with a leading `-` when negative. */
  function IntToDecimal(i: int): (r: string)
    ensures |r| >= 1
  {
    if i < 0 then "-" + NatToDecimal(-i) else NatToDecimal(i)
  }

  /** Length of the longest all-digit prefix of `s`. */
  function DigitPrefixLength(s: string): (n: nat)
    ensures n <= |s| && AllDigits(s[..n])
    ensures n < |s| ==> !IsDigit(s[n])
  {
    if |s| == 0 || !IsDigit(s[0]) then 0
    else
      var m := DigitPrefixLength(s[1..]);
      assert s[..1 + m] == [s[0]] + s[1..][..m];
      1 + m
  }

  /** ECMAScript `parseInt(s, 10)`: skip leading white space, read an
      optional sign and the longest run of digits; `None` stands for `NaN`
      when no digit follows. Trailing garbage is ignored. */
  function ParseIntJs(s: string): (r: Option<int>)
  {
    ParseSigned(s[LeadingCount(s, IsJsWhitespace)..])
  }

  /** An optional sign, then digits. */
  function ParseSigned(t: string): (r: Option<int>)
  {
    if |t| > 0 && t[0] == '-' then
      match ParseDigits(t[1..])
      case Some(v) => Some(-(v as int))
      case None => None
    else if |t| > 0 && t[0] == '+' then ParseDigits(t[1..])
    else ParseDigits(t)
  }

  /** The value of the longest run of leading digits, if there is one. */
  function ParseDigits(u: string): (r: Option<nat>)
  {
    var n := DigitPrefixLength(u);
    if n == 0 then None else Some(DecimalValue(u[..n]))
  }

  /** Every rendered integer, followed by anything that does not start
      with a digit, parses back to itself: `parseInt("12abc", 10)` is 12. */
  lemma ParseIntJsOfRendered(n: int, rest: string)
    requires rest == [] || !IsDigit(rest[0])
    ensures ParseIntJs(IntToDecimal(n) + rest) == Some(n)
  {
    var m: nat := if n < 0 then -n else n;
    RenderedSign(n, m, rest);
    if n < 0 {
      ParseIntJsOfNegative(m, rest);
    } else {
      ParseIntJsOfNonNegative(m, rest);
    }
  }

  lemma RenderedSign(n: int, m: nat, rest: string)
    requires m == if n < 0 then -n else n
    ensures n < 0 ==> IntToDecimal(n) + rest == "-" + (NatToDecimal(m) + rest)
    ensures n >= 0 ==> IntToDecimal(n) + rest == NatToDecimal(m) + rest
  {
    if n < 0 {
      assert IntToDecimal(n) == "-" + NatToDecimal(m);
    }
  }

  lemma ParseIntJsOfNonNegative(m: nat, rest: string)
    requires rest == [] || !IsDigit(rest[0])
    ensures ParseIntJs(NatToDecimal(m) + rest) == Some(m)
  {
    ParseDigitsOfRendered(m, rest);
    ParseIntJsOfSigned(NatToDecimal(m) + rest, m);
  }

  lemma ParseIntJsOfNegative(m: nat, rest: string)
    requires rest == [] || !IsDigit(rest[0])
    ensures ParseIntJs("-" + (NatToDecimal(m) + rest)) == Some(-(m as int))
  {
    ParseDigitsOfRendered(m, rest);
    ParseIntJsOfSigned(NatToDecimal(m) + rest, m);
  }

  /** Digits with or without a leading minus, and nothing before them. */
  lemma ParseIntJsOfSigned(u: string, m: nat)
    requires |u| > 0 && IsDigit(u[0]) && ParseDigits(u) == Some(m)
    ensures ParseIntJs(u) == Some(m)
    ensures ParseIntJs("-" + u) == Some(-(m as int))
  {
    assert LeadingCount(u, IsJsWhitespace) == 0;
    assert u[0..] == u;
    var s := "-" + u;
    assert LeadingCount(s, IsJsWhitespace) == 0;
    assert s[0..] == s && s[1..] == u;
  }

  lemma ParseDigitsOfRendered(m: nat, rest: string)
    requires rest == [] || !IsDigit(rest[0])
    ensures ParseDigits(NatToDecimal(m) + rest) == Some(m)
    ensures IsDigit((NatToDecimal(m) + rest)[0])
  {
    var digits := NatToDecimal(m);
    var u := digits + rest;
    assert u[0] == digits[0];
    DigitPrefixOfDigits(digits, rest);
    assert u[..|digits|] == digits;
    DecimalRoundTrip(m);
  }

  lemma DigitPrefixOfDigits(digits: string, rest: string)
    requires AllDigits(digits)
    requires rest == [] || !IsDigit(rest[0])
    ensures DigitPrefixLength(digits + rest) == |digits|
  {
    var s := digits + rest;
    assert forall k :: 0 <= k < |digits| ==> s[k] == digits[k];
    assert |digits| < |s| ==> s[|digits|] == rest[0];
  }
}

=== FILE: wrappers.dfy ===
/** Failure-carrying values shared by every module of the model.
    The source signals absence with `null`/`undefined` and failure with
    thrown exceptions; here both become explicit data. */
module Wrappers {

  /** A value that may be absent (`null`, `undefined`, a missing key). */
  datatype Option<+T> = None | Some(value: T) {

    /** The wrapped value, or `default` when absent. */
    function GetOr(default: T): T {
      match this
      case Some(v) => v
      case None => default
    }
  }

  /** The outcome of a step that either produces a value or raises an error. */
  datatype Result<+T, +E> = Ok(value: T) | Err(error: E)
}
